=== FILE: README.md ===
# Muddy string obfuscation, modelled in Dafny

Muddy hides the string literals of an Android app's classes at build time and
puts them back at run time. The repository holds two generations of the
engine. This project models both, together with the build glue that drives
the first one.

**First generation (XOR).**
- `Muddy.xor(s, key)` XORs each UTF-16 unit of a literal with a 32-bit key and
  memoises the result in `constMap` (`MuddyXor`).
- `ModifyConstVisitor` replaces each string `ldc` with `ldc xor(s)` followed by
  `invokestatic Muddy.xor(String)`. Inside `<clinit>` it first emits one store
  per recorded constant field (`ConstVisitor`).
- `ModifyClassVisitor` strips the constant values of `static final String`
  fields, records their encodings, and synthesises a `<clinit>` when it
  believes none exists (`ClassVisitor`).
- `MuddyDump.dump(key)` generates the runtime decoder class (`MuddyDump`).
- `MuddyTransform` runs the class rewrite over the directories and jars of a
  Gradle build (`Transform`). It uses the path helpers of `FileUtils` and
  `Util` (`Paths`) and the deferred task configuration of
  `TaskConfigurationActions` (`TaskConfig`).

**Second generation (array splitting).**
- `ObfuscatedString.array(s)` encodes a NUL-free string as UTF-8 (`Utf8`). It
  packs the bytes little-endian into longs and XORs them with a
  pseudo-random stream seeded by element 0. The `Codec` of `toString` inverts
  this (`ObfuscatedString`).
- The bytex `MuddyPlugin` rewrites tree-form classes. Each string `ldc`
  becomes code that builds the `long[]` and decodes it, and constant fields are
  initialised in `<clinit>` (`BytexPlugin`).

**Shared.**
- `Jvm` holds the slice of the class-file format these components touch:
  opcodes, access flags, and instruction, field, method and class records.
- `Machine` is a small interpreter for the straight-line code the rewrites
  emit. It shows that a rewritten `ldc` pushes the literal it replaced. It
  supports only the instructions those sequences use (listed under
  "## Left out").

The central results are:
- `MuddyDump.DecoderRoundTrip`: the generated decoder returns the literal from
  its build-time encoding.
- `Machine.ExpectedSimulates`: a rewritten method body and the original,
  run by `Machine`, end alike up to the decoder cache. Both runs stop at
  the first instruction `Machine` does not support, so for most real
  method bodies only the prefix before that instruction is compared.
- `ObfuscatedString.RoundTrip`: `Codec.call` gives back exactly the UTF-8
  bytes `array` started from.
- `Machine.DeobfuscatePushesEncoding`: the bytex replacement sequence pushes
  those bytes.

**How things outside the code are modelled.**
- Parameters stand in for:
  - the seed `key()` draws;
  - the `java.util.Random` stream (`Prng`);
  - ASM's reader and writer;
  - the order of `walkBottomUp`;
  - the platform separator.
- Every `HashMap` iterates in insertion order. Where a row below speaks of
  "map order" or "the first entry" of a `HashMap`, it means insertion
  order under this assumption. Real `HashMap` order depends on hashing.
- The decoder class has one internal name, `MUDDY_CLASS`
  (`com/panda912/muddy/Muddy`). The source takes it from three constants
  whose definitions are not part of this model:
  - the `C.MUDDY_CLASS` that `ModifyConstVisitor` imports;
  - the `C.MUDDY_CLASS` that `ModifyClassVisitor` imports;
  - the `MUDDY_CLASS.toInternalName()` that `MuddyDump` uses.

  The model assumes all three name the same class. The link between a
  rewritten call site and the generated decoder rests on this assumption:
  `Machine.ReplacementPushes`, `MuddyDump.DecoderRoundTrip` and
  `Machine.ExpectedSimulates` all use it.
- `MuddyTransform` and `Util` import `com.android.utils.FileUtils` from the
  Android Gradle plugin. That class is not part of this model. The
  repository's own `utils/FileUtils.kt` defines functions of the same names,
  and the model uses it in its place. The rows citing it for
  `deleteIfExists`, `relativePath` and `getOutputFile` are modelled on it.
- A `File` is its absolute path string. The `File` overloads of `Util`'s
  conversions are therefore the string ones applied to that path.

## Model

| member | source | states |
|---|---|---|
| MuddyXor.XorMask | muddy-gradle-plugin/src/main/java/io/github/porum/muddy/plugin/bytecode/Muddy.java:38-42 | the result has the input's length and unit i is input unit i XOR the 16-bit mask |
| MuddyXor.RawXorInvolutive | muddy-gradle-plugin/src/main/java/io/github/porum/muddy/plugin/bytecode/Muddy.java:38-41 | encoding twice with one key gives back the input |
| MuddyXor.XorMaskInvolutive | muddy-gradle-plugin/src/main/java/io/github/porum/muddy/plugin/bytecode/Muddy.java:38-41 | XOR with the same 16-bit mask twice is the identity on strings |
| MuddyXor.RawXorDependsOnLow16 | muddy-gradle-plugin/src/main/java/io/github/porum/muddy/plugin/bytecode/Muddy.java:40 | on a non-empty string two keys give the same encoding iff their low 16 bits agree (the `(char)` cast) |
| MuddyXor.XorMaskDeterminesMask | muddy-gradle-plugin/src/main/java/io/github/porum/muddy/plugin/bytecode/Muddy.java:38-41 | on a non-empty string different masks give different encodings |
| MuddyXor.Xor | muddy-gradle-plugin/src/main/java/io/github/porum/muddy/plugin/bytecode/Muddy.java:32-45 | a hit returns the cached value and leaves the map alone; a miss returns the codec's XOR under the key, whatever the map holds, and stores it under the plaintext; under a map consistent with the key the result is always the plain codec's and consistency is kept |
| MuddyXor.StaleAfterKeyChange | muddy-gradle-plugin/src/main/java/io/github/porum/muddy/plugin/bytecode/Muddy.java:33-36 | because the map is keyed by plaintext only, a second call with a key whose low 16 bits differ returns the first key's encoding, which is not the second key's |
| ConstVisitor.VisitLdc | muddy-gradle-plugin/src/main/java/io/github/porum/muddy/plugin/bytecode/ModifyConstVisitor.java:60-68 | a non-string constant is forwarded unchanged with the cache untouched; a string becomes a string `ldc` followed by the decoder call, and under a consistent cache it is the encoding of the literal |
| ConstVisitor.VisitInsns | muddy-gradle-plugin/src/main/java/io/github/porum/muddy/plugin/bytecode/ModifyConstVisitor.java:26-69 | whatever the cache holds, the stream agrees with the reference rewrite once string literals are blanked: every instruction other than a string `ldc`, including a non-string `ldc`, is forwarded in place, and each string `ldc` becomes a string `ldc` and the decoder call; under a consistent cache the stream equals the reference rewrite and the cache stays consistent |
| ConstVisitor.Prologue | muddy-gradle-plugin/src/main/java/io/github/porum/muddy/plugin/bytecode/ModifyConstVisitor.java:45-49 | one ldc/invokestatic/putstatic triple per map entry, in map order |
| ConstVisitor.VisitCode | muddy-gradle-plugin/src/main/java/io/github/porum/muddy/plugin/bytecode/ModifyConstVisitor.java:42-52 | nothing is added outside `<clinit>` or when the map is null; otherwise the triples of every entry are added in map order |
| ConstVisitor.VisitMethodCode | muddy-gradle-plugin/src/main/java/io/github/porum/muddy/plugin/bytecode/ModifyConstVisitor.java:32-68 | whatever the cache holds, a whole method body starts with the `visitCode` prologue and the rest agrees with the reference rewrite of the original body once string literals are blanked; under a consistent cache the rest is exactly that rewrite and the cache stays consistent |
| ConstVisitor.RestoreExpected | muddy-gradle-plugin/src/main/java/io/github/porum/muddy/plugin/bytecode/ModifyConstVisitor.java:61-67 | the rewrite is invertible: folding each encoded `ldc` and decoder call back into the decoded literal restores the original body exactly |
| ConstVisitor.ExpectedLiterals | muddy-gradle-plugin/src/main/java/io/github/porum/muddy/plugin/bytecode/ModifyConstVisitor.java:61-64 | the string literals of the rewritten body are exactly the encodings of the original literals, in order, so no original literal is emitted |
| ConstVisitor.EncodeAll | muddy-gradle-plugin/src/main/java/io/github/porum/muddy/plugin/bytecode/ModifyConstVisitor.java:63 | element k of the result is literal k encoded under the key |
| ConstVisitor.NoLiteralsFixedPoint | muddy-gradle-plugin/src/main/java/io/github/porum/muddy/plugin/bytecode/ModifyConstVisitor.java:60-68 | code without string literals is left exactly as it is |
| ConstVisitor.DecoderClassUntouched | muddy-gradle-plugin/src/main/java/com/panda912/muddy/plugin/MuddyDump.kt:39-136 | every method of the generated decoder class passes through the const visitor unchanged |
| ClassVisitor.Put | muddy-gradle-plugin/src/main/java/com/panda912/muddy/plugin/bytecode/ModifyClassVisitor.java:67 | `HashMap.put`: an absent key is appended, a present key keeps the key set, and the new entry is present |
| ClassVisitor.VisitField | muddy-gradle-plugin/src/main/java/com/panda912/muddy/plugin/bytecode/ModifyClassVisitor.java:57-73 | the field is forwarded with its value nulled iff it is eligible (String, access exactly public/private/protected + static + final), even when the value was empty; only a non-empty eligible value is recorded, as its encoding; the owner and flag are untouched |
| ClassVisitor.VisitFields | muddy-gradle-plugin/src/main/java/com/panda912/muddy/plugin/bytecode/ModifyClassVisitor.java:57-73 | every field is forwarded in order as `visitField` forwards it, and the map becomes non-null iff it was non-null or some field is recordable |
| ClassVisitor.Recorded | muddy-gradle-plugin/src/main/java/com/panda912/muddy/plugin/bytecode/ModifyClassVisitor.java:63-68 | the reference map holds the recordable fields' names, in map order (declaration order under the insertion-order assumption) |
| ClassVisitor.RecordedNamesFrom | muddy-gradle-plugin/src/main/java/com/panda912/muddy/plugin/bytecode/ModifyClassVisitor.java:63-68 | every recorded name is the name of some field of the class |
| ClassVisitor.VisitFieldsRecords | muddy-gradle-plugin/src/main/java/com/panda912/muddy/plugin/bytecode/ModifyClassVisitor.java:57-73 | with distinct field names and a consistent cache, the field visits build exactly the reference map of encodings, in map order (declaration order under the insertion-order assumption) |
| ClassVisitor.VisitMethods | muddy-gradle-plugin/src/main/java/com/panda912/muddy/plugin/bytecode/ModifyClassVisitor.java:75-81 | each method keeps its name, access and descriptor; each body is rewritten by the const visitor with the map as the fields left it; the flag is the reassigned `clinitExist` |
| ClassVisitor.SynthBody | muddy-gradle-plugin/src/main/java/com/panda912/muddy/plugin/bytecode/ModifyClassVisitor.java:87-94 | four instructions per map entry (ldc, decoder call, putstatic, return), in map order, all in one method |
| ClassVisitor.VisitEnd | muddy-gradle-plugin/src/main/java/com/panda912/muddy/plugin/bytecode/ModifyClassVisitor.java:83-97 | a static `()V` `<clinit>` is added iff the flag is false and the map is non-null |
| ClassVisitor.ModifyClass | muddy-gradle-plugin/src/main/java/com/panda912/muddy/plugin/bytecode/ModifyClassVisitor.java:51-97 | header kept; fields forwarded in order; every original method keeps name, access and descriptor and gets the prologue plus the rewritten body; one method is appended exactly when the final `clinitExist` flag is false and some field is recordable, and it is the static `()V` `<clinit>` with the synthesised body; a consistent cache stays consistent |
| ClassVisitor.FieldMapOfRecorded | muddy-gradle-plugin/src/main/java/com/panda912/muddy/plugin/bytecode/ModifyClassVisitor.java:63-68 | for distinct field names the map handed to methods is null when nothing is recordable, else exactly the recorded encodings |
| ClassVisitor.FlagAfterSnoc | muddy-gradle-plugin/src/main/java/com/panda912/muddy/plugin/bytecode/ModifyClassVisitor.java:77 | after one more method the flag is true iff that method is `<clinit>` and the flag was false |
| ClassVisitor.FlagIsTrailingParity | muddy-gradle-plugin/src/main/java/com/panda912/muddy/plugin/bytecode/ModifyClassVisitor.java:77 | the final flag is true iff the class ends in an odd-length run of `<clinit>` methods |
| ClassVisitor.TrailingAtMostCount | muddy-gradle-plugin/src/main/java/com/panda912/muddy/plugin/bytecode/ModifyClassVisitor.java:77 | the trailing run of `<clinit>`s is no longer than their count |
| ClassVisitor.FlagWithOneClinit | muddy-gradle-plugin/src/main/java/com/panda912/muddy/plugin/bytecode/ModifyClassVisitor.java:77 | with at most one `<clinit>`, the flag ends true iff it is the last method visited |
| ClassVisitor.ClinitCount | muddy-gradle-plugin/src/main/java/com/panda912/muddy/plugin/bytecode/ModifyClassVisitor.java:75-97 | with at most one `<clinit>`, the output has one more exactly when the last method is not `<clinit>` and some field is recordable |
| ClassVisitor.ClinitSynthesised | muddy-gradle-plugin/src/main/java/com/panda912/muddy/plugin/bytecode/ModifyClassVisitor.java:83-95 | a class without `<clinit>` that has a recordable field comes out with exactly one |
| ClassVisitor.DuplicateClinit | muddy-gradle-plugin/src/main/java/com/panda912/muddy/plugin/bytecode/ModifyClassVisitor.java:77 | the flag quirk: a single `<clinit>` followed by another method, plus a recordable field, yields two `<clinit>` methods |
| ClassVisitor.SynthBodyWellTerminated | muddy-gradle-plugin/src/main/java/com/panda912/muddy/plugin/bytecode/ModifyClassVisitor.java:87-94 | the synthesised body has its only `return` at the end iff the map has exactly one entry |
| MuddyDump.DumpShape | muddy-gradle-plugin/src/main/java/com/panda912/muddy/plugin/MuddyDump.kt:19-136 | the class is V1_7, public+super, named as the decoder, extends Object, no interfaces, one private static final `constMap` of type Map, one `<clinit>`, and its `xor` pushes the key with `sipush` |
| MuddyDump.DumpMethods | muddy-gradle-plugin/src/main/java/com/panda912/muddy/plugin/MuddyDump.kt:39-136 | the methods are the private constructor, `xor(String)` and the static initialiser, in that order |
| MuddyDump.DumpHasNoStringLiterals | muddy-gradle-plugin/src/main/java/com/panda912/muddy/plugin/MuddyDump.kt:39-136 | no method of the generated class pushes a string literal, so nothing in it is a rewrite site |
| MuddyDump.FirstSipush | muddy-gradle-plugin/src/main/java/com/panda912/muddy/plugin/MuddyDump.kt:98 | the operand found is that of a `sipush` in the code; none is found only when the code has no `sipush` |
| MuddyDump.SipushValue | muddy-gradle-plugin/src/main/java/com/panda912/muddy/plugin/MuddyDump.kt:98 | the pushed value is a short congruent to the operand modulo 2^16 |
| MuddyDump.SipushValueInRange | muddy-gradle-plugin/src/main/java/com/panda912/muddy/plugin/MuddyDump.kt:98 | for operands in -32768..32767 `sipush` pushes the operand itself |
| MuddyDump.SipushMask | muddy-gradle-plugin/src/main/java/com/panda912/muddy/plugin/MuddyDump.kt:98-100 | the pushed key XORs the same 16 bits as the build-time key, for every int key |
| MuddyDump.DecoderXor | muddy-gradle-plugin/src/main/java/com/panda912/muddy/plugin/MuddyDump.kt:64-122 | a hit returns the cached value and leaves the cache alone; a miss XORs the argument with the low 16 bits of the value `sipush` pushes and stores the result under the argument |
| Machine.DecoderXorDecodes | muddy-gradle-plugin/src/main/java/com/panda912/muddy/plugin/MuddyDump.kt:64-122 | under a consistent decoder cache, the runtime `xor` returns the plain codec's value and keeps the cache consistent |
| MuddyDump.DecoderRoundTrip | muddy-gradle-plugin/src/main/java/com/panda912/muddy/plugin/MuddyDump.kt:64-122 | under a consistent decoder cache, the generated `xor` applied to the build-time encoding of s returns s and keeps the cache consistent |
| MuddyDump.InitialCacheConsistent | muddy-gradle-plugin/src/main/java/com/panda912/muddy/plugin/MuddyDump.kt:127-136 | the empty map the static initialiser installs is consistent with any key |
| Utf8.Encode | muddy/src/main/java/com/panda912/muddy/ObfuscatedString.java:103 | at most three bytes per UTF-16 unit |
| Utf8.EncodeUnit | muddy/src/main/java/com/panda912/muddy/ObfuscatedString.java:103 | one to three bytes, with a zero byte iff the unit is U+0000 |
| Utf8.EncodePair | muddy/src/main/java/com/panda912/muddy/ObfuscatedString.java:103 | a surrogate pair gives four non-zero bytes |
| Utf8.ZeroByteIffNul | muddy/src/main/java/com/panda912/muddy/ObfuscatedString.java:103 | the encoding contains a zero byte iff the string contains U+0000 |
| Utf8.AsciiOneBytePerChar | muddy/src/main/java/com/panda912/muddy/ObfuscatedString.java:103 | an ASCII string encodes to one byte per character |
| ObfuscatedString.LittleEndianFits | muddy/src/main/java/com/panda912/muddy/ObfuscatedString.java:152-160 | packing n bytes sets no bit above the low n bytes |
| ObfuscatedString.PackHighBytesZero | muddy/src/main/java/com/panda912/muddy/ObfuscatedString.java:152-160 | `decode(bytes, off)` leaves every byte above min(8, len-off) zero |
| ObfuscatedString.PackLoop | muddy/src/main/java/com/panda912/muddy/ObfuscatedString.java:152-160 | the Java loop, reading from the highest byte down, computes the little-endian packing |
| ObfuscatedString.EncodeAt | muddy/src/main/java/com/panda912/muddy/ObfuscatedString.java:174-180 | the array keeps its length and every byte outside the window; a full window holds the eight low-first bytes of the value |
| ObfuscatedString.EncodeLoop | muddy/src/main/java/com/panda912/muddy/ObfuscatedString.java:174-180 | the Java loop, writing from the lowest byte up, computes `EncodeAt` |
| ObfuscatedString.UnpackLittleEndian | muddy/src/main/java/com/panda912/muddy/ObfuscatedString.java:139-180 | unpacking a packed block gives back its bytes followed by zeros |
| ObfuscatedString.LittleEndianUnpack | muddy/src/main/java/com/panda912/muddy/ObfuscatedString.java:139-180 | packing the low n unpacked bytes gives back the low n bytes of the value |
| ObfuscatedString.EncodePackIdentity | muddy/src/main/java/com/panda912/muddy/ObfuscatedString.java:139-180 | `encode(decode(bytes, off), bytes, off)` leaves the array unchanged |
| ObfuscatedString.PackEncodeIdentity | muddy/src/main/java/com/panda912/muddy/ObfuscatedString.java:139-180 | for a full window, `decode` after `encode` gives back the value |
| ObfuscatedString.Blocks | muddy/src/main/java/com/panda912/muddy/ObfuscatedString.java:117-119 | there are ceil(n/8) obfuscated elements for n encoded bytes |
| ObfuscatedString.BlocksAt | muddy/src/main/java/com/panda912/muddy/ObfuscatedString.java:117-119 | element k is the packing of the k-th eight-byte window XOR the (j+k)-th draw |
| ObfuscatedString.Array | muddy/src/main/java/com/panda912/muddy/ObfuscatedString.java:97-122 | fails with IllegalArgumentException iff the string contains U+0000; otherwise 1 + ceil(n/8) longs for n UTF-8 bytes, with the seed first |
| ObfuscatedString.ArrayLoop | muddy/src/main/java/com/panda912/muddy/ObfuscatedString.java:106-121 | the Java loop fills the array with the seed followed by the blocks |
| ObfuscatedString.BlockCount | muddy/src/main/java/com/panda912/muddy/ObfuscatedString.java:117 | the loop index stops at ceil(el/8) |
| ObfuscatedString.Key | muddy/src/main/java/com/panda912/muddy/ObfuscatedString.java:124-131 | a returned seed is a non-zero draw; no seed is returned only while every draw so far was zero |
| ObfuscatedString.KeyIsFirstNonZero | muddy/src/main/java/com/panda912/muddy/ObfuscatedString.java:124-131 | the seed is the first non-zero draw |
| ObfuscatedString.New | muddy/src/main/java/com/panda912/muddy/ObfuscatedString.java:192-195 | the constructor fails iff the array is empty, and otherwise holds a copy of it |
| ObfuscatedString.Unmask | muddy/src/main/java/com/panda912/muddy/ObfuscatedString.java:266-268 | eight bytes per element |
| ObfuscatedString.UnmaskSnoc | muddy/src/main/java/com/panda912/muddy/ObfuscatedString.java:266-268 | one more element appends its eight unmasked bytes |
| ObfuscatedString.FillLoop | muddy/src/main/java/com/panda912/muddy/ObfuscatedString.java:255-268 | the first `Codec.call` loop writes every element XOR its draw into its eight-byte slot |
| ObfuscatedString.TrimZeros | muddy/src/main/java/com/panda912/muddy/ObfuscatedString.java:272-274 | the result is a prefix ending in a non-zero byte (or empty), and everything cut off is zero |
| ObfuscatedString.TrimUnique | muddy/src/main/java/com/panda912/muddy/ObfuscatedString.java:272-274 | the trimmed length is the only cut with a non-zero last byte and only zeros after it |
| ObfuscatedString.TrimLoop | muddy/src/main/java/com/panda912/muddy/ObfuscatedString.java:272-274 | the Java trimming loop computes the trimmed length |
| ObfuscatedString.Call | muddy/src/main/java/com/panda912/muddy/ObfuscatedString.java:250-285 | at most 8 bytes per element after the seed, and never ending in a zero byte |
| ObfuscatedString.CodecCall | muddy/src/main/java/com/panda912/muddy/ObfuscatedString.java:253-285 | the method hands `Call`'s bytes to the decoder, and its scratch array is all zero afterwards |
| ObfuscatedString.UnmaskBlocks | muddy/src/main/java/com/panda912/muddy/ObfuscatedString.java:257-268 | unmasking the blocks of an encoding with the same stream gives back the encoding, zero-padded to a multiple of 8 |
| ObfuscatedString.TrimPadded | muddy/src/main/java/com/panda912/muddy/ObfuscatedString.java:272-274 | trimming a zero-padded sequence that does not end in zero gives it back exactly |
| ObfuscatedString.RoundTrip | muddy/src/main/java/com/panda912/muddy/ObfuscatedString.java:97-285 | for a NUL-free string, any seed and any generator, `array` succeeds, the constructor accepts its result, and `Codec.call` yields exactly the string's UTF-8 bytes |
| BytexPlugin.DotsToSlashes | muddy-gradle-plugin-bytex/src/main/java/com/panda912/muddy/plugin/MuddyPlugin.kt:31 | same length, each '.' becomes '/' and every other character stays |
| BytexPlugin.DotsToSlashesIdempotent | muddy-gradle-plugin-bytex/src/main/java/com/panda912/muddy/plugin/MuddyPlugin.kt:31 | no '.' is left, so converting again changes nothing |
| BytexPlugin.Transform | muddy-gradle-plugin-bytex/src/main/java/com/panda912/muddy/plugin/MuddyPlugin.kt:34-39 | a class whose name starts with no include, or any class when the include list is empty, is left as it is |
| BytexPlugin.TransformSelects | muddy-gradle-plugin-bytex/src/main/java/com/panda912/muddy/plugin/MuddyPlugin.kt:34-39 | a class whose name starts with some include, converted from dots to slashes, is rewritten by `modifyBytecode` |
| BytexPlugin.DottedIncludeSelects | muddy-gradle-plugin-bytex/src/main/java/com/panda912/muddy/plugin/MuddyPlugin.kt:29-36 | an include written as `a.b` selects the class `a/b/C` |
| BytexPlugin.SizePushFits | muddy-gradle-plugin-bytex/src/main/java/com/panda912/muddy/plugin/MuddyPlugin.kt:100-110 | every accepted size 1..32767 is pushed by a well-formed int constant instruction carrying that size |
| BytexPlugin.IndexPushFits | muddy-gradle-plugin-bytex/src/main/java/com/panda912/muddy/plugin/MuddyPlugin.kt:113-125 | every index 0..32766 is pushed by a well-formed int constant instruction carrying that index |
| BytexPlugin.IndexPushShape | muddy-gradle-plugin-bytex/src/main/java/com/panda912/muddy/plugin/MuddyPlugin.kt:115-124 | `iconst_<i>` exactly for 0..5, `bipush` exactly for 6..127, `sipush` exactly from 128 |
| BytexPlugin.StoreElements | muddy-gradle-plugin-bytex/src/main/java/com/panda912/muddy/plugin/MuddyPlugin.kt:113-131 | four instructions per remaining element, less the `dup` after the last |
| BytexPlugin.Deobfuscate | muddy-gradle-plugin-bytex/src/main/java/com/panda912/muddy/plugin/MuddyPlugin.kt:92-150 | nothing is emitted iff `array` threw or gave an empty or over-long array; otherwise 7 + 4n - 1 instructions starting with `new ObfuscatedString` |
| BytexPlugin.ArrayFits | muddy-gradle-plugin-bytex/src/main/java/com/panda912/muddy/plugin/MuddyPlugin.kt:93-97 | with the runtime's `array`, code is emitted iff the string is NUL-free and short enough |
| BytexPlugin.EmitNoStringLiterals | muddy-gradle-plugin-bytex/src/main/java/com/panda912/muddy/plugin/MuddyPlugin.kt:98-147 | the replacement sequence pushes no string constant |
| BytexPlugin.RewriteCode | muddy-gradle-plugin-bytex/src/main/java/com/panda912/muddy/plugin/MuddyPlugin.kt:42-54 | one `array` call per string literal; code without string literals is unchanged |
| BytexPlugin.RewriteCodeSites | muddy-gradle-plugin-bytex/src/main/java/com/panda912/muddy/plugin/MuddyPlugin.kt:42-54 | the rewritten code is the concatenation, in order, of one site per original instruction: a string `ldc` becomes the `deobfuscate` output for its literal and call number when that is non-empty, and every other instruction stays as it is |
| BytexPlugin.KeepsNonString | muddy-gradle-plugin-bytex/src/main/java/com/panda912/muddy/plugin/MuddyPlugin.kt:42-44 | an instruction that is not a string `ldc` is kept in front of the rewrite of the rest, with no `array` call spent on it |
| BytexPlugin.SiteKeepsUnencodable | muddy-gradle-plugin-bytex/src/main/java/com/panda912/muddy/plugin/MuddyPlugin.kt:44-51 | with the runtime's `array`, a site is left as the original instruction iff it is not a string `ldc` or its literal cannot be encoded |
| BytexPlugin.RewriteLeavesOnlyUnencodable | muddy-gradle-plugin-bytex/src/main/java/com/panda912/muddy/plugin/MuddyPlugin.kt:42-54 | the string literals left after the rewrite are exactly the original ones that cannot be encoded, in order |
| BytexPlugin.Unencodable | muddy-gradle-plugin-bytex/src/main/java/com/panda912/muddy/plugin/MuddyPlugin.kt:48 | every literal kept is one that cannot be encoded |
| BytexPlugin.AllEncodable | muddy-gradle-plugin-bytex/src/main/java/com/panda912/muddy/plugin/MuddyPlugin.kt:42-54 | when every literal is encodable, none is left |
| BytexPlugin.ConstFields | muddy-gradle-plugin-bytex/src/main/java/com/panda912/muddy/plugin/MuddyPlugin.kt:56-62 | the filter keeps exactly the constant fields of the class |
| BytexPlugin.FieldStores | muddy-gradle-plugin-bytex/src/main/java/com/panda912/muddy/plugin/MuddyPlugin.kt:67-81 | one `array` call per constant field, and the shared list only grows |
| BytexPlugin.StoresAllFit | muddy-gradle-plugin-bytex/src/main/java/com/panda912/muddy/plugin/MuddyPlugin.kt:56-81 | when every constant field's array fits, the class's field loop emits the expected stores, which are non-empty, and clears exactly the constant fields |
| BytexPlugin.FieldStoresAllFit | muddy-gradle-plugin-bytex/src/main/java/com/panda912/muddy/plugin/MuddyPlugin.kt:67-81 | when every field's array fits, the loop emits each field's sequence and `putstatic` in declaration order and clears every field |
| BytexPlugin.AllFitGenerated | muddy-gradle-plugin-bytex/src/main/java/com/panda912/muddy/plugin/MuddyPlugin.kt:67-81 | with the runtime's `array`, every field gets code iff every constant value is encodable |
| BytexPlugin.StoreWithoutValue | muddy-gradle-plugin-bytex/src/main/java/com/panda912/muddy/plugin/MuddyPlugin.kt:69-80 | the accumulated-size quirk: a field with no code after one with code still gets a `putstatic` and is cleared |
| BytexPlugin.StoreWithoutValueNul | muddy-gradle-plugin-bytex/src/main/java/com/panda912/muddy/plugin/MuddyPlugin.kt:69-80 | the same quirk with the runtime's `array`, for a second field holding a NUL |
| BytexPlugin.FindClinit | muddy-gradle-plugin-bytex/src/main/java/com/panda912/muddy/plugin/MuddyPlugin.kt:64 | finds a `<clinit>` of the class, and finds none iff there is none |
| BytexPlugin.RemoveClinits | muddy-gradle-plugin-bytex/src/main/java/com/panda912/muddy/plugin/MuddyPlugin.kt:87 | removes exactly the `<clinit>` methods and keeps every other one |
| BytexPlugin.RewriteMethods | muddy-gradle-plugin-bytex/src/main/java/com/panda912/muddy/plugin/MuddyPlugin.kt:42-54 | as many methods come out as went in, and the `array` call count advances by the number of string literals in all bodies |
| BytexPlugin.RewriteMethodsBodies | muddy-gradle-plugin-bytex/src/main/java/com/panda912/muddy/plugin/MuddyPlugin.kt:42-54 | method `i` comes out with its access, name and descriptor unchanged and its body rewritten as `RewriteCode` does, its literals numbered after all literals in the methods before it |
| BytexPlugin.ClearValues | muddy-gradle-plugin-bytex/src/main/java/com/panda912/muddy/plugin/MuddyPlugin.kt:79 | each field keeps its place, and its value is nulled iff its name was cleared |
| BytexPlugin.ClinitOf | muddy-gradle-plugin-bytex/src/main/java/com/panda912/muddy/plugin/MuddyPlugin.kt:64-65 | the existing `<clinit>` when there is one, else a new static `()V` one with an empty body |
| BytexPlugin.Terminated | muddy-gradle-plugin-bytex/src/main/java/com/panda912/muddy/plugin/MuddyPlugin.kt:83-85 | the list is extended by at most one instruction and ends in `return` |
| BytexPlugin.Install | muddy-gradle-plugin-bytex/src/main/java/com/panda912/muddy/plugin/MuddyPlugin.kt:86-88 | exactly one `<clinit>`, placed last, after every other method in order |
| BytexPlugin.ModifyBytecode | muddy-gradle-plugin-bytex/src/main/java/com/panda912/muddy/plugin/MuddyPlugin.kt:41-90 | header and field count kept; without constant fields the rewrite succeeds with the fields untouched and the methods those of the method loop; with them, every method but the last is the method loop's non-`<clinit>` methods in order, and the last is the first `<clinit>` (or a fresh one) whose body is the field loop's stores followed by the old initializer's body, plus a `return` unless that ends in one; exactly one `<clinit>`; the fields are those the loop cleared; it fails with a null pointer exactly when there are constant fields but neither stores nor an old initializer body |
| BytexPlugin.NullPointerWhenNothingFits | muddy-gradle-plugin-bytex/src/main/java/com/panda912/muddy/plugin/MuddyPlugin.kt:82-83 | with constant fields none of which gets code and no `<clinit>`, `insnList.last` throws |
| BytexPlugin.ModifyShape | muddy-gradle-plugin-bytex/src/main/java/com/panda912/muddy/plugin/MuddyPlugin.kt:63-89 | when the field loop produced code, the rewrite succeeds, the last method starts with that code, and the cleared fields are the loop's |
| BytexPlugin.ModifyAllFit | muddy-gradle-plugin-bytex/src/main/java/com/panda912/muddy/plugin/MuddyPlugin.kt:56-89 | when every constant field gets code, the rewrite succeeds, the other methods come first, and the last, the `<clinit>`, is each field's sequence and `putstatic` in order followed by the old initializer's body and a `return` if needed; exactly the constant fields lose their value |
| BytexPlugin.ModifyUntouched | muddy-gradle-plugin-bytex/src/main/java/com/panda912/muddy/plugin/MuddyPlugin.kt:41-90 | a class with no constant string field and no string literal in any method body comes out unchanged |
| BytexPlugin.ClearAllConst | muddy-gradle-plugin-bytex/src/main/java/com/panda912/muddy/plugin/MuddyPlugin.kt:79 | clearing the constant fields' names nulls exactly the constant fields |
| Machine.Step | muddy-gradle-plugin/src/main/java/com/panda912/muddy/plugin/MuddyDump.kt:64-122 | no instruction other than the decoder call changes the decoder cache |
| Machine.BipushValue | muddy-gradle-plugin-bytex/src/main/java/com/panda912/muddy/plugin/MuddyPlugin.kt:107 | `bipush` pushes a byte congruent to its operand modulo 256 |
| Machine.RunAppend | muddy-gradle-plugin/src/main/java/io/github/porum/muddy/plugin/bytecode/ModifyConstVisitor.java:42-52 | running a prologue followed by a body runs the prologue, then the body from where it stopped |
| Machine.ReplacementPushes | muddy-gradle-plugin/src/main/java/io/github/porum/muddy/plugin/bytecode/ModifyConstVisitor.java:62-64 | the replacement pair pushes exactly the original string and changes nothing else but the decoder cache |
| Machine.StepAgree | muddy-gradle-plugin/src/main/java/io/github/porum/muddy/plugin/bytecode/ModifyConstVisitor.java:26-69 | every instruction behaves alike on states differing only in consistent decoder caches |
| Machine.CacheUntouched | muddy-gradle-plugin/src/main/java/com/panda912/muddy/plugin/MuddyDump.kt:64-122 | only the decoder call reads or writes the decoder cache |
| Machine.ExpectedSimulates | muddy-gradle-plugin/src/main/java/io/github/porum/muddy/plugin/bytecode/ModifyConstVisitor.java:26-69 | the rewritten body and the original, run from the same state, end alike: the same fault, or the same outcome and state up to the decoder cache |
| Machine.HeadAgree | muddy-gradle-plugin/src/main/java/io/github/porum/muddy/plugin/bytecode/ModifyConstVisitor.java:61-67 | for one instruction other than `return`, its rewrite and the original, run from states equal up to consistent decoder caches, fail alike or continue in such states |
| Machine.StoreBlockRuns | muddy-gradle-plugin/src/main/java/io/github/porum/muddy/plugin/bytecode/ModifyConstVisitor.java:46-48 | one triple leaves the stack as it was and the field holding the decoded value |
| Machine.InitialisedLookup | muddy-gradle-plugin/src/main/java/io/github/porum/muddy/plugin/bytecode/ModifyConstVisitor.java:45-49 | with distinct field names each field ends up holding its entry's decoding |
| Machine.InitialisedUntouched | muddy-gradle-plugin/src/main/java/io/github/porum/muddy/plugin/bytecode/ModifyConstVisitor.java:45-49 | a static that no entry names keeps its value |
| Machine.PrologueInitialises | muddy-gradle-plugin/src/main/java/io/github/porum/muddy/plugin/bytecode/ModifyConstVisitor.java:43-51 | the prologue stores every entry's decoding in map order and leaves the stack as it was |
| Machine.SynthesizedInitStopsAfterFirst | muddy-gradle-plugin/src/main/java/com/panda912/muddy/plugin/bytecode/ModifyClassVisitor.java:87-94 | the synthesised `<clinit>` returns after its first block: only the field of the first map entry (in insertion order under the model's assumption) is set |
| Machine.SizePushStep | muddy-gradle-plugin-bytex/src/main/java/com/panda912/muddy/plugin/MuddyPlugin.kt:100-110 | the size push leaves the size on the stack |
| Machine.IndexPushStep | muddy-gradle-plugin-bytex/src/main/java/com/panda912/muddy/plugin/MuddyPlugin.kt:113-125 | the index push leaves the index on the stack |
| Machine.StoreOneRuns | muddy-gradle-plugin-bytex/src/main/java/com/panda912/muddy/plugin/MuddyPlugin.kt:114-127 | index, `ldc` long and `lastore` store one element and consume one array reference |
| Machine.StoreElementsRun | muddy-gradle-plugin-bytex/src/main/java/com/panda912/muddy/plugin/MuddyPlugin.kt:113-131 | the element stores fill the array with exactly the obfuscated longs and leave one reference |
| Machine.EmitHeadRuns | muddy-gradle-plugin-bytex/src/main/java/com/panda912/muddy/plugin/MuddyPlugin.kt:98-112 | `new`, `dup`, size, `newarray long`, `dup` allocate the object and a zero-filled array |
| Machine.EmitRuns | muddy-gradle-plugin-bytex/src/main/java/com/panda912/muddy/plugin/MuddyPlugin.kt:98-147 | the emitted sequence pushes the string `ObfuscatedString` decodes from the array on top of the old stack: net effect one reference |
| Machine.EmitTailRuns | muddy-gradle-plugin-bytex/src/main/java/com/panda912/muddy/plugin/MuddyPlugin.kt:132-147 | `ObfuscatedString.<init>` then `toString` on a filled array leave the decoded string in place of the object |
| Machine.SiteSimulates | muddy-gradle-plugin-bytex/src/main/java/com/panda912/muddy/plugin/MuddyPlugin.kt:42-54 | each site of the rewrite behaves like its instruction: an encodable string `ldc`, which pushes its string, is replaced by code that pushes exactly that string's UTF-8 bytes and touches no static and no decoder cache; any other instruction is kept |
| Machine.DeobfuscatePushesEncoding | muddy-gradle-plugin-bytex/src/main/java/com/panda912/muddy/plugin/MuddyPlugin.kt:92-150 | for an encodable string and any seed, the replacement pushes the string with exactly s's UTF-8 bytes and touches no static and no decoder cache |
| Paths.Replace | muddy-gradle-plugin/src/main/java/com/panda912/muddy/plugin/utils/FileUtils.kt:19 | same length, each `from` becomes `to`, everything else stays |
| Paths.ReplaceBack | muddy-gradle-plugin/src/main/java/com/panda912/muddy/plugin/utils/FileUtils.kt:18-28 | replacing and replacing back restores a string that had no `to` |
| Paths.ToDependent | muddy-gradle-plugin/src/main/java/com/panda912/muddy/plugin/utils/FileUtils.kt:18-19 | length kept; identity for '/'; otherwise no '/' is left |
| Paths.ToIndependent | muddy-gradle-plugin/src/main/java/com/panda912/muddy/plugin/utils/FileUtils.kt:27-28 | length kept; identity for '/'; otherwise no separator is left |
| Paths.IndependentDependent | muddy-gradle-plugin/src/main/java/com/panda912/muddy/plugin/utils/Util.java:38-75 | independent(dependent(p)) == p for a path without the separator |
| Paths.DependentIndependent | muddy-gradle-plugin/src/main/java/com/panda912/muddy/plugin/utils/Util.java:38-75 | dependent(independent(p)) == p for a path without '/' |
| Paths.UriPath | muddy-gradle-plugin/src/main/java/com/panda912/muddy/plugin/utils/FileUtils.kt:42 | the URI path is rooted and free of the platform separator |
| Paths.Relativize | muddy-gradle-plugin/src/main/java/com/panda912/muddy/plugin/utils/FileUtils.kt:42 | the result is empty, the child itself, or a proper suffix of the child |
| Paths.Resolve | muddy-gradle-plugin/src/main/java/com/panda912/muddy/plugin/utils/FileUtils.kt:54 | an empty child gives the parent; otherwise the result starts with the parent and ends with the child in platform form |
| Paths.UtilRelativePath | muddy-gradle-plugin/src/main/java/com/panda912/muddy/plugin/utils/Util.java:91-94 | the relative path contains no platform separator other than '/' |
| Paths.RelativeBeneath | muddy-gradle-plugin/src/main/java/com/panda912/muddy/plugin/utils/FileUtils.kt:31-42 | the relative path of dir/rel with respect to dir is rel, whether or not dir exists |
| Paths.OutputBeneath | muddy-gradle-plugin/src/main/java/com/panda912/muddy/plugin/utils/FileUtils.kt:44-54 | the output file of dir/rel is rel resolved against the output directory |
| Paths.UtilAgrees | muddy-gradle-plugin/src/main/java/com/panda912/muddy/plugin/utils/Util.java:86-94 | `Util.getOutputFile` and `FileUtils.getOutputFile` compute the same file |
| Paths.ResolveJoins | muddy-gradle-plugin/src/main/java/com/panda912/muddy/plugin/utils/FileUtils.kt:54 | joining a relative path to a directory not ending in a separator inserts exactly one separator |
| Paths.DocumentedExample | muddy-gradle-plugin/src/main/java/com/panda912/muddy/plugin/utils/FileUtils.kt:44-54 | input dir /a/b, file /a/b/c/A.class and output dir /d/e give /d/e/c/A.class on a '/' and on a '\' platform |
| Transform.DeleteRecursively | muddy-gradle-plugin/src/main/java/com/panda912/muddy/plugin/MuddyTransform.kt:107 | the path and everything beneath it are gone, and nothing else changes |
| Transform.DeleteIfExists | muddy-gradle-plugin/src/main/java/com/panda912/muddy/plugin/utils/FileUtils.kt:62-63 | the file is gone and nothing else changes |
| Transform.CopyTo | muddy-gradle-plugin/src/main/java/com/panda912/muddy/plugin/MuddyTransform.kt:101 | succeeds iff the source exists and the target is absent or overwriting is allowed; otherwise it names the exception; the target then holds the source's bytes and nothing else changes |
| Transform.CopyRecursively | muddy-gradle-plugin/src/main/java/com/panda912/muddy/plugin/MuddyTransform.kt:115 | succeeds iff the source exists, else no such file; the target holds the source's bytes and nothing else changes |
| Transform.GenerateNewClass | muddy-gradle-plugin/src/main/java/com/panda912/muddy/plugin/MuddyTransform.kt:168-175 | succeeds iff the input exists, parses, and either the caller created the output's directory or it exists; otherwise file not found for the input, class format, or file not found for the output, in that order; the output holds the written rewrite of the class by the class visitor with the key; nothing else changes; a consistent memo map stays consistent |
| Transform.ExistingHasParent | muddy-gradle-plugin/src/main/java/com/panda912/muddy/plugin/MuddyTransform.kt:174 | a file that exists has its directory, so writing over it never fails for want of one |
| Transform.AfterLast | muddy-gradle-plugin/src/main/java/com/panda912/muddy/plugin/MuddyTransform.kt:150 | `File.name`: a suffix without the separator, preceded by it or the whole path |
| Transform.BeforeLast | muddy-gradle-plugin/src/main/java/com/panda912/muddy/plugin/MuddyTransform.kt:150 | `nameWithoutExtension`: the whole name when it has no '.', else the part before the last '.' |
| Transform.StemOfClassName | muddy-gradle-plugin/src/main/java/com/panda912/muddy/plugin/MuddyTransform.kt:150 | the stem of x.class is x |
| Transform.RewritableIff | muddy-gradle-plugin/src/main/java/com/panda912/muddy/plugin/MuddyTransform.kt:150 | a file is rewritten iff its name ends in `.class` and is not `Muddy.class` |
| Transform.ChangedStep | muddy-gradle-plugin/src/main/java/com/panda912/muddy/plugin/MuddyTransform.kt:93-141 | not-changed does nothing; removed deletes the output; added or changed copies the file (transparent, succeeding iff it exists) or writes the class visitor's rewrite of it under the current memo map (enabled, succeeding iff it exists, parses and the output's directory exists); only the output changes |
| Transform.Touched | muddy-gradle-plugin/src/main/java/com/panda912/muddy/plugin/MuddyTransform.kt:128-129 | every changed entry under the input contributes its output file |
| Transform.Incremental | muddy-gradle-plugin/src/main/java/com/panda912/muddy/plugin/MuddyTransform.kt:127-141 | only outputs of changed files under the input can change |
| Transform.Untouched | muddy-gradle-plugin/src/main/java/com/panda912/muddy/plugin/MuddyTransform.kt:128-129 | a path that is not the output of a changed entry under the input is not among the touched outputs |
| Transform.IncrementalContents | muddy-gradle-plugin/src/main/java/com/panda912/muddy/plugin/MuddyTransform.kt:127-141 | with distinct outputs that are not themselves changed files, each added or changed file under the input ends up at its output as a copy (transparent) or as its rewrite under a memo map consistent with the key (enabled), and each removed file's output is gone |
| Transform.FileStep | muddy-gradle-plugin/src/main/java/com/panda912/muddy/plugin/MuddyTransform.kt:108-111 | transparent copies and fails on an existing target; enabled rewrites a rewritable class and copies anything else with overwrite; only the output changes |
| Transform.FileStepConverts | muddy-gradle-plugin/src/main/java/com/panda912/muddy/plugin/MuddyTransform.kt:146-156 | a successful step leaves the copy, or the rewritten class, at the output |
| Transform.Jobs | muddy-gradle-plugin/src/main/java/com/panda912/muddy/plugin/MuddyTransform.kt:146-148 | each walked file is paired with its `Util.getOutputFile` |
| Transform.WalkFrame | muddy-gradle-plugin/src/main/java/com/panda912/muddy/plugin/MuddyTransform.kt:146-156 | a successful walk deletes nothing and changes only the jobs' output files |
| Transform.WalkCovers | muddy-gradle-plugin/src/main/java/com/panda912/muddy/plugin/MuddyTransform.kt:146-156 | after a successful walk every job's output file exists |
| Transform.WalkContents | muddy-gradle-plugin/src/main/java/com/panda912/muddy/plugin/MuddyTransform.kt:146-156 | with distinct outputs that are not themselves walked, each walked file ends up converted at its own output |
| Transform.Full | muddy-gradle-plugin/src/main/java/com/panda912/muddy/plugin/MuddyTransform.kt:142-157 | the output directory holds exactly the walked files' outputs; outside it nothing else changes |
| Transform.FullContents | muddy-gradle-plugin/src/main/java/com/panda912/muddy/plugin/MuddyTransform.kt:142-157 | each walked file is converted at its output: a copy, or the rewrite of a `.class` file other than Muddy |
| Transform.HandleInput | muddy-gradle-plugin/src/main/java/com/panda912/muddy/plugin/MuddyTransform.kt:158-161 | a non-directory input succeeds iff it exists and is not under its output; its output holds its bytes verbatim and nothing else changes |
| Transform.HandleAll | muddy-gradle-plugin/src/main/java/com/panda912/muddy/plugin/MuddyTransform.kt:120-163 | every step keeps the mode's invariant |
| Transform.Put | muddy-gradle-plugin/src/main/java/com/panda912/muddy/plugin/MuddyTransform.kt:63 | the key then maps to the new value and every other key keeps its value |
| Transform.PutAll | muddy-gradle-plugin/src/main/java/com/panda912/muddy/plugin/MuddyTransform.kt:64 | the last entry for a key wins, else the old value stays |
| Transform.Listed | muddy-gradle-plugin/src/main/java/com/panda912/muddy/plugin/MuddyTransform.kt:53-77 | every directory and jar of an input is listed with its output location, and every jar with its status |
| Transform.Collect | muddy-gradle-plugin/src/main/java/com/panda912/muddy/plugin/MuddyTransform.kt:50-79 | `io` and `changedFiles` map each path to the last location or status put for it |
| Transform.InputsRecorded | muddy-gradle-plugin/src/main/java/com/panda912/muddy/plugin/MuddyTransform.kt:53-79 | every directory and jar gets an output location, and every jar's status is recorded under its path |
| Transform.Run | muddy-gradle-plugin/src/main/java/com/panda912/muddy/plugin/MuddyTransform.kt:43-118 | disabled: the memo map is untouched and every written byte sequence was already a file's; enabled: a consistent memo map stays consistent |
| Transform.JarIgnoresSettings | muddy-gradle-plugin/src/main/java/com/panda912/muddy/plugin/MuddyTransform.kt:158-161 | a jar is handled the same whatever its status, incrementality or the enable flag |
| Transform.RemovedJarThrows | muddy-gradle-plugin/src/main/java/com/panda912/muddy/plugin/MuddyTransform.kt:158-161 | a jar that is no longer there makes the copy throw |
| Transform.IncrementalNeedsParent | muddy-gradle-plugin/src/main/java/com/panda912/muddy/plugin/MuddyTransform.kt:137 | an added class that parses but whose output directory is missing makes the incremental branch throw file not found |
| Transform.ChangedOverOutputSucceeds | muddy-gradle-plugin/src/main/java/com/panda912/muddy/plugin/MuddyTransform.kt:137 | a changed class whose old output is still there is rewritten whenever it parses |
| Transform.IncrementalIgnoresGuard | muddy-gradle-plugin/src/main/java/com/panda912/muddy/plugin/MuddyTransform.kt:137 | an added file that the full branch would copy is parsed by the incremental branch and throws when it is not a class |
| TaskConfig.Configures | muddy-gradle-plugin/src/main/java/com/panda912/muddy/plugin/task/factory/TaskFactoryUtils.kt:55-56 | only configure calls on the given task |
| TaskConfig.ConfiguresSkipsNull | muddy-gradle-plugin/src/main/java/com/panda912/muddy/plugin/task/factory/TaskFactoryUtils.kt:55-56 | each configure happens iff its action is present, the creation action's first |
| TaskConfig.Execute | muddy-gradle-plugin/src/main/java/com/panda912/muddy/plugin/task/factory/TaskFactoryUtils.kt:51-60 | before the hook nothing is called and the task is remembered; after it both configures run and the state is unchanged |
| TaskConfig.ExecuteAll | muddy-gradle-plugin/src/main/java/com/panda912/muddy/plugin/task/factory/TaskFactoryUtils.kt:51-60 | after the hook every call is a configure of one of the tasks |
| TaskConfig.DelayedKeepsLast | muddy-gradle-plugin/src/main/java/com/panda912/muddy/plugin/task/factory/TaskFactoryUtils.kt:58 | repeated execution before the hook is silent and keeps only the last task |
| TaskConfig.Setup | muddy-gradle-plugin/src/main/java/com/panda912/muddy/plugin/task/factory/TaskFactoryUtils.kt:63-67 | only pre-configure and provider callbacks |
| TaskConfig.SetupSkipsNull | muddy-gradle-plugin/src/main/java/com/panda912/muddy/plugin/task/factory/TaskFactoryUtils.kt:63-67 | each callback happens iff its action is present, and every pre-configure precedes every provider callback |
| TaskConfig.PostRegisterHook | muddy-gradle-plugin/src/main/java/com/panda912/muddy/plugin/task/factory/TaskFactoryUtils.kt:62-75 | the setup callbacks come first, then the delayed task's configures if any, and the flag ends set |
| TaskConfig.HookTrace | muddy-gradle-plugin/src/main/java/com/panda912/muddy/plugin/task/factory/TaskFactoryUtils.kt:62-75 | the hook's trace is exactly setup followed by the delayed configuration |
| TaskConfig.PhasesSetupFirst | muddy-gradle-plugin/src/main/java/com/panda912/muddy/plugin/task/factory/TaskFactoryUtils.kt:51-75 | setup callbacks followed by configures satisfy the ordering invariant |
| TaskConfig.RegisterTask | muddy-gradle-plugin/src/main/java/com/panda912/muddy/plugin/task/factory/TaskFactoryUtils.kt:12-28 | the trace starts with registration under the creation action's name and type |
| TaskConfig.RegisterPhases | muddy-gradle-plugin/src/main/java/com/panda912/muddy/plugin/task/factory/TaskFactoryUtils.kt:12-28 | registration and setup come first, then configuration only |
| TaskConfig.RegisterSetupFirst | muddy-gradle-plugin/src/main/java/com/panda912/muddy/plugin/task/factory/TaskFactoryUtils.kt:51-75 | whatever Gradle realises and when, no configure precedes a pre-configure or provider callback |
| TaskConfig.RegisterPreConfiguresOnce | muddy-gradle-plugin/src/main/java/com/panda912/muddy/plugin/task/factory/TaskFactoryUtils.kt:24-26 | the hook runs once: the creation action pre-configures the name exactly once |
| TaskConfig.OnceInSetup | muddy-gradle-plugin/src/main/java/com/panda912/muddy/plugin/task/factory/TaskFactoryUtils.kt:24-26 | registration and setup pre-configure the task name exactly once |
| TaskConfig.RegisterConfiguresDelayed | muddy-gradle-plugin/src/main/java/com/panda912/muddy/plugin/task/factory/TaskFactoryUtils.kt:69-72 | a task realised during registration is configured by the hook |

## Left out

- ASM's `ClassReader`/`ClassWriter` are out: parsing, serialisation, COMPUTE_MAXS, stack map frames and constant-pool layout. Classes are records, and the reader and writer are host parameters. Fields are visited before methods, as ASM does.
- `visitMaxs`, `visitEnd`, signatures and exceptions are out. They carry no behaviour the properties depend on.
- `java.util.Random` internals and the nondeterministic seed of `key()` are out. The stream is a parameter `Prng`, and the seed a parameter or a per-call function in the bytex plugin.
- UTF-8 decoding (`new String(bytes, UTF_8)`, `toCharArray`) is out. `ObfuscatedString.RoundTrip` is stated on bytes, and `Machine` keeps a decoded string as its bytes.
- Utf8.Encode: an unpaired surrogate becomes '?', so strings holding one do not come back unchanged. This is not stated as a separate property.
- `ObfuscatedString.obfuscate`, `java`, `literal`, `appendHexLiteral`, `toCharArray`, `toStringIntern` and `finalize` are out. They format Java source text or are GC and decoding hooks.
- Real file I/O is out: timestamps, permissions and links. Directories are implicit in the file map. `ensureParentDirsCreated` is the `mkdirs` flag of `Transform.GenerateNewClass`, and the directory creation inside `copyTo` needs no step of its own. Empty directories cannot be represented.
- Transform.ParentExists: a directory exists when some file other than the directory itself lies beneath it. An empty directory therefore counts as missing. `generateNewClass` on the incremental path can only throw more often under this approximation when an empty output directory exists.
- Transform.DeleteIfExists: only the file case is modelled. `Files.deleteIfExists` on a non-empty directory, which throws, is not.
- Transform.CopyTo: copying onto an existing directory is not modelled. Kotlin's `copyTo` creates the target's missing directories, and the map does this implicitly.
- Path normalisation (`.`/`..`, URI percent-encoding, `File.getAbsolutePath` on relative paths) is out. Paths are absolute strings.
- Paths.Resolve: a child that starts with a separator gets a second separator, where `java.io.File` would collapse them. `MuddyTransform` only passes relative paths of files beneath their input directory, so the transform never hits this case.
- The output provider is out. Each input carries its `output` location.
- `ConcurrentHashMap` and logging are out. The maps are filled sequentially, and HashMap iteration order is taken to be insertion order.
- `walkBottomUp` order is a parameter of the host.
- Gradle's realisation of tasks is modelled as the lists of tasks realised during `register` and after it.
- The AGP `MuddyPlugin`, `MuddyContext`, both `GenerateMuddyTask`s, `TaskActions`, the extension classes, `Log` and the sample apps are out. They are build glue, configuration and logging.
- Transform.WalkContents: requires the walked files' outputs to be distinct and none to be a walked file. Without that a later copy can overwrite an earlier output.
- Transform.FullContents: has the same precondition as `WalkContents`, on the jobs of the full branch.
- Transform.IncrementalContents: requires the outputs of the changed entries under the input to be distinct and none to be such an entry's file. Without that a later entry can overwrite or delete an earlier output.
- BytexPlugin.RewriteCode: no whole-method simulation is stated for the bytex rewrite. Each replacement allocates an `ObfuscatedString` and a `long[]` on the heap, so the rewritten run's heap and references differ from the original's. `Machine.SiteSimulates` compares one site at a time, by the UTF-8 bytes pushed, and `BytexPlugin.RewriteCodeSites` puts the sites together.
- MuddyDump.DecoderRoundTrip: the decoder is run through its own semantics (`DecoderXor`) and the operand of its `sipush`. The JVM does not interpret the method body instruction by instruction.
- BytexPlugin.Generated: `array` is called with a seed per call number. Any sequence of seeds is covered, not the actual `Random` output.
- Machine.ExpectedSimulates: `Machine.Step` supports only these instructions:
  - `iconst_0`..`iconst_5`, `dup`, `lastore`;
  - `bipush`, `sipush`, `newarray long`;
  - `ldc` of a string, long or int;
  - `new`, `putstatic`;
  - the decoder call, `ObfuscatedString.<init>([J)V` and `ObfuscatedString.toString()`;
  - `return`, which ends a run.

  Any other instruction ends both runs with the same `Unsupported` fault, and no state is compared after it. This includes local-variable loads and stores, `getstatic`, `pop`, other invocations, jumps and `areturn`. For most real method bodies the lemma therefore compares only the prefix before the first such instruction.

=== FILE: bytex_plugin.dfy ===
/** The bytex `MuddyPlugin`: the array-splitting generation's rewrite of a
    tree-form class.  Every string `ldc` becomes an instruction sequence
    that builds the obfuscated `long[]` and decodes it through
    `ObfuscatedString`, and the constant string fields are initialised in
    `<clinit>` the same way. */
module BytexPlugin {
  import opened Wrappers
  import opened Jvm
  import opened ObfuscatedString
  import Utf8

  const OBFUSCATED_STRING_CLASS: Name := "com/panda912/muddy/ObfuscatedString"
  const LONG_ARRAY_CTOR_DESC: Name := "([J)V"
  const TO_STRING: Name := "toString"
  const TO_STRING_DESC: Name := "()Ljava/lang/String;"
  /** The largest array `deobfuscate` accepts: an index or size up to it
      fits a `sipush` operand. */
  const MAX_ARRAY: nat := 32767

  /** The seed `key()` returns on the `n`-th call to `array` during one
      run: the run's randomness, taken as a parameter. */
  type Seeds = nat -> Long

  /** What `ObfuscatedString.array(s)` returns on the `n`-th call of a run.
      The rewrite is stated for any such function; `Generated` is the one
      the runtime class defines. */
  type Arrays = (JString, nat) -> Result<seq<Long>, Error>

  function Generated(seeds: Seeds, prng: Prng): Arrays {
    (s: JString, n: nat) => Array(s, seeds(n), prng)
  }

  // ---------------------------------------------------------------------
  // The include filter

  function DotsToSlashes(s: string): (r: string)
    ensures |r| == |s|
    ensures forall i :: 0 <= i < |s| ==> r[i] == (if s[i] == '.' then '/' else s[i])
  {
    if |s| == 0 then [] else [if s[0] == '.' then '/' else s[0]] + DotsToSlashes(s[1..])
  }

  /** The conversion leaves no '.' behind, so applying it twice changes
      nothing more. */
  lemma {:induction false} DotsToSlashesIdempotent(s: string)
    ensures '.' !in DotsToSlashes(s)
    ensures DotsToSlashes(DotsToSlashes(s)) == DotsToSlashes(s)
  {
    var r := DotsToSlashes(s);
    assert forall i :: 0 <= i < |r| ==> r[i] != '.';
    var rr := DotsToSlashes(r);
    assert forall i :: 0 <= i < |r| ==> rr[i] == r[i];
  }

  predicate StartsWith(s: string, prefix: string) {
    |prefix| <= |s| && s[..|prefix|] == prefix
  }

  /** `includes.isNotEmpty() && includes.any { name.startsWith(it) }`, on
      the includes as `beforeTransform` converted them. */
  predicate Selected(name: Name, includes: seq<string>) {
    |includes| > 0 && exists i :: 0 <= i < |includes| && StartsWith(name, DotsToSlashes(includes[i]))
  }

  // ---------------------------------------------------------------------
  // `deobfuscate`: the instruction sequence for one string

  /** The push of the array size: `iconst_1`..`iconst_5`, `bipush`, else
      `sipush` (a size of 0 cannot reach it). */
  function SizePush(n: int): Insn {
    if 1 <= n <= 5 then Op(ICONST_0 + n)
    else if 6 <= n <= 127 then IntOp(BIPUSH, n)
    else IntOp(SIPUSH, n)
  }

  /** The push of an element index: `iconst_0`..`iconst_5`, `bipush`, else
      `sipush`. */
  function IndexPush(i: int): Insn {
    if 0 <= i <= 5 then Op(ICONST_0 + i)
    else if 6 <= i <= 127 then IntOp(BIPUSH, i)
    else IntOp(SIPUSH, i)
  }

  /** The int an instruction pushes when it is a well-formed int constant
      push (section 6.5 of the JVM Specification, `iconst_<i>`, `bipush`,
      `sipush`): the operand must fit a signed byte or a signed short. */
  function PushedInt(i: Insn): Option<int> {
    if i.Op? && ICONST_0 <= i.opcode <= ICONST_5 then Some(i.opcode - ICONST_0)
    else if i.IntOp? && i.opcode == BIPUSH && -128 <= i.operand <= 127 then Some(i.operand)
    else if i.IntOp? && i.opcode == SIPUSH && -32768 <= i.operand <= 32767 then Some(i.operand)
    else None
  }

  /** Every size `deobfuscate` lets through is pushed by a well-formed
      instruction that pushes exactly that size. */
  lemma SizePushFits(n: int)
    requires 1 <= n <= MAX_ARRAY
    ensures PushedInt(SizePush(n)) == Some(n)
  {
  }

  lemma IndexPushFits(i: int)
    requires 0 <= i < MAX_ARRAY
    ensures PushedInt(IndexPush(i)) == Some(i)
  {
  }

  /** `iconst_<i>` is used exactly for 0..5 and `bipush` exactly for the
      rest of the signed-byte range the plugin uses. */
  lemma IndexPushShape(i: int)
    requires 0 <= i < MAX_ARRAY
    ensures IndexPush(i).Op? <==> i <= 5
    ensures IndexPush(i).IntOp? && IndexPush(i).opcode == BIPUSH <==> 6 <= i <= 127
    ensures IndexPush(i).IntOp? && IndexPush(i).opcode == SIPUSH <==> 128 <= i
  {
  }

  /** One element store: index, the long, `lastore`, and a `dup` of the
      array reference unless it is the last element. */
  function StoreElement(arr: seq<Long>, i: nat): seq<Insn>
    requires i < |arr|
  {
    [IndexPush(i), Ldc(LongC(arr[i])), Op(LASTORE)] + (if i != |arr| - 1 then [Op(DUP)] else [])
  }

  function StoreElements(arr: seq<Long>, i: nat): (r: seq<Insn>)
    requires i <= |arr|
    ensures i < |arr| ==> |r| == 4 * (|arr| - i) - 1
    decreases |arr| - i
  {
    if i == |arr| then [] else StoreElement(arr, i) + StoreElements(arr, i + 1)
  }

  /** `new ObfuscatedString(new long[] { ... }).toString()`. */
  function Emit(arr: seq<Long>): seq<Insn> {
    [TypeOp(NEW, OBFUSCATED_STRING_CLASS), Op(DUP), SizePush(|arr|), IntOp(NEWARRAY, T_LONG), Op(DUP)]
    + StoreElements(arr, 0)
    + [MethodOp(INVOKESPECIAL, OBFUSCATED_STRING_CLASS, INIT, LONG_ARRAY_CTOR_DESC, false),
       MethodOp(INVOKEVIRTUAL, OBFUSCATED_STRING_CLASS, TO_STRING, TO_STRING_DESC, false)]
  }

  /** An array `deobfuscate` turns into code: `array` did not throw and
      the length is between 1 and 32767. */
  predicate Fits(arr: Result<seq<Long>, Error>) {
    arr.Success? && 0 < |arr.value| <= MAX_ARRAY
  }

  /** `deobfuscate(s, insnList)`, given what its call to `array(s)`
      returned: what it appends to the list.  Nothing when `array` threw (a
      NUL character) or the array is empty or too long. */
  function Deobfuscate(arr: Result<seq<Long>, Error>): (r: seq<Insn>)
    ensures r != [] <==> Fits(arr)
    ensures r != [] ==> |r| == 7 + 4 * |arr.value| - 1 && r[0] == TypeOp(NEW, OBFUSCATED_STRING_CLASS)
  {
    match arr
    case Failure(_) => []
    case Success(a) => if |a| == 0 || |a| > MAX_ARRAY then [] else Emit(a)
  }

  /** The strings `deobfuscate` handles: no NUL, and an array of at most
      32767 longs, i.e. at most 8 * 32766 UTF-8 bytes. */
  predicate Encodable(s: JString) {
    0 !in s && |Utf8.Encode(s)| <= 8 * (MAX_ARRAY - 1)
  }

  /** For the runtime's own `array`, the strings that get code are exactly
      the encodable ones, whatever the seed. */
  lemma ArrayFits(s: JString, seed: Long, prng: Prng)
    ensures Fits(Array(s, seed, prng)) <==> Encodable(s)
  {
  }

  lemma {:induction false} NoStringLdcs(code: seq<Insn>)
    requires forall k :: 0 <= k < |code| ==> !IsStringLdc(code[k])
    ensures StringLiterals(code) == []
  {
    if |code| > 0 {
      NoStringLdcs(code[1..]);
    }
  }

  lemma {:induction false} StoreElementsNoStringLiterals(arr: seq<Long>, i: nat)
    requires i <= |arr|
    ensures StringLiterals(StoreElements(arr, i)) == []
    decreases |arr| - i
  {
    if i < |arr| {
      StoreElementsNoStringLiterals(arr, i + 1);
      StringLiteralsAppend(StoreElement(arr, i), StoreElements(arr, i + 1));
      NoStringLdcs(StoreElement(arr, i));
    }
  }

  /** The replacement sequence contains no string constant: the original
      literal is not in the rewritten method. */
  lemma EmitNoStringLiterals(arr: seq<Long>)
    ensures StringLiterals(Emit(arr)) == []
  {
    var head := [TypeOp(NEW, OBFUSCATED_STRING_CLASS), Op(DUP), SizePush(|arr|), IntOp(NEWARRAY, T_LONG), Op(DUP)];
    var tail := [MethodOp(INVOKESPECIAL, OBFUSCATED_STRING_CLASS, INIT, LONG_ARRAY_CTOR_DESC, false),
                 MethodOp(INVOKEVIRTUAL, OBFUSCATED_STRING_CLASS, TO_STRING, TO_STRING_DESC, false)];
    StoreElementsNoStringLiterals(arr, 0);
    StringLiteralsAppend(head, StoreElements(arr, 0));
    StringLiteralsAppend(head + StoreElements(arr, 0), tail);
    NoStringLdcs(head);
    NoStringLdcs(tail);
  }

  // ---------------------------------------------------------------------
  // The `ldc` rewrite

  datatype Rewritten = Rewritten(code: seq<Insn>, calls: nat)

  /** The loop over one method's instructions: every string `ldc` whose
      `deobfuscate` appended something is replaced by it; `calls` counts
      the `array` calls so far, which picks each call's seed. */
  function RewriteCode(code: seq<Insn>, arrays: Arrays, calls: nat): (r: Rewritten)
    ensures r.calls == calls + |StringLiterals(code)|
    ensures StringLiterals(code) == [] ==> r.code == code
    decreases |code|
  {
    if |code| == 0 then Rewritten([], calls)
    else
      var head := code[0];
      if IsStringLdc(head) then
        var d := Deobfuscate(arrays(head.cst.s, calls));
        var rest := RewriteCode(code[1..], arrays, calls + 1);
        Rewritten((if |d| != 0 then d else [head]) + rest.code, rest.calls)
      else
        var rest := RewriteCode(code[1..], arrays, calls);
        Rewritten([head] + rest.code, rest.calls)
  }

  /** What one instruction becomes when it would be the `n`-th `array`
      call: a string `ldc` becomes its `deobfuscate` code, or stays when
      that code is empty; every other instruction stays. */
  function Site(i: Insn, arrays: Arrays, n: nat): seq<Insn> {
    if IsStringLdc(i) then
      var d := Deobfuscate(arrays(i.cst.s, n));
      if |d| != 0 then d else [i]
    else [i]
  }

  /** The rewrite position by position: instruction k becomes its site,
      numbered by the string literals before it. */
  function Sites(code: seq<Insn>, arrays: Arrays, calls: nat): seq<seq<Insn>> {
    seq(|code|, k requires 0 <= k < |code| => Site(code[k], arrays, calls + |StringLiterals(code[..k])|))
  }

  /** The rewritten code is the concatenation of every instruction's site,
      in order: nothing is dropped, reordered or moved, and the k-th string
      literal gets the k-th `array` call. */
  lemma {:induction false} RewriteCodeSites(code: seq<Insn>, arrays: Arrays, calls: nat)
    ensures RewriteCode(code, arrays, calls).code == Flatten(Sites(code, arrays, calls))
    decreases |code|
  {
    if |code| > 0 {
      var n := if IsStringLdc(code[0]) then calls + 1 else calls;
      RewriteCodeSites(code[1..], arrays, n);
      SitesCons(code, arrays, calls);
      var ss := Sites(code, arrays, calls);
      assert ss[1..] == Sites(code[1..], arrays, n);
    }
  }

  lemma SitesCons(code: seq<Insn>, arrays: Arrays, calls: nat)
    requires |code| > 0
    ensures var n := if IsStringLdc(code[0]) then calls + 1 else calls;
      Sites(code, arrays, calls) == [Site(code[0], arrays, calls)] + Sites(code[1..], arrays, n)
  {
    var n := if IsStringLdc(code[0]) then calls + 1 else calls;
    var a, b := Sites(code, arrays, calls), [Site(code[0], arrays, calls)] + Sites(code[1..], arrays, n);
    assert code[..0] == [];
    assert StringLiterals([code[0]]) == (if IsStringLdc(code[0]) then [code[0].cst.s] else []);
    forall k | 1 <= k < |code|
      ensures a[k] == b[k]
    {
      assert code[..k] == [code[0]] + code[1..][..k - 1];
      StringLiteralsAppend([code[0]], code[1..][..k - 1]);
    }
  }

  /** An instruction other than a string `ldc` is kept in place. */
  lemma KeepsNonString(i: Insn, code: seq<Insn>, arrays: Arrays, calls: nat)
    requires !IsStringLdc(i)
    ensures RewriteCode([i] + code, arrays, calls).code == [i] + RewriteCode(code, arrays, calls).code
  {
    assert ([i] + code)[1..] == code;
  }

  /** A string `ldc` is kept exactly when its string cannot be encoded. */
  lemma SiteKeepsUnencodable(i: Insn, seeds: Seeds, prng: Prng, n: nat)
    ensures Site(i, Generated(seeds, prng), n) == [i] <==> !IsStringLdc(i) || !Encodable(i.cst.s)
  {
    if IsStringLdc(i) {
      ArrayFits(i.cst.s, seeds(n), prng);
      if Encodable(i.cst.s) {
        assert Site(i, Generated(seeds, prng), n)[0] == TypeOp(NEW, OBFUSCATED_STRING_CLASS);
      }
    }
  }

  /** The string literals left after the rewrite are exactly the original
      ones `deobfuscate` could not handle, in order. */
  lemma {:induction false} RewriteLeavesOnlyUnencodable(code: seq<Insn>, seeds: Seeds, prng: Prng, calls: nat)
    ensures StringLiterals(RewriteCode(code, Generated(seeds, prng), calls).code) == Unencodable(StringLiterals(code))
    decreases |code|
  {
    if |code| > 0 {
      var head := code[0];
      var n := if IsStringLdc(head) then calls + 1 else calls;
      RewriteLeavesOnlyUnencodable(code[1..], seeds, prng, n);
      var rest := RewriteCode(code[1..], Generated(seeds, prng), n);
      if IsStringLdc(head) {
        var arr := Array(head.cst.s, seeds(calls), prng);
        var d := Deobfuscate(arr);
        ArrayFits(head.cst.s, seeds(calls), prng);
        var out := if |d| != 0 then d else [head];
        StringLiteralsAppend(out, rest.code);
        if |d| != 0 {
          EmitNoStringLiterals(arr.value);
        } else {
          assert StringLiterals([head]) == [head.cst.s];
        }
        assert StringLiterals(code) == [head.cst.s] + StringLiterals(code[1..]);
      } else {
        StringLiteralsAppend([head], rest.code);
        assert StringLiterals([head]) == [];
        assert StringLiterals(code) == StringLiterals(code[1..]);
      }
    }
  }

  function Unencodable(lits: seq<JString>): (r: seq<JString>)
    ensures |r| <= |lits|
    ensures forall k :: 0 <= k < |r| ==> !Encodable(r[k])
  {
    if |lits| == 0 then []
    else (if Encodable(lits[0]) then [] else [lits[0]]) + Unencodable(lits[1..])
  }

  lemma {:induction false} AllEncodable(lits: seq<JString>)
    requires forall k :: 0 <= k < |lits| ==> Encodable(lits[k])
    ensures Unencodable(lits) == []
  {
    if |lits| > 0 {
      AllEncodable(lits[1..]);
    }
  }

  // ---------------------------------------------------------------------
  // Constant fields and `<clinit>`

  /** The `constFields` filter: a `String` field with a non-empty string
      value whose access is static final, optionally with exactly one of
      public, private or protected. */
  predicate ConstField(f: Field) {
    f.desc == STRING_DESC && f.value.Some? && f.value.value.StrC? && |f.value.value.s| > 0 &&
    (f.access == ACC_STATIC + ACC_FINAL ||
     f.access == ACC_PUBLIC + ACC_STATIC + ACC_FINAL ||
     f.access == ACC_PRIVATE + ACC_STATIC + ACC_FINAL ||
     f.access == ACC_PROTECTED + ACC_STATIC + ACC_FINAL)
  }

  /** The string a constant field holds. */
  function ConstValue(f: Field): JString
    requires ConstField(f)
  {
    f.value.value.s
  }

  function ConstFields(fs: seq<Field>): (r: seq<Field>)
    ensures |r| <= |fs|
    ensures forall k :: 0 <= k < |r| ==> ConstField(r[k]) && r[k] in fs
    ensures forall f :: f in fs && ConstField(f) ==> f in r
    ensures SomeConst(fs) <==> |r| > 0
  {
    if |fs| == 0 then []
    else
      var rest := ConstFields(fs[1..]);
      SomeConstCons(fs);
      (if ConstField(fs[0]) then [fs[0]] else []) + rest
  }

  predicate SomeConst(fs: seq<Field>) {
    exists i :: 0 <= i < |fs| && ConstField(fs[i])
  }

  lemma SomeConstCons(fs: seq<Field>)
    requires |fs| > 0
    ensures SomeConst(fs) <==> ConstField(fs[0]) || SomeConst(fs[1..])
    ensures forall f :: f in fs <==> f == fs[0] || f in fs[1..]
  {
    if SomeConst(fs) {
      var i :| 0 <= i < |fs| && ConstField(fs[i]);
      if i > 0 { assert fs[1..][i - 1] == fs[i]; }
    }
    if SomeConst(fs[1..]) {
      var i :| 0 <= i < |fs[1..]| && ConstField(fs[1..][i]);
      assert fs[i + 1] == fs[1..][i];
    }
    assert fs == [fs[0]] + fs[1..];
  }

  /** The loop over `constFields`: `deobfuscate` appends to one shared list
      and the `putstatic` is added whenever that LIST is non-empty, so a
      field whose own sequence is empty still gets a `putstatic` after an
      earlier field's code.  `cleared` names the fields whose value is set
      to null. */
  datatype Prologue = Prologue(code: seq<Insn>, cleared: seq<Name>, calls: nat)

  /** One iteration of the loop over `constFields`. */
  function StoreStep(owner: Name, f: Field, arrays: Arrays, acc: Prologue): (r: Prologue)
    requires ConstField(f)
    ensures r.calls == acc.calls + 1
    ensures |acc.code| <= |r.code|
  {
    var code := acc.code + Deobfuscate(arrays(ConstValue(f), acc.calls));
    if |code| != 0 then Prologue(code + [FieldOp(PUTSTATIC, owner, f.name, STRING_DESC)], acc.cleared + [f.name], acc.calls + 1)
    else Prologue(code, acc.cleared, acc.calls + 1)
  }

  function FieldStores(owner: Name, fs: seq<Field>, arrays: Arrays, acc: Prologue): (r: Prologue)
    requires forall k :: 0 <= k < |fs| ==> ConstField(fs[k])
    ensures r.calls == acc.calls + |fs|
    ensures |acc.code| <= |r.code|
    decreases |fs|
  {
    if |fs| == 0 then acc
    else FieldStores(owner, fs[1..], arrays, StoreStep(owner, fs[0], arrays, acc))
  }

  /** Reference definition for the case where every field gets code: each
      field's own construction sequence followed by its own `putstatic`. */
  function ExpectedStores(owner: Name, fs: seq<Field>, arrays: Arrays, calls: nat): seq<Insn>
    requires forall k :: 0 <= k < |fs| ==> ConstField(fs[k])
    decreases |fs|
  {
    if |fs| == 0 then []
    else Deobfuscate(arrays(ConstValue(fs[0]), calls)) + [FieldOp(PUTSTATIC, owner, fs[0].name, STRING_DESC)]
         + ExpectedStores(owner, fs[1..], arrays, calls + 1)
  }

  function Names(fs: seq<Field>): (r: seq<Name>)
    ensures |r| == |fs| && forall k :: 0 <= k < |fs| ==> r[k] == fs[k].name
  {
    if |fs| == 0 then [] else [fs[0].name] + Names(fs[1..])
  }

  /** Every field's array fits, starting from call number `calls`. */
  predicate AllFit(fs: seq<Field>, arrays: Arrays, calls: nat)
    requires forall k :: 0 <= k < |fs| ==> ConstField(fs[k])
  {
    forall k :: 0 <= k < |fs| ==> Fits(arrays(ConstValue(fs[k]), calls + k))
  }

  /** When every field gets code, the shared-list loop agrees with the
      reference definition and clears every field. */
  lemma {:induction false} FieldStoresAllFit(owner: Name, fs: seq<Field>, arrays: Arrays, acc: Prologue)
    requires forall k :: 0 <= k < |fs| ==> ConstField(fs[k])
    requires AllFit(fs, arrays, acc.calls)
    ensures FieldStores(owner, fs, arrays, acc) ==
      Prologue(acc.code + ExpectedStores(owner, fs, arrays, acc.calls), acc.cleared + Names(fs), acc.calls + |fs|)
    decreases |fs|
  {
    if |fs| == 0 {
      assert acc.code + [] == acc.code;
      assert acc.cleared + [] == acc.cleared;
    } else {
      var next := StoreStep(owner, fs[0], arrays, acc);
      AllFitStep(owner, fs, arrays, acc);
      FieldStoresAllFit(owner, fs[1..], arrays, next);
      ExpectedUnfold(owner, fs, arrays, acc.calls);
      var block := Deobfuscate(arrays(ConstValue(fs[0]), acc.calls)) + [FieldOp(PUTSTATIC, owner, fs[0].name, STRING_DESC)];
      AppendAssoc(acc.code, block, ExpectedStores(owner, fs[1..], arrays, acc.calls + 1));
      AppendAssoc(acc.cleared, [fs[0].name], Names(fs[1..]));
    }
  }

  lemma AllFitStep(owner: Name, fs: seq<Field>, arrays: Arrays, acc: Prologue)
    requires 0 < |fs| && forall k :: 0 <= k < |fs| ==> ConstField(fs[k])
    requires AllFit(fs, arrays, acc.calls)
    ensures StoreStep(owner, fs[0], arrays, acc) ==
      Prologue(acc.code + (Deobfuscate(arrays(ConstValue(fs[0]), acc.calls)) + [FieldOp(PUTSTATIC, owner, fs[0].name, STRING_DESC)]),
               acc.cleared + [fs[0].name], acc.calls + 1)
    ensures AllFit(fs[1..], arrays, acc.calls + 1)
  {
    assert Fits(arrays(ConstValue(fs[0]), acc.calls + 0));
    forall k | 0 <= k < |fs[1..]|
      ensures Fits(arrays(ConstValue(fs[1..][k]), acc.calls + 1 + k))
    {
      assert fs[1..][k] == fs[k + 1];
      assert Fits(arrays(ConstValue(fs[k + 1]), acc.calls + (k + 1)));
    }
  }

  lemma ExpectedUnfold(owner: Name, fs: seq<Field>, arrays: Arrays, calls: nat)
    requires 0 < |fs| && forall k :: 0 <= k < |fs| ==> ConstField(fs[k])
    ensures ExpectedStores(owner, fs, arrays, calls) ==
      (Deobfuscate(arrays(ConstValue(fs[0]), calls)) + [FieldOp(PUTSTATIC, owner, fs[0].name, STRING_DESC)])
      + ExpectedStores(owner, fs[1..], arrays, calls + 1)
    ensures Names(fs) == [fs[0].name] + Names(fs[1..])
  {
  }

  /** With the runtime's `array`, every field gets code exactly when every
      constant string is encodable, whatever the seeds. */
  lemma {:induction false} AllFitGenerated(fs: seq<Field>, seeds: Seeds, prng: Prng, calls: nat)
    requires forall k :: 0 <= k < |fs| ==> ConstField(fs[k])
    ensures AllFit(fs, Generated(seeds, prng), calls) <==> forall k :: 0 <= k < |fs| ==> Encodable(ConstValue(fs[k]))
  {
    forall k | 0 <= k < |fs| {
      ArrayFits(ConstValue(fs[k]), seeds(calls + k), prng);
    }
  }

  /** The accumulated-size quirk: a field that gets code followed by one
      that does not gets two `putstatic`s in a row, the second with nothing
      on the stack to store, and both fields lose their constant value. */
  lemma StoreWithoutValue(owner: Name, a: Field, b: Field, arrays: Arrays)
    requires ConstField(a) && ConstField(b)
    requires Fits(arrays(ConstValue(a), 0)) && !Fits(arrays(ConstValue(b), 1))
    ensures var r := FieldStores(owner, [a, b], arrays, Prologue([], [], 0));
      |r.code| >= 2 &&
      r.code[|r.code| - 2] == FieldOp(PUTSTATIC, owner, a.name, STRING_DESC) &&
      r.code[|r.code| - 1] == FieldOp(PUTSTATIC, owner, b.name, STRING_DESC) &&
      r.cleared == [a.name, b.name]
  {
    var acc0 := Prologue([], [], 0);
    var acc1 := StoreStep(owner, a, arrays, acc0);
    assert |acc1.code| > 0;
    assert acc1.code + [] == acc1.code;
    var acc2 := StoreStep(owner, b, arrays, acc1);
    assert acc2.code == acc1.code + [FieldOp(PUTSTATIC, owner, b.name, STRING_DESC)];
    assert [a, b][1..] == [b];
    assert [b][1..] == [];
    assert FieldStores(owner, [b], arrays, acc1) == FieldStores(owner, [], arrays, acc2);
    assert FieldStores(owner, [a, b], arrays, acc0) == FieldStores(owner, [b], arrays, acc1);
  }

  /** The same quirk with the runtime's `array`: the second field holds a
      NUL character, so `array` throws and `deobfuscate` appends nothing. */
  lemma StoreWithoutValueNul(owner: Name, a: Field, b: Field, seeds: Seeds, prng: Prng)
    requires ConstField(a) && ConstField(b)
    requires Encodable(ConstValue(a)) && 0 in ConstValue(b)
    ensures var r := FieldStores(owner, [a, b], Generated(seeds, prng), Prologue([], [], 0));
      |r.code| >= 2 && r.code[|r.code| - 1] == FieldOp(PUTSTATIC, owner, b.name, STRING_DESC) &&
      r.cleared == [a.name, b.name]
  {
    ArrayFits(ConstValue(a), seeds(0), prng);
    ArrayFits(ConstValue(b), seeds(1), prng);
    StoreWithoutValue(owner, a, b, Generated(seeds, prng));
  }

  /** The exception `transform` can throw: `insnList.last` is null for an
      empty list, and reading its `type` throws. */
  datatype Fault = NullPointer

  /** `insnList.last` is not `return` (also when it is a label or any other
      node). */
  predicate EndsInReturn(code: seq<Insn>) {
    |code| > 0 && code[|code| - 1] == Op(RETURN)
  }

  function FindClinit(ms: seq<Method>): (r: Option<Method>)
    ensures r.Some? ==> r.value.name == CLINIT && r.value in ms
    ensures r.None? <==> CountNamed(ms, CLINIT) == 0
  {
    if |ms| == 0 then None
    else if ms[0].name == CLINIT then Some(ms[0])
    else FindClinit(ms[1..])
  }

  function RemoveClinits(ms: seq<Method>): (r: seq<Method>)
    ensures CountNamed(r, CLINIT) == 0
    ensures |r| == |ms| - CountNamed(ms, CLINIT)
    ensures forall m :: m in ms && m.name != CLINIT ==> m in r
    ensures forall m :: m in r ==> m in ms
  {
    if |ms| == 0 then []
    else if ms[0].name == CLINIT then RemoveClinits(ms[1..])
    else [ms[0]] + RemoveClinits(ms[1..])
  }

  /** The number of string literals in the bodies of `ms`. */
  function LiteralCount(ms: seq<Method>): nat {
    if |ms| == 0 then 0 else |StringLiterals(ms[0].body)| + LiteralCount(ms[1..])
  }

  /** The number of string literals in the first `i` bodies of `ms`. */
  function LiteralsBefore(ms: seq<Method>, i: nat): nat
    requires i <= |ms|
  {
    if i == 0 then 0 else |StringLiterals(ms[0].body)| + LiteralsBefore(ms[1..], i - 1)
  }

  /** The method loop of `modifyBytecode`: method `i` keeps its header and
      has its body rewritten, its literals numbered after those of the
      methods before it; one `array` call is spent per literal. */
  function RewriteMethods(ms: seq<Method>, arrays: Arrays, calls: nat): (r: (seq<Method>, nat))
    ensures |r.0| == |ms|
    ensures r.1 == calls + LiteralCount(ms)
    decreases |ms|
  {
    if |ms| == 0 then ([], calls)
    else
      var body := RewriteCode(ms[0].body, arrays, calls);
      var rest := RewriteMethods(ms[1..], arrays, body.calls);
      ([ms[0].(body := body.code)] + rest.0, rest.1)
  }

  /** What each method becomes: method `i` keeps its access, name and
      descriptor, and its body is rewritten with its literals numbered
      after those of the methods before it. */
  lemma {:induction false} RewriteMethodsBodies(ms: seq<Method>, arrays: Arrays, calls: nat)
    ensures forall i {:trigger RewriteMethods(ms, arrays, calls).0[i]} :: 0 <= i < |ms| ==>
      RewriteMethods(ms, arrays, calls).0[i] == ms[i].(body := RewriteCode(ms[i].body, arrays, calls + LiteralsBefore(ms, i)).code)
  {
    forall i | 0 <= i < |ms|
      ensures RewriteMethods(ms, arrays, calls).0[i] == ms[i].(body := RewriteCode(ms[i].body, arrays, calls + LiteralsBefore(ms, i)).code)
    {
      RewriteMethodsBody(ms, arrays, calls, i);
    }
  }

  /** `RewriteMethodsBodies` for one method, by induction on its index. */
  lemma {:induction false} RewriteMethodsBody(ms: seq<Method>, arrays: Arrays, calls: nat, i: nat)
    requires i < |ms|
    ensures RewriteMethods(ms, arrays, calls).0[i] == ms[i].(body := RewriteCode(ms[i].body, arrays, calls + LiteralsBefore(ms, i)).code)
    decreases i
  {
    var body := RewriteCode(ms[0].body, arrays, calls);
    var rest := RewriteMethods(ms[1..], arrays, body.calls).0;
    assert RewriteMethods(ms, arrays, calls).0 == [ms[0].(body := body.code)] + rest;
    if i == 0 {
    } else {
      RewriteMethodsBody(ms[1..], arrays, body.calls, i - 1);
      assert ms[1..][i-1] == ms[i];
      assert body.calls + LiteralsBefore(ms[1..], i - 1) == calls + LiteralsBefore(ms, i);
      assert RewriteMethods(ms, arrays, calls).0[i] == rest[i-1];
    }
  }

  function ClearValues(fs: seq<Field>, cleared: seq<Name>): (r: seq<Field>)
    ensures |r| == |fs|
    ensures forall i :: 0 <= i < |fs| ==>
      r[i] == (if ConstField(fs[i]) && fs[i].name in cleared then fs[i].(value := None) else fs[i])
  {
    if |fs| == 0 then []
    else [if ConstField(fs[0]) && fs[0].name in cleared then fs[0].(value := None) else fs[0]] + ClearValues(fs[1..], cleared)
  }

  /** The initializer the field code is prepended to: the first
      `<clinit>`, or a fresh empty one. */
  function ClinitOf(ms: seq<Method>): (r: Method)
    ensures r.name == CLINIT
    ensures CountNamed(ms, CLINIT) == 0 ==> r == Method(ACC_STATIC, CLINIT, VOID_DESC, [])
    ensures CountNamed(ms, CLINIT) > 0 ==> r in ms
  {
    match FindClinit(ms)
    case Some(m) => m
    case None => Method(ACC_STATIC, CLINIT, VOID_DESC, [])
  }

  /** The `return` check on `insnList.last`, for a non-empty list. */
  function Terminated(code: seq<Insn>): (r: seq<Insn>)
    requires |code| > 0
    ensures code <= r && EndsInReturn(r)
    ensures |r| <= |code| + 1
  {
    if EndsInReturn(code) then code else code + [Op(RETURN)]
  }

  /** `removeIf { it.name == "<clinit>" }` followed by `add(clinit)`. */
  function Install(ms: seq<Method>, body: seq<Insn>): (r: seq<Method>)
    ensures |r| > 0 && CountNamed(r, CLINIT) == 1
    ensures r[|r| - 1] == ClinitOf(ms).(body := body)
    ensures r[..|r| - 1] == RemoveClinits(ms)
  {
    var others := RemoveClinits(ms);
    var last := ClinitOf(ms).(body := body);
    CountNamedAppend(others, [last], CLINIT);
    assert CountNamed([last], CLINIT) == 1 by {
      assert [last][1..] == [];
    }
    assert (others + [last])[..|others|] == others;
    others + [last]
  }

  /** `modifyBytecode(node)`. */
  function ModifyBytecode(c: ClassFile, arrays: Arrays): (r: Result<ClassFile, Fault>)
    ensures r.Success? ==>
      (r.value.name == c.name && r.value.superName == c.superName &&
       r.value.version == c.version && r.value.access == c.access && |r.value.fields| == |c.fields|)
    ensures r.Success? && |ConstFields(c.fields)| > 0 ==>
      (CountNamed(r.value.methods, CLINIT) == 1 &&
       r.value.methods[|r.value.methods| - 1].name == CLINIT &&
       EndsInReturn(r.value.methods[|r.value.methods| - 1].body))
    ensures |ConstFields(c.fields)| == 0 ==> r.Success? && r.value.fields == c.fields
    ensures |ConstFields(c.fields)| == 0 ==> r.value.methods == RewriteMethods(c.methods, arrays, 0).0
    ensures r.Success? && |ConstFields(c.fields)| > 0 ==>
      var ms := RewriteMethods(c.methods, arrays, 0).0;
      var stores := FieldStores(c.name, ConstFields(c.fields), arrays, Prologue([], [], RewriteMethods(c.methods, arrays, 0).1));
      var last := |r.value.methods| - 1;
      |stores.code + ClinitOf(ms).body| > 0 &&
      r.value.methods[..last] == RemoveClinits(ms) &&
      r.value.methods[last] == ClinitOf(ms).(body := Terminated(stores.code + ClinitOf(ms).body)) &&
      r.value.fields == ClearValues(c.fields, stores.cleared)
    ensures r.Failure? <==>
      (|ConstFields(c.fields)| > 0 &&
       FieldStores(c.name, ConstFields(c.fields), arrays, Prologue([], [], RewriteMethods(c.methods, arrays, 0).1)).code == [] &&
       ClinitOf(RewriteMethods(c.methods, arrays, 0).0).body == [])
  {
    var rewritten := RewriteMethods(c.methods, arrays, 0);
    var ms := rewritten.0;
    var consts := ConstFields(c.fields);
    if |consts| == 0 then Success(c.(methods := ms))
    else
      var stores := FieldStores(c.name, consts, arrays, Prologue([], [], rewritten.1));
      var code := stores.code + ClinitOf(ms).body;
      if |code| == 0 then Failure(NullPointer)
      else Success(c.(methods := Install(ms, Terminated(code)), fields := ClearValues(c.fields, stores.cleared)))
  }

  /** A class with no constant string field and no string literal in any
      method body comes out of `modifyBytecode` exactly as it went in. */
  lemma ModifyUntouched(c: ClassFile, arrays: Arrays)
    requires |ConstFields(c.fields)| == 0 && LiteralCount(c.methods) == 0
    ensures ModifyBytecode(c, arrays) == Success(c)
  {
    var ms := RewriteMethods(c.methods, arrays, 0).0;
    RewriteMethodsBodies(c.methods, arrays, 0);
    forall i | 0 <= i < |ms|
      ensures ms[i] == c.methods[i]
    {
      LiteralFree(c.methods, i);
      assert ms[i].body == RewriteCode(c.methods[i].body, arrays, LiteralsBefore(c.methods, i)).code;
    }
    assert ms == c.methods;
  }

  /** No literal in the list means none in any one body. */
  lemma {:induction false} LiteralFree(ms: seq<Method>, i: nat)
    requires i < |ms| && LiteralCount(ms) == 0
    ensures StringLiterals(ms[i].body) == []
    decreases i
  {
    if i > 0 {
      LiteralFree(ms[1..], i - 1);
    }
  }

  /** `transform(relativePath, node)`. */
  function Transform(c: ClassFile, includes: seq<string>, arrays: Arrays): (r: Result<ClassFile, Fault>)
    ensures !Selected(c.name, includes) ==> r == Success(c)
    ensures |includes| == 0 ==> r == Success(c)
  {
    if Selected(c.name, includes) then ModifyBytecode(c, arrays) else Success(c)
  }

  /** The other half of the filter: a class whose name starts with some
      include, written with dots as in the build script, is rewritten. */
  lemma TransformSelects(c: ClassFile, includes: seq<string>, arrays: Arrays, i: nat)
    requires i < |includes| && StartsWith(c.name, DotsToSlashes(includes[i]))
    ensures Transform(c, includes, arrays) == ModifyBytecode(c, arrays)
  {
  }

  /** A package written with dots selects the classes beneath it. */
  lemma DottedIncludeSelects()
    ensures Selected("a/b/C", ["a.b"])
  {
    var includes: seq<string> := ["a.b"];
    var inc := DotsToSlashes(includes[0]);
    assert inc[0] == 'a' && inc[1] == '/' && inc[2] == 'b';
    assert inc == "a/b";
    assert StartsWith("a/b/C", inc);
  }

  /** `insnList.last` throws when no constant field gets code and there is
      no `<clinit>` body to append. */
  lemma NullPointerWhenNothingFits(c: ClassFile, arrays: Arrays)
    requires |ConstFields(c.fields)| > 0
    requires forall s, n :: !Fits(arrays(s, n))
    requires CountNamed(c.methods, CLINIT) == 0
    ensures ModifyBytecode(c, arrays) == Failure(NullPointer)
  {
    var (ms, calls) := RewriteMethods(c.methods, arrays, 0);
    RewriteMethodsBodies(c.methods, arrays, 0);
    SameNamesCount(ms, c.methods);
    var consts := ConstFields(c.fields);
    NothingFits(c.name, consts, arrays, Prologue([], [], calls));
  }

  lemma {:induction false} NothingFits(owner: Name, fs: seq<Field>, arrays: Arrays, acc: Prologue)
    requires forall k :: 0 <= k < |fs| ==> ConstField(fs[k]) && !Fits(arrays(ConstValue(fs[k]), acc.calls + k))
    requires acc.code == []
    ensures FieldStores(owner, fs, arrays, acc).code == []
    decreases |fs|
  {
    if |fs| > 0 {
      assert !Fits(arrays(ConstValue(fs[0]), acc.calls + 0));
      var next := StoreStep(owner, fs[0], arrays, acc);
      assert next == Prologue([], acc.cleared, acc.calls + 1);
      forall k | 0 <= k < |fs[1..]|
        ensures ConstField(fs[1..][k]) && !Fits(arrays(ConstValue(fs[1..][k]), next.calls + k))
      {
        assert fs[1..][k] == fs[k + 1];
      }
      NothingFits(owner, fs[1..], arrays, next);
    }
  }

  lemma {:induction false} SameNamesCount(a: seq<Method>, b: seq<Method>)
    requires |a| == |b| && forall i :: 0 <= i < |a| ==> a[i] == b[i].(body := a[i].body)
    ensures CountNamed(a, CLINIT) == CountNamed(b, CLINIT)
    decreases |a|
  {
    if |a| > 0 {
      SameNamesCount(a[1..], b[1..]);
    }
  }

  /** What `modifyBytecode` does with the result of the field loop: when
      that loop produced code, the rewrite succeeds, the last method starts
      with that code, and the fields cleared are the loop's. */
  lemma ModifyShape(c: ClassFile, arrays: Arrays)
    requires |ConstFields(c.fields)| > 0
    ensures var r := ModifyBytecode(c, arrays);
      var stores := FieldStores(c.name, ConstFields(c.fields), arrays, Prologue([], [], RewriteMethods(c.methods, arrays, 0).1));
      |stores.code| > 0 ==>
        r.Success? && stores.code <= r.value.methods[|r.value.methods| - 1].body &&
        r.value.fields == ClearValues(c.fields, stores.cleared)
  {
    var ms := RewriteMethods(c.methods, arrays, 0).0;
    var stores := FieldStores(c.name, ConstFields(c.fields), arrays, Prologue([], [], RewriteMethods(c.methods, arrays, 0).1));
    var code := stores.code + ClinitOf(ms).body;
    if |stores.code| > 0 {
      var installed := Install(ms, Terminated(code));
      assert ModifyBytecode(c, arrays) == Success(c.(methods := installed, fields := ClearValues(c.fields, stores.cleared)));
      assert stores.code <= code;
      PrefixTrans(stores.code, code, Terminated(code));
    }
  }

  lemma PrefixTrans<T>(a: seq<T>, b: seq<T>, c: seq<T>)
    requires a <= b && b <= c
    ensures a <= c
  {
  }

  /** When every constant field gets code, the rewrite succeeds: the one
      `<clinit>`, placed after the other methods, is each field's own
      construction sequence and `putstatic`, followed by the old
      initializer's body and a `return` if that did not end in one; every
      constant field
      has lost its value while the other fields are untouched.  With the
      runtime's `array` the premise is that every constant string is
      encodable (`AllFitGenerated`). */
  lemma ModifyAllFit(c: ClassFile, arrays: Arrays)
    requires |ConstFields(c.fields)| > 0
    requires forall f, n :: f in c.fields && ConstField(f) ==> Fits(arrays(ConstValue(f), n))
    ensures var r := ModifyBytecode(c, arrays);
      var consts := ConstFields(c.fields);
      var ms := RewriteMethods(c.methods, arrays, 0).0;
      var calls := RewriteMethods(c.methods, arrays, 0).1;
      var expected := ExpectedStores(c.name, consts, arrays, calls) + ClinitOf(ms).body;
      r.Success? && |expected| > 0 &&
      r.value.methods[..|r.value.methods| - 1] == RemoveClinits(ms) &&
      r.value.methods[|r.value.methods| - 1].body == Terminated(expected) &&
      forall i :: 0 <= i < |c.fields| ==>
        r.value.fields[i] == (if ConstField(c.fields[i]) then c.fields[i].(value := None) else c.fields[i])
  {
    AllFitMethods(c, arrays);
    AllFitFields(c, arrays);
  }

  /** The methods half of `ModifyAllFit`. */
  lemma AllFitMethods(c: ClassFile, arrays: Arrays)
    requires |ConstFields(c.fields)| > 0
    requires forall f, n :: f in c.fields && ConstField(f) ==> Fits(arrays(ConstValue(f), n))
    ensures var r := ModifyBytecode(c, arrays);
      var ms := RewriteMethods(c.methods, arrays, 0).0;
      var expected := ExpectedStores(c.name, ConstFields(c.fields), arrays, RewriteMethods(c.methods, arrays, 0).1) + ClinitOf(ms).body;
      r.Success? && |expected| > 0 &&
      r.value.methods[..|r.value.methods| - 1] == RemoveClinits(ms) &&
      r.value.methods[|r.value.methods| - 1].body == Terminated(expected)
  {
    var stores := FieldStores(c.name, ConstFields(c.fields), arrays, Prologue([], [], RewriteMethods(c.methods, arrays, 0).1));
    StoresAllFit(c, arrays);
    assert stores.code != [];
    assert ModifyBytecode(c, arrays).Success?;
  }

  /** The fields half of `ModifyAllFit`. */
  lemma AllFitFields(c: ClassFile, arrays: Arrays)
    requires |ConstFields(c.fields)| > 0
    requires forall f, n :: f in c.fields && ConstField(f) ==> Fits(arrays(ConstValue(f), n))
    ensures var r := ModifyBytecode(c, arrays);
      r.Success? &&
      forall i :: 0 <= i < |c.fields| ==>
        r.value.fields[i] == (if ConstField(c.fields[i]) then c.fields[i].(value := None) else c.fields[i])
  {
    var stores := FieldStores(c.name, ConstFields(c.fields), arrays, Prologue([], [], RewriteMethods(c.methods, arrays, 0).1));
    StoresAllFit(c, arrays);
    assert stores.code != [];
    assert ModifyBytecode(c, arrays).Success?;
    ClearAllConst(c.fields);
  }

  lemma StoresAllFit(c: ClassFile, arrays: Arrays)
    requires |ConstFields(c.fields)| > 0
    requires forall f, n :: f in c.fields && ConstField(f) ==> Fits(arrays(ConstValue(f), n))
    ensures var consts := ConstFields(c.fields);
      var calls := RewriteMethods(c.methods, arrays, 0).1;
      var stores := FieldStores(c.name, consts, arrays, Prologue([], [], calls));
      stores.code == ExpectedStores(c.name, consts, arrays, calls) && |stores.code| > 0 &&
      stores.cleared == Names(consts)
  {
    var consts := ConstFields(c.fields);
    var calls := RewriteMethods(c.methods, arrays, 0).1;
    ConstsFit(c.fields, arrays, calls);
    FieldStoresAllFit(c.name, consts, arrays, Prologue([], [], calls));
    ExpectedUnfold(c.name, consts, arrays, calls);
  }

  /** When every constant field's array fits, whatever the call count. */
  lemma ConstsFit(fs: seq<Field>, arrays: Arrays, calls: nat)
    requires forall f, n :: f in fs && ConstField(f) ==> Fits(arrays(ConstValue(f), n))
    ensures AllFit(ConstFields(fs), arrays, calls)
  {
    var consts := ConstFields(fs);
    forall k | 0 <= k < |consts|
      ensures Fits(arrays(ConstValue(consts[k]), calls + k))
    {
      assert consts[k] in fs;
    }
  }

  lemma ClearAllConst(fs: seq<Field>)
    ensures forall i :: 0 <= i < |fs| ==>
      ClearValues(fs, Names(ConstFields(fs)))[i] == (if ConstField(fs[i]) then fs[i].(value := None) else fs[i])
  {
    var names := Names(ConstFields(fs));
    forall i | 0 <= i < |fs| && ConstField(fs[i])
      ensures fs[i].name in names
    {
      ConstNamed(fs, fs[i]);
    }
  }

  lemma ConstNamed(fs: seq<Field>, f: Field)
    requires f in fs && ConstField(f)
    ensures f.name in Names(ConstFields(fs))
  {
    var consts := ConstFields(fs);
    var k :| 0 <= k < |consts| && consts[k] == f;
    assert Names(consts)[k] == f.name;
  }
}

=== FILE: class_visitor.dfy ===
/** `ModifyClassVisitor`: the class visitor of the first generation.  ASM
    reports the class header, then every field, then every method, then the
    end of the class; the model folds over a class record in that order. */
module ClassVisitor {
  import opened Wrappers
  import opened Jvm
  import opened MuddyXor
  import opened ConstVisitor

  /** The visitor's fields: `owner`, `constFieldMap` (null is `None`),
      `clinitExist`, and the build-time `Muddy.constMap` it shares with
      every `Muddy.xor` call. */
  datatype State = State(owner: Name, fieldMap: Option<FieldMap>, clinitExist: bool, cache: Cache)

  function Keys(m: FieldMap): (r: seq<Name>)
    ensures |r| == |m|
    ensures forall j :: 0 <= j < |m| ==> r[j] == m[j].field
  {
    if |m| == 0 then [] else [m[0].field] + Keys(m[1..])
  }

  /** `HashMap.put`: a present key keeps its slot and takes the new value,
      an absent key is added. */
  function Put(m: FieldMap, k: Name, v: JString): (r: FieldMap)
    ensures k !in Keys(m) ==> r == m + [Entry(k, v)]
    ensures k in Keys(m) ==> Keys(r) == Keys(m)
    ensures Entry(k, v) in r
  {
    if |m| == 0 then [Entry(k, v)]
    else if m[0].field == k then [Entry(k, v)] + m[1..]
    else
      assert k in Keys(m) <==> k in Keys(m[1..]) by { assert Keys(m) == [m[0].field] + Keys(m[1..]); }
      [m[0]] + Put(m[1..], k, v)
  }

  lemma InKeys(m: FieldMap, e: Entry)
    requires e in m
    ensures e.field in Keys(m)
  {
    var j :| 0 <= j < |m| && m[j] == e;
    assert Keys(m)[j] == e.field;
  }

  /** A `String` field whose access is exactly public, private or protected
      together with static and final; nothing else qualifies. */
  predicate Eligible(f: Field) {
    f.desc == STRING_DESC &&
    (f.access == ACC_PUBLIC + ACC_STATIC + ACC_FINAL ||
     f.access == ACC_PRIVATE + ACC_STATIC + ACC_FINAL ||
     f.access == ACC_PROTECTED + ACC_STATIC + ACC_FINAL)
  }

  /** An eligible field whose constant value is a non-empty string. */
  predicate Recordable(f: Field) {
    Eligible(f) && f.value.Some? && f.value.value.StrC? && |f.value.value.s| > 0
  }

  /** What the next class visitor receives for `f`. */
  function Forwarded(f: Field): Field {
    if Eligible(f) then f.(value := None) else f
  }

  /** `visitField`. */
  function VisitField(st: State, f: Field, key: Int32): (r: (Field, State))
    ensures r.0.access == f.access && r.0.name == f.name && r.0.desc == f.desc
    ensures r.0.value == (if Eligible(f) then None else f.value)
    ensures r.1.owner == st.owner && r.1.clinitExist == st.clinitExist
    ensures !Recordable(f) ==> r.1 == st
    ensures Recordable(f) ==> r.1.fieldMap.Some? && f.name in Keys(r.1.fieldMap.value)
    ensures Consistent(st.cache, key) ==> Consistent(r.1.cache, key)
    ensures Consistent(st.cache, key) && Recordable(f) ==>
      Entry(f.name, RawXor(f.value.value.s, key)) in r.1.fieldMap.value
  {
    if Recordable(f) then
      var m := if st.fieldMap.None? then [] else st.fieldMap.value;
      var x := Xor(st.cache, f.value.value.s, key);
      InKeys(Put(m, f.name, x.value), Entry(f.name, x.value));
      (f.(value := None), st.(fieldMap := Some(Put(m, f.name, x.value)), cache := x.cache))
    else (Forwarded(f), st)
  }

  function VisitFields(st: State, fs: seq<Field>, key: Int32): (r: (seq<Field>, State))
    ensures |r.0| == |fs|
    ensures forall i :: 0 <= i < |fs| ==> r.0[i] == Forwarded(fs[i])
    ensures r.1.owner == st.owner && r.1.clinitExist == st.clinitExist
    ensures r.1.fieldMap.Some? <==> st.fieldMap.Some? || SomeRecordable(fs)
    ensures Consistent(st.cache, key) ==> Consistent(r.1.cache, key)
    decreases |fs|
  {
    if |fs| == 0 then ([], st)
    else
      var (f, st1) := VisitField(st, fs[0], key);
      var (rest, st2) := VisitFields(st1, fs[1..], key);
      SomeRecordableCons(fs);
      assert forall i :: 0 < i < |fs| ==> ([f] + rest)[i] == rest[i - 1];
      ([f] + rest, st2)
  }

  predicate SomeRecordable(fs: seq<Field>) {
    exists i :: 0 <= i < |fs| && Recordable(fs[i])
  }

  lemma SomeRecordableCons(fs: seq<Field>)
    requires |fs| > 0
    ensures SomeRecordable(fs) <==> Recordable(fs[0]) || SomeRecordable(fs[1..])
  {
    if SomeRecordable(fs) {
      var i :| 0 <= i < |fs| && Recordable(fs[i]);
      if i > 0 { assert fs[1..][i - 1] == fs[i]; }
    }
    if SomeRecordable(fs[1..]) {
      var i :| 0 <= i < |fs[1..]| && Recordable(fs[1..][i]);
      assert fs[i + 1] == fs[1..][i];
    }
  }

  /** The entries a well-formed class (distinct field names) leaves in the
      map: one per recordable field, in declaration order. */
  function Recorded(fs: seq<Field>, key: Int32): (r: FieldMap)
    ensures |r| <= |fs|
    ensures Keys(r) == RecordedNames(fs)
  {
    if |fs| == 0 then []
    else if Recordable(fs[0]) then [Entry(fs[0].name, RawXor(fs[0].value.value.s, key))] + Recorded(fs[1..], key)
    else Recorded(fs[1..], key)
  }

  function RecordedNames(fs: seq<Field>): seq<Name> {
    if |fs| == 0 then []
    else (if Recordable(fs[0]) then [fs[0].name] else []) + RecordedNames(fs[1..])
  }

  lemma {:induction false} RecordedNamesFrom(fs: seq<Field>, n: Name)
    requires n in RecordedNames(fs)
    ensures exists i :: 0 <= i < |fs| && fs[i].name == n
  {
    if !(Recordable(fs[0]) && fs[0].name == n) {
      assert n in RecordedNames(fs[1..]);
      RecordedNamesFrom(fs[1..], n);
      var i :| 0 <= i < |fs[1..]| && fs[1..][i].name == n;
      assert fs[i + 1].name == n;
    }
  }

  predicate DistinctNames(fs: seq<Field>) {
    forall i, j :: 0 <= i < j < |fs| ==> fs[i].name != fs[j].name
  }

  function Extend(m: Option<FieldMap>, es: FieldMap): Option<FieldMap> {
    if |es| == 0 then m else Some((if m.Some? then m.value else []) + es)
  }

  function MapOf(o: Option<FieldMap>): FieldMap {
    if o.Some? then o.value else []
  }

  /** No name already in `m` is the name of a field in `fs`. */
  predicate Disjoint(m: FieldMap, fs: seq<Field>) {
    forall i, j :: 0 <= i < |m| && 0 <= j < |fs| ==> m[i].field != fs[j].name
  }

  lemma DisjointHead(m: FieldMap, fs: seq<Field>)
    requires Disjoint(m, fs) && |fs| > 0
    ensures fs[0].name !in Keys(m) && Disjoint(m, fs[1..])
  {
    forall i, j | 0 <= i < |m| && 0 <= j < |fs[1..]| ensures m[i].field != fs[1..][j].name {
      assert fs[1..][j] == fs[j + 1];
    }
  }

  lemma DisjointAdd(m: FieldMap, fs: seq<Field>, v: JString)
    requires Disjoint(m, fs) && DistinctNames(fs) && |fs| > 0
    ensures Disjoint(m + [Entry(fs[0].name, v)], fs[1..])
  {
    var m1 := m + [Entry(fs[0].name, v)];
    forall i, j | 0 <= i < |m1| && 0 <= j < |fs[1..]| ensures m1[i].field != fs[1..][j].name {
      assert fs[1..][j] == fs[j + 1];
    }
  }

  lemma RecordStep(st: State, f: Field, key: Int32)
    requires Consistent(st.cache, key) && Recordable(f) && f.name !in Keys(MapOf(st.fieldMap))
    ensures VisitField(st, f, key).1.fieldMap == Some(MapOf(st.fieldMap) + [Entry(f.name, RawXor(f.value.value.s, key))])
  {
  }

  lemma ExtendStep(o: Option<FieldMap>, e: Entry, rest: FieldMap)
    ensures Extend(Some(MapOf(o) + [e]), rest) == Extend(o, [e] + rest)
  {
    if |rest| == 0 {
      assert [e] + rest == [e];
      assert MapOf(o) + [e] + rest == MapOf(o) + [e];
    } else {
      assert MapOf(o) + [e] + rest == MapOf(o) + ([e] + rest);
    }
  }

  /** With distinct field names and a cache that agrees with the key, the
      map built by the field visits holds exactly the recordable fields'
      encodings, in declaration order. */
  lemma {:induction false} VisitFieldsRecords(st: State, fs: seq<Field>, key: Int32)
    requires Consistent(st.cache, key) && DistinctNames(fs) && Disjoint(MapOf(st.fieldMap), fs)
    ensures VisitFields(st, fs, key).1.fieldMap == Extend(st.fieldMap, Recorded(fs, key))
    decreases |fs|
  {
    if |fs| > 0 {
      var st1 := VisitField(st, fs[0], key).1;
      assert VisitFields(st, fs, key).1 == VisitFields(st1, fs[1..], key).1;
      assert DistinctNames(fs[1..]);
      DisjointHead(MapOf(st.fieldMap), fs);
      if Recordable(fs[0]) {
        var e := Entry(fs[0].name, RawXor(fs[0].value.value.s, key));
        RecordStep(st, fs[0], key);
        DisjointAdd(MapOf(st.fieldMap), fs, e.encoded);
        VisitFieldsRecords(st1, fs[1..], key);
        assert Recorded(fs, key) == [e] + Recorded(fs[1..], key);
        ExtendStep(st.fieldMap, e, Recorded(fs[1..], key));
      } else {
        VisitFieldsRecords(st1, fs[1..], key);
      }
    }
  }

  /** The `clinitExist` flag after visiting `ms`, starting from `flag`. */
  function FlagAfter(flag: bool, ms: seq<Method>): bool
    decreases |ms|
  {
    if |ms| == 0 then flag else FlagAfter(ms[0].name == CLINIT && !flag, ms[1..])
  }

  /** `visitMethod` for every method: each body goes through
      `ModifyConstVisitor` with the map as it stands after the fields. */
  function VisitMethods(st: State, ms: seq<Method>, key: Int32): (r: (seq<Method>, State))
    ensures |r.0| == |ms|
    ensures forall i :: 0 <= i < |ms| ==>
      r.0[i].access == ms[i].access && r.0[i].name == ms[i].name && r.0[i].desc == ms[i].desc
    ensures r.1.owner == st.owner && r.1.fieldMap == st.fieldMap
    ensures r.1.clinitExist == FlagAfter(st.clinitExist, ms)
    ensures Consistent(st.cache, key) ==> Consistent(r.1.cache, key)
    ensures Consistent(st.cache, key) ==> forall i :: 0 <= i < |ms| ==>
      r.0[i].body == VisitCode(st.owner, ms[i].name, st.fieldMap) + Expected(ms[i].body, key)
    decreases |ms|
  {
    if |ms| == 0 then ([], st)
    else
      var m := ms[0];
      var code := VisitMethodCode(st.owner, m.name, st.fieldMap, key, st.cache, m.body);
      var st1 := st.(clinitExist := m.name == CLINIT && !st.clinitExist, cache := code.cache);
      var (rest, st2) := VisitMethods(st1, ms[1..], key);
      ([m.(body := code.code)] + rest, st2)
  }

  /** The `<clinit>` `visitEnd` writes: ldc, decoder call, putstatic and
      return, once per map entry, all into the same method. */
  function SynthBody(owner: Name, entries: FieldMap): (r: seq<Insn>)
    ensures |r| == 4 * |entries|
    ensures forall k :: 0 <= k < |entries| ==> r[4 * k .. 4 * k + 4] == SynthBlock(owner, entries[k])
  {
    if |entries| == 0 then []
    else
      var rest := SynthBody(owner, entries[1..]);
      var r := SynthBlock(owner, entries[0]) + rest;
      assert forall k :: 1 <= k < |entries| ==> r[4 * k .. 4 * k + 4] == rest[4 * (k - 1) .. 4 * (k - 1) + 4];
      r
  }

  function SynthBlock(owner: Name, e: Entry): seq<Insn> {
    StoreBlock(owner, e) + [Op(RETURN)]
  }

  /** `visitEnd`: the methods added after the visited ones. */
  function VisitEnd(st: State): (r: seq<Method>)
    ensures |r| <= 1
    ensures |r| == 1 <==> !st.clinitExist && st.fieldMap.Some?
    ensures |r| == 1 ==> r[0].name == CLINIT && r[0].access == ACC_STATIC && r[0].desc == VOID_DESC
  {
    if !st.clinitExist && st.fieldMap.Some? then
      [Method(ACC_STATIC, CLINIT, VOID_DESC, SynthBody(st.owner, st.fieldMap.value))]
    else []
  }

  /** A whole class through `ModifyClassVisitor`; `cache` is the build-time
      `Muddy.constMap` before the class. */
  function ModifyClass(c: ClassFile, key: Int32, cache: Cache): (r: (ClassFile, Cache))
    ensures r.0.version == c.version && r.0.access == c.access && r.0.name == c.name
    ensures r.0.superName == c.superName && r.0.interfaces == c.interfaces
    ensures |r.0.fields| == |c.fields|
    ensures forall i :: 0 <= i < |c.fields| ==> r.0.fields[i] == Forwarded(c.fields[i])
    ensures |c.methods| <= |r.0.methods| <= |c.methods| + 1
    ensures forall i :: 0 <= i < |c.methods| ==>
      r.0.methods[i].name == c.methods[i].name && r.0.methods[i].access == c.methods[i].access &&
      r.0.methods[i].desc == c.methods[i].desc
    // `visitEnd` appends the synthesised `<clinit>` exactly when the final
    // flag is false and some field was recorded
    ensures |r.0.methods| == |c.methods| + 1 <==>
      !FlagAfter(false, c.methods) && SomeRecordable(c.fields)
    ensures |r.0.methods| == |c.methods| + 1 ==>
      r.0.methods[|c.methods|] == Method(ACC_STATIC, CLINIT, VOID_DESC, SynthBody(c.name, FieldMapOf(c, key, cache).value))
    ensures Consistent(cache, key) ==> Consistent(r.1, key)
    ensures Consistent(cache, key) ==> forall i :: 0 <= i < |c.methods| ==>
      r.0.methods[i].body == VisitCode(c.name, c.methods[i].name, FieldMapOf(c, key, cache)) + Expected(c.methods[i].body, key)
  {
    var st0 := State(c.name, None, false, cache);
    var (fs, st1) := VisitFields(st0, c.fields, key);
    var (ms, st2) := VisitMethods(st1, c.methods, key);
    (c.(fields := fs, methods := ms + VisitEnd(st2)), st2.cache)
  }

  /** The map `ModifyClass` hands to every method and to `visitEnd`. */
  function FieldMapOf(c: ClassFile, key: Int32, cache: Cache): Option<FieldMap> {
    VisitFields(State(c.name, None, false, cache), c.fields, key).1.fieldMap
  }

  /** For a class with distinct field names, the map holds one encoded
      entry per recordable field, in declaration order, and stays null when
      there is none. */
  lemma FieldMapOfRecorded(c: ClassFile, key: Int32, cache: Cache)
    requires Consistent(cache, key) && DistinctNames(c.fields)
    ensures FieldMapOf(c, key, cache) == (if |Recorded(c.fields, key)| == 0 then None else Some(Recorded(c.fields, key)))
  {
    VisitFieldsRecords(State(c.name, None, false, cache), c.fields, key);
    assert [] + Recorded(c.fields, key) == Recorded(c.fields, key);
  }

  lemma {:induction false} FlagAfterSnoc(flag: bool, ms: seq<Method>, m: Method)
    ensures FlagAfter(flag, ms + [m]) == (m.name == CLINIT && !FlagAfter(flag, ms))
    decreases |ms|
  {
    if |ms| > 0 {
      assert (ms + [m])[1..] == ms[1..] + [m];
      FlagAfterSnoc(ms[0].name == CLINIT && !flag, ms[1..], m);
    }
  }

  /** Length of the run of `<clinit>` methods at the end of `ms`. */
  function TrailingClinits(ms: seq<Method>): nat {
    if |ms| == 0 || ms[|ms| - 1].name != CLINIT then 0 else 1 + TrailingClinits(ms[..|ms| - 1])
  }

  /** Because `visitMethod` reassigns the flag instead of setting it once,
      it ends up true exactly when the class ends in an odd-length run of
      `<clinit>` methods. */
  lemma {:induction false} FlagIsTrailingParity(ms: seq<Method>)
    ensures FlagAfter(false, ms) <==> TrailingClinits(ms) % 2 == 1
    decreases |ms|
  {
    if |ms| > 0 {
      var init := ms[..|ms| - 1];
      assert init + [ms[|ms| - 1]] == ms;
      FlagAfterSnoc(false, init, ms[|ms| - 1]);
      FlagIsTrailingParity(init);
    }
  }

  lemma {:induction false} TrailingAtMostCount(ms: seq<Method>)
    ensures TrailingClinits(ms) <= CountNamed(ms, CLINIT)
    decreases |ms|
  {
    if |ms| > 0 {
      var init := ms[..|ms| - 1];
      assert init + [ms[|ms| - 1]] == ms;
      CountNamedAppend(init, [ms[|ms| - 1]], CLINIT);
      assert CountNamed([ms[|ms| - 1]], CLINIT) == (if ms[|ms| - 1].name == CLINIT then 1 else 0);
      TrailingAtMostCount(init);
    }
  }

  /** In a class with at most one `<clinit>`, the flag is set at the end
      exactly when that `<clinit>` is the last method visited. */
  lemma FlagWithOneClinit(ms: seq<Method>)
    requires CountNamed(ms, CLINIT) <= 1
    ensures FlagAfter(false, ms) <==> |ms| > 0 && ms[|ms| - 1].name == CLINIT
  {
    FlagIsTrailingParity(ms);
    TrailingAtMostCount(ms);
  }

  lemma ClinitCount(c: ClassFile, key: Int32, cache: Cache)
    requires CountNamed(c.methods, CLINIT) <= 1
    ensures var added := (|c.methods| == 0 || c.methods[|c.methods| - 1].name != CLINIT) &&
                         SomeRecordable(c.fields);
      CountNamed(ModifyClass(c, key, cache).0.methods, CLINIT) ==
        CountNamed(c.methods, CLINIT) + (if added then 1 else 0)
  {
    var st1 := VisitFields(State(c.name, None, false, cache), c.fields, key).1;
    var v := VisitMethods(st1, c.methods, key);
    FlagWithOneClinit(c.methods);
    SameNamesSameCount(v.0, c.methods);
    CountNamedAppend(v.0, VisitEnd(v.1), CLINIT);
    if |VisitEnd(v.1)| == 1 {
      assert CountNamed(VisitEnd(v.1), CLINIT) == 1 by {
        assert VisitEnd(v.1)[1..] == [];
      }
    }
  }

  lemma {:induction false} SameNamesSameCount(a: seq<Method>, b: seq<Method>)
    requires |a| == |b| && forall i :: 0 <= i < |a| ==> a[i].name == b[i].name
    ensures CountNamed(a, CLINIT) == CountNamed(b, CLINIT)
    decreases |a|
  {
    if |a| > 0 {
      SameNamesSameCount(a[1..], b[1..]);
    }
  }

  /** A class without a static initialiser that has a recordable field gets
      exactly one, holding the stores. */
  lemma ClinitSynthesised(c: ClassFile, key: Int32, cache: Cache)
    requires CountNamed(c.methods, CLINIT) == 0
    requires SomeRecordable(c.fields)
    ensures CountNamed(ModifyClass(c, key, cache).0.methods, CLINIT) == 1
  {
    if |c.methods| > 0 {
      CountNamedAppend(c.methods[..|c.methods| - 1], [c.methods[|c.methods| - 1]], CLINIT);
      assert c.methods[..|c.methods| - 1] + [c.methods[|c.methods| - 1]] == c.methods;
    }
    ClinitCount(c, key, cache);
  }

  /** The flag quirk: a class whose only `<clinit>` is followed by another
      method, and that has a recordable field, comes out with two. */
  lemma DuplicateClinit(c: ClassFile, key: Int32, cache: Cache)
    requires CountNamed(c.methods, CLINIT) == 1
    requires |c.methods| > 0 && c.methods[|c.methods| - 1].name != CLINIT
    requires SomeRecordable(c.fields)
    ensures CountNamed(ModifyClass(c, key, cache).0.methods, CLINIT) == 2
  {
    ClinitCount(c, key, cache);
  }

  /** A body whose only `return` is its last instruction. */
  predicate WellTerminated(body: seq<Insn>) {
    |body| > 0 && body[|body| - 1] == Op(RETURN) &&
    forall i :: 0 <= i < |body| - 1 ==> body[i] != Op(RETURN)
  }

  /** The synthesised `<clinit>` is well formed only for a single entry:
      with more, the first `return` cuts off every later store. */
  lemma SynthBodyWellTerminated(owner: Name, entries: FieldMap)
    requires |entries| > 0
    ensures WellTerminated(SynthBody(owner, entries)) <==> |entries| == 1
  {
    var b := SynthBody(owner, entries);
    assert b[0..4] == SynthBlock(owner, entries[0]);
    assert b[3] == Op(RETURN);
    if |entries| == 1 {
      assert b == SynthBlock(owner, entries[0]);
    }
  }
}

=== FILE: const_visitor.dfy ===
/** `ModifyConstVisitor`: the method visitor of the first generation.  It
    replaces every string `ldc` with the encoded literal followed by a call
    to the decoder, and in `<clinit>` emits, before the original body, one
    decode-and-store triple per recorded constant field. */
module ConstVisitor {
  import opened Wrappers
  import opened Jvm
  import opened MuddyXor
  import opened MuddyDump

  /** One recorded constant field: its name and its encoded value. */
  datatype Entry = Entry(field: Name, encoded: JString)

  /** The visitor's `Map<String, String>` of constant fields.  Its iteration
      order is the order of this sequence. */
  type FieldMap = seq<Entry>

  datatype Rewritten = Rewritten(code: seq<Insn>, cache: Cache)

  /** What one instruction becomes under a cache that agrees with the key. */
  function Replacement(i: Insn, key: Int32): seq<Insn> {
    if IsStringLdc(i) then [Ldc(StrC(RawXor(i.cst.s, key))), DecoderCall] else [i]
  }

  /** The reference rewrite of a whole instruction sequence. */
  function Expected(code: seq<Insn>, key: Int32): seq<Insn> {
    if |code| == 0 then [] else Replacement(code[0], key) + Expected(code[1..], key)
  }

  /** An instruction with a string literal blanked out: what a rewrite
      site looks like whatever the memo map held. */
  function Blank(i: Insn): Insn {
    if IsStringLdc(i) then Ldc(StrC([])) else i
  }

  /** A sequence with every string literal blanked out. */
  function Erase(code: seq<Insn>): (r: seq<Insn>)
    ensures |r| == |code|
    ensures forall k :: 0 <= k < |code| ==> r[k] == Blank(code[k])
  {
    seq(|code|, k requires 0 <= k < |code| => Blank(code[k]))
  }

  lemma EraseAppend(a: seq<Insn>, b: seq<Insn>)
    ensures Erase(a + b) == Erase(a) + Erase(b)
  {
  }

  /** `visitLdcInsn(cst)`: a string constant is replaced by its encoding
      (through the memoised `Muddy.xor`) and a decoder call; any other
      constant is forwarded. */
  function VisitLdc(cst: Constant, key: Int32, cache: Cache): (r: Rewritten)
    ensures !cst.StrC? ==> r == Rewritten([Ldc(cst)], cache)
    ensures cst.StrC? ==> |r.code| == 2 && r.code[1] == DecoderCall && IsStringLdc(r.code[0])
    ensures Consistent(cache, key) ==>
      r.code == Replacement(Ldc(cst), key) && Consistent(r.cache, key)
  {
    match cst
    case StrC(s) =>
      var x := Xor(cache, s, key);
      Rewritten([Ldc(StrC(x.value)), DecoderCall], x.cache)
    case _ => Rewritten([Ldc(cst)], cache)
  }

  /** The instruction stream after the visitor: only `ldc` is intercepted,
      every other instruction is forwarded unchanged. */
  function VisitInsns(code: seq<Insn>, key: Int32, cache: Cache): (r: Rewritten)
    ensures Erase(r.code) == Erase(Expected(code, key))
    ensures Consistent(cache, key) ==>
      r.code == Expected(code, key) && Consistent(r.cache, key)
  {
    if |code| == 0 then Rewritten([], cache)
    else
      var head := if code[0].Ldc? then VisitLdc(code[0].cst, key, cache) else Rewritten([code[0]], cache);
      var tail := VisitInsns(code[1..], key, head.cache);
      EraseAppend(head.code, tail.code);
      EraseAppend(Replacement(code[0], key), Expected(code[1..], key));
      assert Erase(head.code) == Erase(Replacement(code[0], key));
      Rewritten(head.code + tail.code, tail.cache)
  }

  /** The decode-and-store triple for one recorded field. */
  function StoreBlock(owner: Name, e: Entry): seq<Insn> {
    [Ldc(StrC(e.encoded)), DecoderCall, FieldOp(PUTSTATIC, owner, e.field, STRING_DESC)]
  }

  function Prologue(owner: Name, entries: FieldMap): (r: seq<Insn>)
    ensures |r| == 3 * |entries|
    ensures forall k :: 0 <= k < |entries| ==> r[3 * k .. 3 * k + 3] == StoreBlock(owner, entries[k])
  {
    if |entries| == 0 then []
    else
      var rest := Prologue(owner, entries[1..]);
      var r := StoreBlock(owner, entries[0]) + rest;
      assert forall k :: 1 <= k < |entries| ==> r[3 * k .. 3 * k + 3] == rest[3 * (k - 1) .. 3 * (k - 1) + 3];
      r
  }

  /** `visitCode()`: what is emitted before the original body. */
  function VisitCode(owner: Name, methodName: Name, fieldMap: Option<FieldMap>): (r: seq<Insn>)
    ensures methodName != CLINIT || fieldMap.None? ==> r == []
    ensures methodName == CLINIT && fieldMap.Some? ==>
      |r| == 3 * |fieldMap.value| &&
      forall k :: 0 <= k < |fieldMap.value| ==> r[3 * k .. 3 * k + 3] == StoreBlock(owner, fieldMap.value[k])
  {
    if methodName == CLINIT && fieldMap.Some? then Prologue(owner, fieldMap.value) else []
  }

  /** A whole method body after `ModifyConstVisitor`. */
  function VisitMethodCode(owner: Name, methodName: Name, fieldMap: Option<FieldMap>,
                           key: Int32, cache: Cache, body: seq<Insn>): (r: Rewritten)
    ensures |VisitCode(owner, methodName, fieldMap)| <= |r.code|
    ensures r.code[..|VisitCode(owner, methodName, fieldMap)|] == VisitCode(owner, methodName, fieldMap)
    ensures Erase(r.code[|VisitCode(owner, methodName, fieldMap)|..]) == Erase(Expected(body, key))
    ensures Consistent(cache, key) ==>
      r.code == VisitCode(owner, methodName, fieldMap) + Expected(body, key) && Consistent(r.cache, key)
  {
    var rest := VisitInsns(body, key, cache);
    var r := VisitCode(owner, methodName, fieldMap) + rest.code;
    assert r[|VisitCode(owner, methodName, fieldMap)|..] == rest.code;
    Rewritten(r, rest.cache)
  }

  /** Undoes `Expected`: an encoded `ldc` followed by a decoder call folds
      back into the original literal. */
  function Restore(code: seq<Insn>, key: Int32): seq<Insn> {
    if |code| == 0 then []
    else if |code| >= 2 && IsStringLdc(code[0]) && code[1] == DecoderCall then
      [Ldc(StrC(RawXor(code[0].cst.s, key)))] + Restore(code[2..], key)
    else [code[0]] + Restore(code[1..], key)
  }

  /** The rewrite loses nothing: every instruction other than a string
      `ldc` survives in place, and every literal can be recovered from its
      encoding, so the original body is a function of the rewritten one. */
  lemma {:induction false} RestoreExpected(code: seq<Insn>, key: Int32)
    ensures Restore(Expected(code, key), key) == code
  {
    if |code| > 0 {
      var rest := Expected(code[1..], key);
      RestoreExpected(code[1..], key);
      if IsStringLdc(code[0]) {
        var e := [Ldc(StrC(RawXor(code[0].cst.s, key))), DecoderCall] + rest;
        assert Expected(code, key) == e;
        assert e[2..] == rest;
        RawXorInvolutive(code[0].cst.s, key);
        assert Ldc(StrC(code[0].cst.s)) == code[0];
      } else {
        var e := [code[0]] + rest;
        assert Expected(code, key) == e;
        assert e[1..] == rest;
      }
    }
  }

  /** The literals the rewritten body pushes are exactly the encodings of
      the original literals, in order: no original literal is emitted. */
  lemma {:induction false} ExpectedLiterals(code: seq<Insn>, key: Int32)
    ensures StringLiterals(Expected(code, key)) == EncodeAll(StringLiterals(code), key)
  {
    if |code| > 0 {
      ExpectedLiterals(code[1..], key);
      StringLiteralsAppend(Replacement(code[0], key), Expected(code[1..], key));
      if IsStringLdc(code[0]) {
        var r := Replacement(code[0], key);
        assert StringLiterals(r[1..]) == [];
        assert StringLiterals(r) == [RawXor(code[0].cst.s, key)];
        assert StringLiterals(code) == [code[0].cst.s] + StringLiterals(code[1..]);
      } else {
        assert StringLiterals(code) == StringLiterals(code[1..]);
        assert StringLiterals([code[0]]) == [];
      }
    }
  }

  function EncodeAll(lits: seq<JString>, key: Int32): (r: seq<JString>)
    ensures |r| == |lits|
    ensures forall k :: 0 <= k < |lits| ==> r[k] == RawXor(lits[k], key)
  {
    if |lits| == 0 then [] else [RawXor(lits[0], key)] + EncodeAll(lits[1..], key)
  }

  /** The generated decoder class is left as it is: none of its methods
      contains a rewrite site. */
  lemma {:induction false} NoLiteralsFixedPoint(code: seq<Insn>, key: Int32)
    requires StringLiterals(code) == []
    ensures Expected(code, key) == code
  {
    if |code| > 0 {
      assert !IsStringLdc(code[0]);
      assert StringLiterals(code[1..]) == [];
      NoLiteralsFixedPoint(code[1..], key);
    }
  }

  lemma DecoderClassUntouched(key: Int32, cache: Cache)
    requires Consistent(cache, key)
    ensures forall j :: 0 <= j < |Dump(key).methods| ==>
      VisitInsns(Dump(key).methods[j].body, key, cache).code == Dump(key).methods[j].body
  {
    DumpHasNoStringLiterals(key);
    forall j | 0 <= j < |Dump(key).methods|
      ensures VisitInsns(Dump(key).methods[j].body, key, cache).code == Dump(key).methods[j].body
    {
      NoLiteralsFixedPoint(Dump(key).methods[j].body, key);
    }
  }
}

=== FILE: jvm.dfy ===
/** The slice of the JVM class-file world the transforms touch, shaped after
    the ASM tree API: one constructor per instruction-node kind, the opcode
    kept as its number, descriptors kept as strings.  Strings of the running
    program are sequences of UTF-16 code units; names and descriptors, which
    the transforms only compare and copy, are plain Dafny strings. */
module Jvm {
  import opened Wrappers

  /** A Java `char`, one UTF-16 code unit. */
  type JChar = bv16
  /** A `java.lang.String` value. */
  type JString = seq<JChar>
  /** Internal names, member names and descriptors. */
  type Name = string
  type Byte = bv8
  type Bytes = seq<Byte>
  /** A Java `long`. */
  type Long = bv64
  /** A Java `int`. */
  type Int32 = k: int | -0x8000_0000 <= k < 0x8000_0000

  // Opcodes (chapter 6 of the JVM Specification), as org.objectweb.asm.Opcodes numbers them.
  const ICONST_0: int := 3
  const ICONST_1: int := 4
  const ICONST_2: int := 5
  const ICONST_3: int := 6
  const ICONST_4: int := 7
  const ICONST_5: int := 8
  const BIPUSH: int := 16
  const SIPUSH: int := 17
  const ILOAD: int := 21
  const ALOAD: int := 25
  const CALOAD: int := 52
  const ISTORE: int := 54
  const ASTORE: int := 58
  const LASTORE: int := 80
  const CASTORE: int := 85
  const POP: int := 87
  const DUP: int := 89
  const IXOR: int := 130
  const I2C: int := 146
  const IF_ICMPGE: int := 162
  const GOTO: int := 167
  const ARETURN: int := 176
  const RETURN: int := 177
  const GETSTATIC: int := 178
  const PUTSTATIC: int := 179
  const INVOKEVIRTUAL: int := 182
  const INVOKESPECIAL: int := 183
  const INVOKESTATIC: int := 184
  const INVOKEINTERFACE: int := 185
  const NEW: int := 187
  const NEWARRAY: int := 188
  const ARRAYLENGTH: int := 190
  const CHECKCAST: int := 192
  const IFNULL: int := 198
  /** The `atype` operand of `newarray` for `long[]`. */
  const T_LONG: int := 11

  // Access flags.
  const ACC_PUBLIC: int := 0x0001
  const ACC_PRIVATE: int := 0x0002
  const ACC_PROTECTED: int := 0x0004
  const ACC_STATIC: int := 0x0008
  const ACC_FINAL: int := 0x0010
  const ACC_SUPER: int := 0x0020

  /** Class-file major version of Java 7. */
  const V1_7: int := 51

  /** Name of the class or interface initialization method (section 2.9 of the JVM Specification). */
  const CLINIT: Name := "<clinit>"
  const INIT: Name := "<init>"
  const STRING_DESC: Name := "Ljava/lang/String;"
  const STRING_TO_STRING_DESC: Name := "(Ljava/lang/String;)Ljava/lang/String;"
  const VOID_DESC: Name := "()V"
  const OBJECT_CLASS: Name := "java/lang/Object"

  /** A constant that `ldc` can push (or a field's ConstantValue). */
  datatype Constant =
    | StrC(s: JString)
    | IntC(i: Int32)
    | LongC(l: Long)
    | FloatC(fbits: bv32)
    | DoubleC(dbits: bv64)
    | TypeC(desc: Name)

  /** One instruction node. */
  datatype Insn =
    | Op(opcode: int)                                     // InsnNode
    | IntOp(opcode: int, operand: int)                    // IntInsnNode
    | VarOp(opcode: int, slot: nat)                       // VarInsnNode
    | TypeOp(opcode: int, cls: Name)                      // TypeInsnNode
    | FieldOp(opcode: int, owner: Name, name: Name, desc: Name)
    | MethodOp(opcode: int, owner: Name, name: Name, desc: Name, itf: bool)
    | JumpOp(opcode: int, target: nat)
    | Label(id: nat)
    | Ldc(cst: Constant)
    | Iinc(slot: nat, incr: int)

  datatype Field = Field(access: int, name: Name, desc: Name, value: Option<Constant>)

  datatype Method = Method(access: int, name: Name, desc: Name, body: seq<Insn>)

  datatype ClassFile = ClassFile(
    version: int,
    access: int,
    name: Name,
    superName: Name,
    interfaces: seq<Name>,
    fields: seq<Field>,
    methods: seq<Method>)

  predicate IsStringLdc(i: Insn) {
    i.Ldc? && i.cst.StrC?
  }

  /** Concatenation of a sequence of instruction blocks. */
  function Flatten(blocks: seq<seq<Insn>>): (r: seq<Insn>)
    ensures |blocks| == 0 ==> r == []
  {
    if |blocks| == 0 then [] else blocks[0] + Flatten(blocks[1..])
  }

  lemma {:induction false} FlattenAppend(a: seq<seq<Insn>>, b: seq<seq<Insn>>)
    ensures Flatten(a + b) == Flatten(a) + Flatten(b)
  {
    if |a| == 0 {
      assert a + b == b;
    } else {
      assert (a + b)[1..] == a[1..] + b;
      FlattenAppend(a[1..], b);
    }
  }

  /** Every string literal pushed by `ldc` in `code`, in order. */
  function StringLiterals(code: seq<Insn>): seq<JString> {
    if |code| == 0 then []
    else (if IsStringLdc(code[0]) then [code[0].cst.s] else []) + StringLiterals(code[1..])
  }

  lemma {:induction false} StringLiteralsAppend(a: seq<Insn>, b: seq<Insn>)
    ensures StringLiterals(a + b) == StringLiterals(a) + StringLiterals(b)
  {
    if |a| == 0 {
      assert a + b == b;
    } else {
      var head := if IsStringLdc(a[0]) then [a[0].cst.s] else [];
      assert (a + b)[0] == a[0];
      assert (a + b)[1..] == a[1..] + b;
      assert StringLiterals(a + b) == head + StringLiterals(a[1..] + b);
      StringLiteralsAppend(a[1..], b);
      AppendAssoc(head, StringLiterals(a[1..]), StringLiterals(b));
    }
  }

  /** Number of methods in `ms` called `name`. */
  function CountNamed(ms: seq<Method>, name: Name): nat {
    if |ms| == 0 then 0 else (if ms[0].name == name then 1 else 0) + CountNamed(ms[1..], name)
  }

  lemma {:induction false} CountNamedAppend(a: seq<Method>, b: seq<Method>, name: Name)
    ensures CountNamed(a + b, name) == CountNamed(a, name) + CountNamed(b, name)
  {
    if |a| == 0 {
      assert a + b == b;
    } else {
      assert (a + b)[1..] == a[1..] + b;
      CountNamedAppend(a[1..], b, name);
    }
  }
}

=== FILE: machine.dfy ===
/** A small interpreter for the straight-line code the transforms emit: the
    operand stack, a heap of `long[]` and `ObfuscatedString` objects, the
    static fields, and the decoder class's `constMap`.  It gives the
    instruction sequences a meaning, so a rewritten `ldc` can be compared
    with what the original pushed. */
module Machine {
  import opened Wrappers
  import opened Jvm
  import opened MuddyXor
  import opened MuddyDump
  import opened ObfuscatedString
  import BytexPlugin
  import ConstVisitor
  import ClassVisitor

  /** A value on the operand stack or in a static field.  `Utf8V(b)` is the
      string `new String(b, UTF_8)` returns; decoding is not modelled, so it
      is kept as its bytes. */
  datatype Value =
    | IntV(i: int)
    | LongV(l: Long)
    | StrV(s: JString)
    | Utf8V(bytes: Bytes)
    | Ref(id: nat)

  datatype Object =
    | LongArray(elems: seq<Long>)
    | Uninitialized(cls: Name)
    | ObfuscatedObject(o: Obfuscated)

  datatype State = State(
    stack: seq<Value>,
    heap: map<nat, Object>,
    next: nat,
    statics: map<(Name, Name), Value>,
    cache: DecoderCache)

  /** What the interpreted code can call: the key generator's draws for
      `ObfuscatedString`, and the generated decoder class. */
  datatype Env = Env(prng: Prng, decoder: ClassFile)

  datatype Fault =
    | StackUnderflow
    | TypeMismatch
    | NegativeArraySize
    | IndexOutOfBounds
    | EmptyObfuscatedArray
    | NoDecoder
    | Unsupported(insn: Insn)

  datatype Outcome = Running(st: State) | Returned(st: State)

  const OBFUSCATED_INIT: Insn :=
    MethodOp(INVOKESPECIAL, BytexPlugin.OBFUSCATED_STRING_CLASS, INIT, BytexPlugin.LONG_ARRAY_CTOR_DESC, false)
  const OBFUSCATED_TO_STRING: Insn :=
    MethodOp(INVOKEVIRTUAL, BytexPlugin.OBFUSCATED_STRING_CLASS, BytexPlugin.TO_STRING, BytexPlugin.TO_STRING_DESC, false)

  /** The value `bipush` leaves on the stack: the operand's low byte,
      sign-extended. */
  function BipushValue(operand: int): (v: int)
    ensures -0x80 <= v < 0x80
    ensures v % 0x100 == operand % 0x100
  {
    (operand + 0x80) % 0x100 - 0x80
  }

  function Push(st: State, v: Value): State {
    st.(stack := st.stack + [v])
  }

  function Top(st: State): Value
    requires |st.stack| > 0
  {
    st.stack[|st.stack| - 1]
  }

  function Pop(st: State): State
    requires |st.stack| > 0
  {
    st.(stack := st.stack[..|st.stack| - 1])
  }

  function Allocate(st: State, obj: Object): State {
    st.(heap := st.heap[st.next := obj], next := st.next + 1)
  }

  /** `newarray T_LONG`: pops a length, pushes a new zero-filled array. */
  function NewLongArray(st: State): Result<State, Fault> {
    if |st.stack| == 0 then Failure(StackUnderflow)
    else match Top(st)
      case IntV(n) =>
        if n < 0 then Failure(NegativeArraySize)
        else Success(Push(Allocate(Pop(st), LongArray(seq(n, _ => 0))), Ref(st.next)))
      case _ => Failure(TypeMismatch)
  }

  /** `lastore`: pops value, index and array reference. */
  function LongArrayStore(st: State): Result<State, Fault> {
    if |st.stack| < 3 then Failure(StackUnderflow)
    else
      var n := |st.stack|;
      match (st.stack[n - 3], st.stack[n - 2], st.stack[n - 1])
      case (Ref(a), IntV(k), LongV(v)) =>
        if a !in st.heap || !st.heap[a].LongArray? then Failure(TypeMismatch)
        else if k < 0 || k >= |st.heap[a].elems| then Failure(IndexOutOfBounds)
        else Success(st.(stack := st.stack[..n - 3], heap := st.heap[a := LongArray(st.heap[a].elems[k := v])]))
      case _ => Failure(TypeMismatch)
  }

  /** `invokespecial ObfuscatedString.<init>([J)V`: pops the array and the
      uninitialized object and constructs it; the constructor throws on an
      empty array. */
  function ConstructObfuscated(st: State): Result<State, Fault> {
    if |st.stack| < 2 then Failure(StackUnderflow)
    else
      var n := |st.stack|;
      match (st.stack[n - 2], st.stack[n - 1])
      case (Ref(obj), Ref(arr)) =>
        if obj !in st.heap || st.heap[obj] != Uninitialized(BytexPlugin.OBFUSCATED_STRING_CLASS) then Failure(TypeMismatch)
        else if arr !in st.heap || !st.heap[arr].LongArray? then Failure(TypeMismatch)
        else (match New(st.heap[arr].elems)
          case Failure(_) => Failure(EmptyObfuscatedArray)
          case Success(o) => Success(st.(stack := st.stack[..n - 2], heap := st.heap[obj := ObfuscatedObject(o)])))
      case _ => Failure(TypeMismatch)
  }

  /** `invokevirtual ObfuscatedString.toString()`: decodes. */
  function ObfuscatedToString(env: Env, st: State): Result<State, Fault> {
    if |st.stack| == 0 then Failure(StackUnderflow)
    else match Top(st)
      case Ref(obj) =>
        if obj in st.heap && st.heap[obj].ObfuscatedObject? && |st.heap[obj].o.elems| >= 1 then
          Success(Push(Pop(st), Utf8V(Call(st.heap[obj].o, env.prng))))
        else Failure(TypeMismatch)
      case _ => Failure(TypeMismatch)
  }

  /** `invokestatic Muddy.xor(String)`: runs the decoder class's `xor`
      with the operand of its `sipush`. */
  function InvokeDecoder(env: Env, st: State): Result<State, Fault> {
    if |st.stack| == 0 then Failure(StackUnderflow)
    else match (Top(st), DecoderOperand(env.decoder))
      case (StrV(s), Some(operand)) =>
        var d := DecoderXor(st.cache, s, operand);
        Success(Push(Pop(st), StrV(d.value)).(cache := d.cache))
      case (StrV(_), None) => Failure(NoDecoder)
      case _ => Failure(TypeMismatch)
  }

  /** One instruction other than `return`.  Only the decoder call reads or
      writes the decoder cache. */
  function Step(env: Env, st: State, i: Insn): (r: Result<State, Fault>)
    ensures i != DecoderCall && r.Success? ==> r.value.cache == st.cache
  {
    match i
    case Op(op) =>
      if ICONST_0 <= op <= ICONST_5 then Success(Push(st, IntV(op - ICONST_0)))
      else if op == DUP then (if |st.stack| == 0 then Failure(StackUnderflow) else Success(Push(st, Top(st))))
      else if op == LASTORE then LongArrayStore(st)
      else Failure(Unsupported(i))
    case IntOp(op, v) =>
      if op == BIPUSH then Success(Push(st, IntV(BipushValue(v))))
      else if op == SIPUSH then Success(Push(st, IntV(SipushValue(v))))
      else if op == NEWARRAY && v == T_LONG then NewLongArray(st)
      else Failure(Unsupported(i))
    case Ldc(c) =>
      (match c
       case StrC(s) => Success(Push(st, StrV(s)))
       case LongC(l) => Success(Push(st, LongV(l)))
       case IntC(k) => Success(Push(st, IntV(k)))
       case _ => Failure(Unsupported(i)))
    case TypeOp(op, cls) =>
      if op == NEW then Success(Push(Allocate(st, Uninitialized(cls)), Ref(st.next)))
      else Failure(Unsupported(i))
    case FieldOp(op, owner, name, _) =>
      if op == PUTSTATIC then
        (if |st.stack| == 0 then Failure(StackUnderflow)
         else Success(Pop(st).(statics := st.statics[(owner, name) := Top(st)])))
      else Failure(Unsupported(i))
    case MethodOp(_, _, _, _, _) =>
      if i == DecoderCall then InvokeDecoder(env, st)
      else if i == OBFUSCATED_INIT then ConstructObfuscated(st)
      else if i == OBFUSCATED_TO_STRING then ObfuscatedToString(env, st)
      else Failure(Unsupported(i))
    case _ => Failure(Unsupported(i))
  }

  /** Runs straight-line code until its end or a `return`. */
  function Run(env: Env, st: State, code: seq<Insn>): Result<Outcome, Fault>
    decreases |code|
  {
    if |code| == 0 then Success(Running(st))
    else if code[0] == Op(RETURN) then Success(Returned(st))
    else match Step(env, st, code[0])
      case Failure(e) => Failure(e)
      case Success(next) => Run(env, next, code[1..])
  }

  /** Running `a + b` runs `a`, then `b` from where `a` left off. */
  lemma {:induction false} RunAppend(env: Env, st: State, a: seq<Insn>, b: seq<Insn>)
    ensures Run(env, st, a + b) ==
      match Run(env, st, a)
      case Success(Running(mid)) => Run(env, mid, b)
      case other => other
    decreases |a|
  {
    if |a| == 0 {
      assert a + b == b;
    } else {
      assert (a + b)[0] == a[0];
      assert (a + b)[1..] == a[1..] + b;
      if a[0] != Op(RETURN) {
        match Step(env, st, a[0])
        case Failure(_) =>
        case Success(next) => RunAppend(env, next, a[1..], b);
      }
    }
  }

  /** Running `a + b` when `a` runs to completion in `mid`. */
  lemma RunThen(env: Env, st: State, a: seq<Insn>, b: seq<Insn>, mid: State)
    requires Run(env, st, a) == Success(Running(mid))
    ensures Run(env, st, a + b) == Run(env, mid, b)
  {
    RunAppend(env, st, a, b);
  }

  lemma RunOne(env: Env, st: State, i: Insn, next: State)
    requires i != Op(RETURN) && Step(env, st, i) == Success(next)
    ensures Run(env, st, [i]) == Success(Running(next))
  {
    assert [i][1..] == [];
  }

  /** Running `[i] + rest` when `i` steps to `next`. */
  lemma RunCons(env: Env, st: State, i: Insn, rest: seq<Insn>, next: State)
    requires i != Op(RETURN) && Step(env, st, i) == Success(next)
    ensures Run(env, st, [i] + rest) == Run(env, next, rest)
  {
    assert ([i] + rest)[0] == i;
    assert ([i] + rest)[1..] == rest;
  }

  // ---------------------------------------------------------------------
  // First generation: `ldc` of the encoding, then `Muddy.xor`

  /** A decoder cache that agrees with the key, for a machine running a
      decoder class whose `xor` pushes that key, as `Dump(key)` does
      (`MuddyDump.DecoderRoundTrip`). */
  ghost predicate Decodes(env: Env, st: State, key: Int32) {
    DecoderOperand(env.decoder) == Some(key as int) && DecoderConsistent(st.cache, key)
  }

  /** Two states that differ at most in the decoder cache. */
  predicate SameButCache(a: State, b: State) {
    a.(cache := b.cache) == b
  }

  /** Two step or run results that agree up to the decoder cache, both
      caches agreeing with the key. */
  ghost predicate StepsAgree(r1: Result<State, Fault>, r2: Result<State, Fault>, env: Env, key: Int32) {
    (r1.Failure? && r2.Failure? && r1.error == r2.error) ||
    (r1.Success? && r2.Success? && SameButCache(r1.value, r2.value) &&
     Decodes(env, r1.value, key) && Decodes(env, r2.value, key))
  }

  ghost predicate RunsAgree(r1: Result<Outcome, Fault>, r2: Result<Outcome, Fault>, env: Env, key: Int32) {
    (r1.Failure? && r2.Failure? && r1.error == r2.error) ||
    (r1.Success? && r2.Success? && r1.value.Running? == r2.value.Running? &&
     SameButCache(r1.value.st, r2.value.st) &&
     Decodes(env, r1.value.st, key) && Decodes(env, r2.value.st, key))
  }

  /** The generated `xor`, on any argument, under a cache that agrees with
      the key, returns the argument's decoding and keeps the cache in
      agreement. */
  lemma DecoderXorDecodes(cache: DecoderCache, a: JString, key: Int32)
    requires DecoderConsistent(cache, key)
    ensures var d := DecoderXor(cache, a, key);
      d.value == RawXor(a, key) && DecoderConsistent(d.cache, key)
  {
    RawXorInvolutive(a, key);
    DecoderRoundTrip(cache, RawXor(a, key), key);
  }

  lemma PopPush(st: State, v: Value)
    ensures Pop(Push(st, v)) == st && Top(Push(st, v)) == v
  {
    assert (st.stack + [v])[..|st.stack|] == st.stack;
  }

  /** The replacement of `ldc s`, run under an agreeing cache, pushes `s`
      and leaves everything else but the cache as `ldc s` would. */
  lemma ReplacementPushes(env: Env, st: State, s: JString, key: Int32)
    requires Decodes(env, st, key)
    ensures var r := Run(env, st, ConstVisitor.Replacement(Ldc(StrC(s)), key));
      r.Success? && r.value.Running? &&
      SameButCache(r.value.st, Push(st, StrV(s))) && Decodes(env, r.value.st, key)
  {
    var pushed := Push(st, StrV(RawXor(s, key)));
    RunCons(env, st, Ldc(StrC(RawXor(s, key))), [DecoderCall], pushed);
    PopPush(st, StrV(RawXor(s, key)));
    DecoderXorDecodes(st.cache, RawXor(s, key), key);
    RawXorInvolutive(s, key);
    var d := DecoderXor(st.cache, RawXor(s, key), key);
    RunOne(env, pushed, DecoderCall, Push(st, StrV(s)).(cache := d.cache));
  }

  /** Every instruction behaves the same on two states that differ only in
      agreeing decoder caches. */
  lemma StepAgree(env: Env, st1: State, st2: State, i: Insn, key: Int32)
    requires Decodes(env, st1, key) && Decodes(env, st2, key) && SameButCache(st1, st2)
    ensures StepsAgree(Step(env, st1, i), Step(env, st2, i), env, key)
  {
    if i == DecoderCall {
      assert Step(env, st1, i) == InvokeDecoder(env, st1);
      assert Step(env, st2, i) == InvokeDecoder(env, st2);
      DecoderAgree(env, st1, st2, key);
    } else {
      CacheUntouched(env, st2, i, st1.cache);
      assert st2.(cache := st1.cache) == st1;
    }
  }

  lemma DecoderAgree(env: Env, st1: State, st2: State, key: Int32)
    requires Decodes(env, st1, key) && Decodes(env, st2, key) && SameButCache(st1, st2)
    ensures StepsAgree(InvokeDecoder(env, st1), InvokeDecoder(env, st2), env, key)
  {
    assert st1.stack == st2.stack;
    if |st1.stack| > 0 && Top(st1).StrV? {
      var s := Top(st1).s;
      DecoderXorDecodes(st1.cache, s, key);
      DecoderXorDecodes(st2.cache, s, key);
      DecoderResult(env, st1, key);
      DecoderResult(env, st2, key);
    }
  }

  /** What the decoder call leaves, for a string on top of the stack. */
  lemma DecoderResult(env: Env, st: State, key: Int32)
    requires DecoderOperand(env.decoder) == Some(key as int) && |st.stack| > 0 && Top(st).StrV?
    ensures var d := DecoderXor(st.cache, Top(st).s, key);
      InvokeDecoder(env, st) == Success(Pop(st).(stack := Pop(st).stack + [StrV(d.value)], cache := d.cache))
  {
  }

  function WithCache(r: Result<State, Fault>, c: DecoderCache): Result<State, Fault> {
    if r.Success? then Success(r.value.(cache := c)) else r
  }

  /** Only the decoder call reads or writes the decoder cache. */
  lemma CacheUntouched(env: Env, st: State, i: Insn, c: DecoderCache)
    requires i != DecoderCall
    ensures Step(env, st.(cache := c), i) == WithCache(Step(env, st, i), c)
  {
    match i
    case Op(op) =>
      if op == LASTORE {
        LongArrayStoreUntouched(env, st, c);
      }
    case IntOp(op, v) =>
      if op == NEWARRAY && v == T_LONG {
        NewLongArrayUntouched(env, st, c);
      }
    case MethodOp(_, _, _, _, _) =>
      if i == OBFUSCATED_INIT {
        ConstructObfuscatedUntouched(env, st, c);
      } else if i == OBFUSCATED_TO_STRING {
        ObfuscatedToStringUntouched(env, st, c);
      }
    case _ =>
  }

  lemma LongArrayStoreUntouched(env: Env, st: State, c: DecoderCache)
    ensures LongArrayStore(st.(cache := c)) == WithCache(LongArrayStore(st), c)
  {
  }

  lemma NewLongArrayUntouched(env: Env, st: State, c: DecoderCache)
    ensures NewLongArray(st.(cache := c)) == WithCache(NewLongArray(st), c)
  {
  }

  lemma ConstructObfuscatedUntouched(env: Env, st: State, c: DecoderCache)
    ensures ConstructObfuscated(st.(cache := c)) == WithCache(ConstructObfuscated(st), c)
  {
  }

  lemma ObfuscatedToStringUntouched(env: Env, st: State, c: DecoderCache)
    ensures ObfuscatedToString(env, st.(cache := c)) == WithCache(ObfuscatedToString(env, st), c)
  {
  }

  /** The first generation's rewrite of a method body preserves its
      meaning as far as this interpreter goes: running the rewritten code
      and the original from the same state ends alike (the same fault, or
      the same outcome and state up to the decoder cache).  A run stops at
      the first instruction `Step` does not support, in both bodies alike,
      so for most real bodies only the prefix before it is compared. */
  lemma {:induction false} ExpectedSimulates(env: Env, st1: State, st2: State, code: seq<Insn>, key: Int32)
    requires Decodes(env, st1, key) && Decodes(env, st2, key) && SameButCache(st1, st2)
    ensures RunsAgree(Run(env, st1, ConstVisitor.Expected(code, key)), Run(env, st2, code), env, key)
    decreases |code|
  {
    if |code| > 0 {
      var i := code[0];
      var rep := ConstVisitor.Replacement(i, key);
      var rest := ConstVisitor.Expected(code[1..], key);
      assert ConstVisitor.Expected(code, key) == rep + rest;
      RunAppend(env, st1, rep, rest);
      if i == Op(RETURN) {
        assert rep[0] == Op(RETURN);
      } else {
        HeadAgree(env, st1, st2, i, key);
        var s2 := Step(env, st2, i);
        if s2.Success? {
          ExpectedSimulates(env, Run(env, st1, rep).value.st, s2.value, code[1..], key);
        }
      }
    }
  }

  /** One instruction other than `return`: its replacement, run on one
      state, and the instruction itself, stepped on the other, agree. */
  lemma HeadAgree(env: Env, st1: State, st2: State, i: Insn, key: Int32)
    requires Decodes(env, st1, key) && Decodes(env, st2, key) && SameButCache(st1, st2)
    requires i != Op(RETURN)
    ensures var r1 := Run(env, st1, ConstVisitor.Replacement(i, key));
      var s2 := Step(env, st2, i);
      (r1.Failure? && s2.Failure? && r1.error == s2.error) ||
      (r1.Success? && r1.value.Running? && s2.Success? && SameButCache(r1.value.st, s2.value) &&
       Decodes(env, r1.value.st, key) && Decodes(env, s2.value, key))
  {
    if IsStringLdc(i) {
      ReplacementPushes(env, st1, i.cst.s, key);
      assert Step(env, st2, i) == Success(Push(st2, StrV(i.cst.s)));
    } else {
      StepAgree(env, st1, st2, i, key);
      assert ConstVisitor.Replacement(i, key) == [i];
      match Step(env, st1, i)
      case Failure(_) =>
      case Success(next1) => RunOne(env, st1, i, next1);
    }
  }

  /** The static fields after storing each entry's decoding in turn. */
  function Initialised(statics: map<(Name, Name), Value>, owner: Name, entries: ConstVisitor.FieldMap, key: Int32)
    : map<(Name, Name), Value>
    decreases |entries|
  {
    if |entries| == 0 then statics
    else Initialised(statics[(owner, entries[0].field) := StrV(RawXor(entries[0].encoded, key))], owner, entries[1..], key)
  }

  /** A static no entry names keeps its value. */
  lemma {:induction false} InitialisedUntouched(statics: map<(Name, Name), Value>, owner: Name,
                                                entries: ConstVisitor.FieldMap, key: Int32, slot: (Name, Name))
    requires forall j :: 0 <= j < |entries| ==> slot != (owner, entries[j].field)
    ensures slot in Initialised(statics, owner, entries, key) <==> slot in statics
    ensures slot in statics ==> Initialised(statics, owner, entries, key)[slot] == statics[slot]
    decreases |entries|
  {
    if |entries| > 0 {
      InitialisedUntouched(statics[(owner, entries[0].field) := StrV(RawXor(entries[0].encoded, key))], owner, entries[1..], key, slot);
    }
  }

  /** With distinct field names, each field ends up holding its entry's
      decoding. */
  lemma {:induction false} InitialisedLookup(statics: map<(Name, Name), Value>, owner: Name,
                                             entries: ConstVisitor.FieldMap, key: Int32, k: nat)
    requires k < |entries|
    requires forall j :: 0 <= j < |entries| && j != k ==> entries[j].field != entries[k].field
    ensures var r := Initialised(statics, owner, entries, key);
      (owner, entries[k].field) in r && r[(owner, entries[k].field)] == StrV(RawXor(entries[k].encoded, key))
    decreases |entries|
  {
    var updated := statics[(owner, entries[0].field) := StrV(RawXor(entries[0].encoded, key))];
    if k == 0 {
      InitialisedUntouched(updated, owner, entries[1..], key, (owner, entries[0].field));
    } else {
      InitialisedLookup(updated, owner, entries[1..], key, k - 1);
    }
  }

  /** One store block leaves the stack as it was and the field holding
      the entry's decoding. */
  lemma StoreBlockRuns(env: Env, st: State, owner: Name, e: ConstVisitor.Entry, key: Int32)
    requires Decodes(env, st, key)
    ensures var r := Run(env, st, ConstVisitor.StoreBlock(owner, e));
      r.Success? && r.value.Running? && Decodes(env, r.value.st, key) &&
      SameButCache(r.value.st, st.(statics := st.statics[(owner, e.field) := StrV(RawXor(e.encoded, key))]))
  {
    var pair := ConstVisitor.Replacement(Ldc(StrC(RawXor(e.encoded, key))), key);
    RawXorInvolutive(e.encoded, key);
    assert pair == [Ldc(StrC(e.encoded)), DecoderCall];
    var put := FieldOp(PUTSTATIC, owner, e.field, STRING_DESC);
    assert ConstVisitor.StoreBlock(owner, e) == pair + [put];
    ReplacementPushes(env, st, RawXor(e.encoded, key), key);
    RunAppend(env, st, pair, [put]);
    var mid := Run(env, st, pair).value.st;
    PopPush(st, StrV(RawXor(e.encoded, key)));
    assert Top(mid) == StrV(RawXor(e.encoded, key));
    assert Pop(mid) == st.(cache := mid.cache);
    RunOne(env, mid, put, Pop(mid).(statics := st.statics[(owner, e.field) := StrV(RawXor(e.encoded, key))]));
  }

  /** The prologue `visitCode` puts in front of an existing `<clinit>`
      stores every entry's decoding, in map order, and leaves the stack as
      it was. */
  lemma {:induction false} PrologueInitialises(env: Env, st: State, owner: Name, entries: ConstVisitor.FieldMap, key: Int32)
    requires Decodes(env, st, key)
    ensures var r := Run(env, st, ConstVisitor.Prologue(owner, entries));
      r.Success? && r.value.Running? && Decodes(env, r.value.st, key) &&
      SameButCache(r.value.st, st.(statics := Initialised(st.statics, owner, entries, key)))
    decreases |entries|
  {
    if |entries| > 0 {
      var block := ConstVisitor.StoreBlock(owner, entries[0]);
      var rest := ConstVisitor.Prologue(owner, entries[1..]);
      assert ConstVisitor.Prologue(owner, entries) == block + rest;
      RunAppend(env, st, block, rest);
      StoreBlockRuns(env, st, owner, entries[0], key);
      var mid := Run(env, st, block).value.st;
      PrologueInitialises(env, mid, owner, entries[1..], key);
    }
  }

  /** The `<clinit>` that `visitEnd` synthesises returns after its first
      store block: only the first entry's field is initialised, and every
      other static keeps its old value. */
  lemma SynthesizedInitStopsAfterFirst(env: Env, st: State, owner: Name, entries: ConstVisitor.FieldMap, key: Int32)
    requires Decodes(env, st, key) && |entries| > 0
    ensures var r := Run(env, st, ClassVisitor.SynthBody(owner, entries));
      r.Success? && r.value.Returned? && Decodes(env, r.value.st, key) &&
      SameButCache(r.value.st, st.(statics := st.statics[(owner, entries[0].field) := StrV(RawXor(entries[0].encoded, key))]))
  {
    var block := ConstVisitor.StoreBlock(owner, entries[0]);
    var rest := ClassVisitor.SynthBody(owner, entries[1..]);
    assert ClassVisitor.SynthBody(owner, entries) == block + ([Op(RETURN)] + rest);
    RunAppend(env, st, block, [Op(RETURN)] + rest);
    StoreBlockRuns(env, st, owner, entries[0], key);
  }

  // ---------------------------------------------------------------------
  // Second generation: `new ObfuscatedString(new long[] {...}).toString()`

  lemma SizePushStep(env: Env, st: State, n: int)
    requires 1 <= n <= BytexPlugin.MAX_ARRAY
    ensures Step(env, st, BytexPlugin.SizePush(n)) == Success(Push(st, IntV(n)))
  {
    if 6 <= n <= 127 {
      assert BipushValue(n) == n;
    } else if 128 <= n {
      SipushValueInRange(n);
    }
  }

  lemma IndexPushStep(env: Env, st: State, i: int)
    requires 0 <= i < BytexPlugin.MAX_ARRAY
    ensures Step(env, st, BytexPlugin.IndexPush(i)) == Success(Push(st, IntV(i)))
  {
    if 6 <= i <= 127 {
      assert BipushValue(i) == i;
    } else if 128 <= i {
      SipushValueInRange(i);
    }
  }

  /** `index; ldc value; lastore` on a stack ending in the array reference
      twice stores the value and leaves the reference once. */
  lemma StoreOneRuns(env: Env, st: State, arr: seq<Long>, i: nat, base: seq<Value>, a: nat)
    requires i < |arr| <= BytexPlugin.MAX_ARRAY
    requires st.stack == base + [Ref(a), Ref(a)]
    requires a in st.heap && st.heap[a].LongArray? && |st.heap[a].elems| == |arr|
    ensures Run(env, st, [BytexPlugin.IndexPush(i), Ldc(LongC(arr[i])), Op(LASTORE)]) ==
      Success(Running(st.(stack := base + [Ref(a)], heap := st.heap[a := LongArray(st.heap[a].elems[i := arr[i]])])))
  {
    var s1 := Push(st, IntV(i));
    var s2 := Push(s1, LongV(arr[i]));
    IndexPushStep(env, st, i);
    var s3 := st.(stack := base + [Ref(a)], heap := st.heap[a := LongArray(st.heap[a].elems[i := arr[i]])]);
    assert s2.stack[..|s2.stack| - 3] == base + [Ref(a)];
    assert Step(env, s2, Op(LASTORE)) == Success(s3);
    RunOne(env, s2, Op(LASTORE), s3);
    RunCons(env, s1, Ldc(LongC(arr[i])), [Op(LASTORE)], s2);
    RunCons(env, st, BytexPlugin.IndexPush(i), [Ldc(LongC(arr[i])), Op(LASTORE)], s1);
  }

  /** The element stores fill the array with `arr`. */
  lemma {:induction false} StoreElementsRun(env: Env, st: State, arr: seq<Long>, i: nat, base: seq<Value>, a: nat)
    requires i < |arr| <= BytexPlugin.MAX_ARRAY
    requires st.stack == base + [Ref(a), Ref(a)]
    requires a in st.heap && st.heap[a].LongArray? && |st.heap[a].elems| == |arr|
    requires forall j :: 0 <= j < i ==> st.heap[a].elems[j] == arr[j]
    ensures Run(env, st, BytexPlugin.StoreElements(arr, i)) ==
      Success(Running(st.(stack := base + [Ref(a)], heap := st.heap[a := LongArray(arr)])))
    decreases |arr| - i
  {
    var one := [BytexPlugin.IndexPush(i), Ldc(LongC(arr[i])), Op(LASTORE)];
    var tail := if i != |arr| - 1 then [Op(DUP)] else [];
    var rest := BytexPlugin.StoreElements(arr, i + 1);
    assert BytexPlugin.StoreElements(arr, i) == one + (tail + rest);
    var elems := st.heap[a].elems[i := arr[i]];
    var mid := st.(stack := base + [Ref(a)], heap := st.heap[a := LongArray(elems)]);
    StoreOneRuns(env, st, arr, i, base, a);
    RunThen(env, st, one, tail + rest, mid);
    if i == |arr| - 1 {
      assert elems == arr;
      assert tail + rest == [];
    } else {
      var dup := mid.(stack := base + [Ref(a), Ref(a)]);
      assert tail + rest == [Op(DUP)] + rest;
      DupRuns(env, mid, rest, base, a);
      StoreElementsRun(env, dup, arr, i + 1, base, a);
      assert dup.heap[a := LongArray(arr)] == st.heap[a := LongArray(arr)];
    }
  }

  /** `dup` of the array reference. */
  lemma DupRuns(env: Env, st: State, rest: seq<Insn>, base: seq<Value>, a: nat)
    requires st.stack == base + [Ref(a)]
    ensures Run(env, st, [Op(DUP)] + rest) == Run(env, st.(stack := base + [Ref(a), Ref(a)]), rest)
  {
    assert Top(st) == Ref(a);
    assert st.stack + [Ref(a)] == base + [Ref(a), Ref(a)];
    RunCons(env, st, Op(DUP), rest, st.(stack := base + [Ref(a), Ref(a)]));
  }

  function EmitHead(n: int): seq<Insn> {
    [TypeOp(NEW, BytexPlugin.OBFUSCATED_STRING_CLASS), Op(DUP), BytexPlugin.SizePush(n), IntOp(NEWARRAY, T_LONG), Op(DUP)]
  }

  /** The state after `new ObfuscatedString; dup; <size>; newarray long;
      dup`: the uninitialized object and a zero-filled array of `n`
      elements, each twice on top of the stack. */
  function Allocated(st: State, n: nat): State {
    st.(stack := st.stack + [Ref(st.next), Ref(st.next), Ref(st.next + 1), Ref(st.next + 1)],
        heap := st.heap[st.next := Uninitialized(BytexPlugin.OBFUSCATED_STRING_CLASS)][st.next + 1 := LongArray(seq(n, _ => 0))],
        next := st.next + 2)
  }

  lemma EmitHeadRuns(env: Env, st: State, n: int)
    requires 1 <= n <= BytexPlugin.MAX_ARRAY
    ensures Run(env, st, EmitHead(n)) == Success(Running(Allocated(st, n)))
  {
    var o := st.next;
    var s1 := Push(Allocate(st, Uninitialized(BytexPlugin.OBFUSCATED_STRING_CLASS)), Ref(o));
    var s2 := Push(s1, Ref(o));
    var s3 := Push(s2, IntV(n));
    var s4 := Push(Allocate(s2, LongArray(seq(n, _ => 0))), Ref(o + 1));
    var s5 := Push(s4, Ref(o + 1));
    SizePushStep(env, s2, n);
    PopPush(s2, IntV(n));
    assert Step(env, s3, IntOp(NEWARRAY, T_LONG)) == Success(s4);
    RunOne(env, s4, Op(DUP), s5);
    RunCons(env, s3, IntOp(NEWARRAY, T_LONG), [Op(DUP)], s4);
    RunCons(env, s2, BytexPlugin.SizePush(n), [IntOp(NEWARRAY, T_LONG), Op(DUP)], s3);
    RunCons(env, s1, Op(DUP), [BytexPlugin.SizePush(n), IntOp(NEWARRAY, T_LONG), Op(DUP)], s2);
    RunCons(env, st, TypeOp(NEW, BytexPlugin.OBFUSCATED_STRING_CLASS), [Op(DUP), BytexPlugin.SizePush(n), IntOp(NEWARRAY, T_LONG), Op(DUP)], s1);
    assert s5.stack == st.stack + [Ref(o), Ref(o), Ref(o + 1), Ref(o + 1)];
  }

  /** The state after `new ObfuscatedString; dup; <size>; newarray long;
      dup` and the element stores: the uninitialized object twice and the
      filled array once on top of the stack. */
  function Filled(st: State, arr: seq<Long>): State {
    st.(stack := st.stack + [Ref(st.next), Ref(st.next), Ref(st.next + 1)],
        heap := st.heap[st.next := Uninitialized(BytexPlugin.OBFUSCATED_STRING_CLASS)][st.next + 1 := LongArray(arr)],
        next := st.next + 2)
  }

  /** The state after the whole emitted sequence: the decoded string on top
      of the stack, the constructed object and its array on the heap. */
  function Emitted(st: State, arr: seq<Long>, prng: Prng): State
    requires |arr| >= 1
  {
    st.(stack := st.stack + [Utf8V(Call(Obfuscated(arr), prng))],
        heap := st.heap[st.next := ObfuscatedObject(Obfuscated(arr))][st.next + 1 := LongArray(arr)],
        next := st.next + 2)
  }

  lemma EmitBodyRuns(env: Env, st: State, arr: seq<Long>)
    requires 0 < |arr| <= BytexPlugin.MAX_ARRAY
    ensures Run(env, st, EmitHead(|arr|) + BytexPlugin.StoreElements(arr, 0)) == Success(Running(Filled(st, arr)))
  {
    EmitHeadRuns(env, st, |arr|);
    RunThen(env, st, EmitHead(|arr|), BytexPlugin.StoreElements(arr, 0), Allocated(st, |arr|));
    StoresFill(env, st, arr);
  }

  /** The element stores turn `Allocated` into `Filled`. */
  lemma StoresFill(env: Env, st: State, arr: seq<Long>)
    requires 0 < |arr| <= BytexPlugin.MAX_ARRAY
    ensures Run(env, Allocated(st, |arr|), BytexPlugin.StoreElements(arr, 0)) == Success(Running(Filled(st, arr)))
  {
    var o := st.next;
    var s5 := Allocated(st, |arr|);
    var base := st.stack + [Ref(o), Ref(o)];
    assert s5.stack == base + [Ref(o + 1), Ref(o + 1)];
    StoreElementsRun(env, s5, arr, 0, base, o + 1);
    assert base + [Ref(o + 1)] == st.stack + [Ref(o), Ref(o), Ref(o + 1)];
    assert s5.heap[o + 1 := LongArray(arr)] ==
      st.heap[o := Uninitialized(BytexPlugin.OBFUSCATED_STRING_CLASS)][o + 1 := LongArray(arr)];
  }

  /** `invokespecial <init>([J)V; invokevirtual toString()`. */
  lemma EmitTailRuns(env: Env, st: State, arr: seq<Long>)
    requires |arr| > 0
    ensures Run(env, Filled(st, arr), [OBFUSCATED_INIT, OBFUSCATED_TO_STRING]) == Success(Running(Emitted(st, arr, env.prng)))
  {
    var o := st.next;
    var f := Filled(st, arr);
    var s1 := f.(stack := st.stack + [Ref(o)], heap := f.heap[o := ObfuscatedObject(Obfuscated(arr))]);
    assert f.stack[..|f.stack| - 2] == st.stack + [Ref(o)];
    assert Step(env, f, OBFUSCATED_INIT) == ConstructObfuscated(f);
    assert Step(env, f, OBFUSCATED_INIT) == Success(s1);
    var s2 := s1.(stack := st.stack + [Utf8V(Call(Obfuscated(arr), env.prng))]);
    assert Pop(s1).stack == st.stack;
    assert Step(env, s1, OBFUSCATED_TO_STRING) == ObfuscatedToString(env, s1);
    assert Step(env, s1, OBFUSCATED_TO_STRING) == Success(s2);
    RunOne(env, s1, OBFUSCATED_TO_STRING, s2);
    RunCons(env, f, OBFUSCATED_INIT, [OBFUSCATED_TO_STRING], s1);
    Overwrite(st.heap, o, o + 1, Uninitialized(BytexPlugin.OBFUSCATED_STRING_CLASS), LongArray(arr), ObfuscatedObject(Obfuscated(arr)));
  }

  lemma Overwrite(h: map<nat, Object>, o: nat, a: nat, x: Object, y: Object, z: Object)
    requires o != a
    ensures h[o := x][a := y][o := z] == h[o := z][a := y]
  {
  }

  /** The sequence `deobfuscate` emits for an array pushes the string
      `ObfuscatedString` decodes from that array, on top of the stack it
      found; it allocates two objects and touches no static field and no
      decoder cache. */
  lemma EmitRuns(env: Env, st: State, arr: seq<Long>)
    requires 0 < |arr| <= BytexPlugin.MAX_ARRAY
    ensures var r := Run(env, st, BytexPlugin.Emit(arr));
      r.Success? && r.value.Running? && r.value.st == Emitted(st, arr, env.prng)
  {
    var body := EmitHead(|arr|) + BytexPlugin.StoreElements(arr, 0);
    var tail := [OBFUSCATED_INIT, OBFUSCATED_TO_STRING];
    assert BytexPlugin.Emit(arr) == body + tail;
    EmitBodyRuns(env, st, arr);
    RunThen(env, st, body, tail, Filled(st, arr));
    EmitTailRuns(env, st, arr);
  }

  /** The second generation's replacement of `ldc s` pushes the string
      whose UTF-8 bytes are those of `s`, whatever seed `key()` drew: the
      generated code round-trips through the runtime class. */
  lemma DeobfuscatePushesEncoding(env: Env, st: State, s: JString, seed: Long)
    requires BytexPlugin.Encodable(s)
    ensures var r := Run(env, st, BytexPlugin.Deobfuscate(Array(s, seed, env.prng)));
      r.Success? && r.value.Running? &&
      r.value.st.stack == st.stack + [Utf8V(Utf8.Encode(s))] &&
      r.value.st.statics == st.statics && r.value.st.cache == st.cache
  {
    BytexPlugin.ArrayFits(s, seed, env.prng);
    var arr := Array(s, seed, env.prng).value;
    assert BytexPlugin.Deobfuscate(Array(s, seed, env.prng)) == BytexPlugin.Emit(arr);
    EmitRuns(env, st, arr);
    RoundTrip(s, seed, env.prng);
  }

  /** Each site of the bytex `ldc` rewrite against the instruction it
      replaced: an encodable string's site pushes that string's UTF-8
      bytes where the `ldc` pushed the string, and leaves the statics and
      the decoder cache alone; every other site is the instruction itself. */
  lemma SiteSimulates(env: Env, st: State, i: Insn, seeds: BytexPlugin.Seeds, n: nat)
    ensures var site := BytexPlugin.Site(i, BytexPlugin.Generated(seeds, env.prng), n);
      if IsStringLdc(i) && BytexPlugin.Encodable(i.cst.s) then
        Step(env, st, i) == Success(Push(st, StrV(i.cst.s))) &&
        var r := Run(env, st, site);
        r.Success? && r.value.Running? &&
        r.value.st.stack == st.stack + [Utf8V(Utf8.Encode(i.cst.s))] &&
        r.value.st.statics == st.statics && r.value.st.cache == st.cache
      else site == [i]
  {
    BytexPlugin.SiteKeepsUnencodable(i, seeds, env.prng, n);
    if IsStringLdc(i) && BytexPlugin.Encodable(i.cst.s) {
      BytexPlugin.ArrayFits(i.cst.s, seeds(n), env.prng);
      assert BytexPlugin.Site(i, BytexPlugin.Generated(seeds, env.prng), n)
        == BytexPlugin.Deobfuscate(Array(i.cst.s, seeds(n), env.prng));
      DeobfuscatePushesEncoding(env, st, i.cst.s, seeds(n));
    }
  }
}

=== FILE: muddy_dump.dfy ===
/** `MuddyDump.dump(key)`: the decoder class generated for the first
    generation, and the run-time behaviour of its `xor(String)` method. */
module MuddyDump {
  import opened Wrappers
  import opened Jvm
  import opened MuddyXor

  /** Internal name of the generated decoder class.  The constant's own
      definition is not part of this model; what the rest of the model relies
      on is that it is fixed and that its simple name is `Muddy`. */
  const MUDDY_CLASS: Name := "com/panda912/muddy/Muddy"
  const CONST_MAP: Name := "constMap"
  const MAP_DESC: Name := "Ljava/util/Map;"
  const XOR: Name := "xor"

  /** `invokestatic Muddy.xor(String)String`, the call every rewrite site gets. */
  const DecoderCall: Insn := MethodOp(INVOKESTATIC, MUDDY_CLASS, XOR, STRING_TO_STRING_DESC, false)

  function ConstructorMethod(): Method {
    Method(ACC_PRIVATE, INIT, VOID_DESC, [
      VarOp(ALOAD, 0),
      MethodOp(INVOKESPECIAL, OBJECT_CLASS, INIT, VOID_DESC, false),
      Op(RETURN)])
  }

  /** The body of `xor(String)`: cache lookup, XOR loop with the key pushed
      by `sipush`, cache store. */
  function XorMethod(key: Int32): Method {
    Method(ACC_PUBLIC + ACC_STATIC, XOR, STRING_TO_STRING_DESC,
      CacheLookup() + XorLoop(key) + CacheStore())
  }

  /** `String r = (String) constMap.get(arg); if (r != null) return r;` */
  function CacheLookup(): seq<Insn> {
    [ FieldOp(GETSTATIC, MUDDY_CLASS, CONST_MAP, MAP_DESC),
      VarOp(ALOAD, 0),
      MethodOp(INVOKEINTERFACE, "java/util/Map", "get", "(Ljava/lang/Object;)Ljava/lang/Object;", true),
      TypeOp(CHECKCAST, "java/lang/String"),
      VarOp(ASTORE, 1),
      VarOp(ALOAD, 1),
      JumpOp(IFNULL, 0),
      VarOp(ALOAD, 1),
      Op(ARETURN),
      Label(0)]
  }

  /** `char[] ch = arg.toCharArray(); for (int i = 0; i < ch.length; i++) ch[i] = (char) (ch[i] ^ key);` */
  function XorLoop(key: Int32): seq<Insn> {
    LoopHead() + LoopStep(key)
  }

  function LoopHead(): seq<Insn> {
    [ VarOp(ALOAD, 0),
      MethodOp(INVOKEVIRTUAL, "java/lang/String", "toCharArray", "()[C", false),
      VarOp(ASTORE, 2),
      Op(ICONST_0),
      VarOp(ISTORE, 3),
      Label(1),
      VarOp(ILOAD, 3),
      VarOp(ALOAD, 2),
      Op(ARRAYLENGTH),
      JumpOp(IF_ICMPGE, 2)]
  }

  function LoopStep(key: Int32): seq<Insn> {
    [ VarOp(ALOAD, 2),
      VarOp(ILOAD, 3),
      VarOp(ALOAD, 2),
      VarOp(ILOAD, 3),
      Op(CALOAD),
      IntOp(SIPUSH, key),
      Op(IXOR),
      Op(I2C),
      Op(CASTORE),
      Iinc(3, 1),
      JumpOp(GOTO, 1),
      Label(2)]
  }

  /** `r = new String(ch); constMap.put(arg, r); return r;` */
  function CacheStore(): seq<Insn> {
    [ TypeOp(NEW, "java/lang/String"),
      Op(DUP),
      VarOp(ALOAD, 2),
      MethodOp(INVOKESPECIAL, "java/lang/String", INIT, "([C)V", false),
      VarOp(ASTORE, 1),
      FieldOp(GETSTATIC, MUDDY_CLASS, CONST_MAP, MAP_DESC),
      VarOp(ALOAD, 0),
      VarOp(ALOAD, 1),
      MethodOp(INVOKEINTERFACE, "java/util/Map", "put", "(Ljava/lang/Object;Ljava/lang/Object;)Ljava/lang/Object;", true),
      Op(POP),
      VarOp(ALOAD, 1),
      Op(ARETURN)]
  }

  function StaticInitMethod(): Method {
    Method(ACC_STATIC, CLINIT, VOID_DESC, [
      TypeOp(NEW, "java/util/HashMap"),
      Op(DUP),
      MethodOp(INVOKESPECIAL, "java/util/HashMap", INIT, VOID_DESC, false),
      FieldOp(PUTSTATIC, MUDDY_CLASS, CONST_MAP, MAP_DESC),
      Op(RETURN)])
  }

  /** The generated class. */
  function Dump(key: Int32): ClassFile {
    ClassFile(V1_7, ACC_PUBLIC + ACC_SUPER, MUDDY_CLASS, OBJECT_CLASS, [],
      [Field(ACC_PRIVATE + ACC_FINAL + ACC_STATIC, CONST_MAP, MAP_DESC, None)],
      [ConstructorMethod(), XorMethod(key), StaticInitMethod()])
  }

  /** The first `sipush` operand of the class's `xor` method, if any. */
  function DecoderOperand(c: ClassFile): (r: Option<int>)
    ensures r.Some? ==> exists m, i :: m in c.methods && m.name == XOR && i in m.body && i == IntOp(SIPUSH, r.value)
  {
    FirstXorOperand(c.methods)
  }

  function FirstXorOperand(ms: seq<Method>): (r: Option<int>)
    ensures r.Some? ==> exists m, i :: m in ms && m.name == XOR && i in m.body && i == IntOp(SIPUSH, r.value)
  {
    if |ms| == 0 then None
    else if ms[0].name == XOR && FirstSipush(ms[0].body).Some? then
      FirstSipush(ms[0].body)
    else FirstXorOperand(ms[1..])
  }

  function FirstSipush(code: seq<Insn>): (r: Option<int>)
    ensures r.Some? ==> IntOp(SIPUSH, r.value) in code
    ensures r.None? ==> forall i :: i in code ==> !(i.IntOp? && i.opcode == SIPUSH)
  {
    if |code| == 0 then None
    else if code[0].IntOp? && code[0].opcode == SIPUSH then Some(code[0].operand)
    else FirstSipush(code[1..])
  }

  /** The generated class has the advertised shape: Java 7, public, a
      subclass of Object with no interfaces, one private static final map
      field, a private constructor, the decoder and a static initializer. */
  lemma DumpShape(key: Int32)
    ensures var c := Dump(key);
      && c.version == V1_7 && c.access == ACC_PUBLIC + ACC_SUPER
      && c.name == MUDDY_CLASS && c.superName == OBJECT_CLASS && c.interfaces == []
      && |c.fields| == 1 && c.fields[0].name == CONST_MAP && c.fields[0].desc == MAP_DESC
      && c.fields[0].access == ACC_PRIVATE + ACC_STATIC + ACC_FINAL
      && CountNamed(c.methods, CLINIT) == 1
      && DecoderOperand(c) == Some(key as int)
  {
    DumpMethods(key);
    OneStaticInit(key);
    DumpOperand(key);
  }

  lemma DumpMethods(key: Int32)
    ensures Dump(key).methods == [ConstructorMethod(), XorMethod(key), StaticInitMethod()]
  {
  }

  lemma OneStaticInit(key: Int32)
    ensures CountNamed([ConstructorMethod(), XorMethod(key), StaticInitMethod()], CLINIT) == 1
  {
    var ms := [ConstructorMethod(), XorMethod(key), StaticInitMethod()];
    assert ms[1..][1..][1..] == [];
    assert CountNamed(ms[1..][1..], CLINIT) == 1;
  }

  lemma DumpOperand(key: Int32)
    ensures FirstXorOperand([ConstructorMethod(), XorMethod(key), StaticInitMethod()]) == Some(key as int)
  {
    var ms := [ConstructorMethod(), XorMethod(key), StaticInitMethod()];
    XorMethodOperand(key);
    assert ms[0].name != XOR;
    assert ms[1..][0] == XorMethod(key);
  }

  lemma XorMethodOperand(key: Int32)
    ensures FirstSipush(XorMethod(key).body) == Some(key as int)
  {
    LoopStepOperand(key);
    LoopHeadNoSipush();
    CacheLookupNoSipush();
    FirstSipushAppend(LoopHead(), LoopStep(key));
    FirstSipushAppend(CacheLookup(), XorLoop(key));
    FirstSipushPrefix(CacheLookup() + XorLoop(key), CacheStore());
  }

  lemma LoopStepOperand(key: Int32)
    ensures FirstSipush(LoopStep(key)) == Some(key as int)
  {
    FirstSipushAt(LoopStep(key), 5);
  }

  lemma LoopHeadNoSipush()
    ensures FirstSipush(LoopHead()) == None
  {
    NoIntOps(LoopHead());
  }

  lemma CacheLookupNoSipush()
    ensures FirstSipush(CacheLookup()) == None
  {
    NoIntOps(CacheLookup());
  }

  /** Code without any `IntInsnNode` has no `sipush`. */
  lemma NoIntOps(code: seq<Insn>)
    requires forall i :: i in code ==> !i.IntOp?
    ensures FirstSipush(code) == None
  {
    assert forall k :: 0 <= k < |code| ==> code[k] in code;
  }

  lemma {:induction false} FirstSipushAppend(a: seq<Insn>, b: seq<Insn>)
    requires FirstSipush(a).None?
    ensures FirstSipush(a + b) == FirstSipush(b)
  {
    if |a| > 0 {
      assert !(a[0].IntOp? && a[0].opcode == SIPUSH);
      assert FirstSipush(a[1..]).None?;
      assert (a + b)[0] == a[0];
      assert (a + b)[1..] == a[1..] + b;
      FirstSipushAppend(a[1..], b);
    } else {
      assert a + b == b;
    }
  }

  lemma {:induction false} FirstSipushPrefix(a: seq<Insn>, b: seq<Insn>)
    requires FirstSipush(a).Some?
    ensures FirstSipush(a + b) == FirstSipush(a)
  {
    assert (a + b)[0] == a[0];
    if !(a[0].IntOp? && a[0].opcode == SIPUSH) {
      assert (a + b)[1..] == a[1..] + b;
      FirstSipushPrefix(a[1..], b);
    }
  }

  lemma {:induction false} FirstSipushAt(code: seq<Insn>, k: nat)
    requires k < |code| && code[k].IntOp? && code[k].opcode == SIPUSH
    requires forall j :: 0 <= j < k ==> !(code[j].IntOp? && code[j].opcode == SIPUSH)
    ensures FirstSipush(code) == Some(code[k].operand)
  {
    if k > 0 {
      FirstSipushAt(code[1..], k - 1);
    }
  }

  /** Nothing in the generated class pushes a string literal, so nothing in
      it is a rewrite site. */
  lemma DumpHasNoStringLiterals(key: Int32)
    ensures forall j :: 0 <= j < |Dump(key).methods| ==> StringLiterals(Dump(key).methods[j].body) == []
  {
    var ms := Dump(key).methods;
    assert ms == [ConstructorMethod(), XorMethod(key), StaticInitMethod()];
    forall j | 0 <= j < |ms|
      ensures StringLiterals(ms[j].body) == []
    {
      if j == 0 {
        ConstructorNoLiterals();
      } else if j == 1 {
        XorMethodNoLiterals(key);
      } else {
        StaticInitNoLiterals();
      }
    }
  }

  lemma XorMethodNoLiterals(key: Int32)
    ensures StringLiterals(XorMethod(key).body) == []
  {
    CacheLookupNoLiterals();
    LoopHeadNoLiterals();
    LoopStepNoLiterals(key);
    CacheStoreNoLiterals();
    StringLiteralsAppend(LoopHead(), LoopStep(key));
    StringLiteralsAppend(CacheLookup(), XorLoop(key));
    StringLiteralsAppend(CacheLookup() + XorLoop(key), CacheStore());
  }

  lemma ConstructorNoLiterals()
    ensures StringLiterals(ConstructorMethod().body) == []
  {
    NoStringLdcNoLiterals(ConstructorMethod().body);
  }

  lemma StaticInitNoLiterals()
    ensures StringLiterals(StaticInitMethod().body) == []
  {
    NoStringLdcNoLiterals(StaticInitMethod().body);
  }

  lemma CacheLookupNoLiterals()
    ensures StringLiterals(CacheLookup()) == []
  {
    NoStringLdcNoLiterals(CacheLookup());
  }

  lemma LoopHeadNoLiterals()
    ensures StringLiterals(LoopHead()) == []
  {
    NoStringLdcNoLiterals(LoopHead());
  }

  lemma LoopStepNoLiterals(key: Int32)
    ensures StringLiterals(LoopStep(key)) == []
  {
    NoStringLdcNoLiterals(LoopStep(key));
  }

  lemma CacheStoreNoLiterals()
    ensures StringLiterals(CacheStore()) == []
  {
    NoStringLdcNoLiterals(CacheStore());
  }

  lemma {:induction false} NoStringLdcNoLiterals(code: seq<Insn>)
    requires forall k :: 0 <= k < |code| ==> !code[k].Ldc?
    ensures StringLiterals(code) == []
  {
    if |code| > 0 {
      NoStringLdcNoLiterals(code[1..]);
    }
  }

  /** The value `sipush` leaves on the stack: the class writer keeps the
      operand's low 16 bits and the JVM sign-extends them. */
  function SipushValue(operand: int): (v: int)
    ensures -0x8000 <= v < 0x8000
    ensures v % 0x1_0000 == operand % 0x1_0000
  {
    (operand + 0x8000) % 0x1_0000 - 0x8000
  }

  /** For operands in the range of a short, `sipush` pushes the operand itself. */
  lemma SipushValueInRange(operand: int)
    requires -0x8000 <= operand < 0x8000
    ensures SipushValue(operand) == operand
  {
  }

  /** The decoder's own `constMap`, keyed by the encoded argument. */
  type DecoderCache = map<JString, JString>

  datatype Decoded = Decoded(value: JString, cache: DecoderCache)

  /** The static initializer leaves `constMap` a new, empty HashMap. */
  const InitialCache: DecoderCache := map[]

  /** One run of the generated `xor(String)` whose `sipush` carries
      `operand`: a hit returns the cached value, a miss XORs every char with
      the pushed value, narrows with `i2c`, stores and returns the result. */
  function DecoderXor(cache: DecoderCache, arg: JString, operand: int): (r: Decoded)
    ensures arg in cache ==> r == Decoded(cache[arg], cache)
    ensures arg !in cache ==> r.value == XorMask(arg, Low16(SipushValue(operand))) && r.cache == cache[arg := r.value]
    ensures |r.value| == |arg| || arg in cache
  {
    if arg in cache then Decoded(cache[arg], cache)
    else
      var result := XorMask(arg, Low16(SipushValue(operand)));
      Decoded(result, cache[arg := result])
  }

  /** Every entry of the decoder cache is the decoding of its key. */
  ghost predicate DecoderConsistent(cache: DecoderCache, key: Int32) {
    forall a :: a in cache ==> cache[a] == RawXor(a, key)
  }

  /** The pushed key XORs the same 16 bits as the build-time key. */
  lemma SipushMask(key: Int32)
    ensures Low16(SipushValue(key)) == Low16(key)
  {
  }

  /** The central round trip of the first generation: the generated
      decoder, given the build-time encoding of `s` under the same key,
      returns `s`, and its cache stays consistent. */
  lemma DecoderRoundTrip(cache: DecoderCache, s: JString, key: Int32)
    requires DecoderConsistent(cache, key)
    ensures DecoderOperand(Dump(key)) == Some(key as int)
    ensures var r := DecoderXor(cache, RawXor(s, key), key);
      r.value == s && DecoderConsistent(r.cache, key)
  {
    DumpShape(key);
    SipushMask(key);
    RawXorInvolutive(s, key);
    var e := RawXor(s, key);
    var r := DecoderXor(cache, e, key);
    if e !in cache {
      forall a | a in r.cache
        ensures r.cache[a] == RawXor(a, key)
      {
        if a == e {
          XorMaskInvolutive(s, Low16(key));
          assert r.cache[a] == s;
        }
      }
    }
  }

  lemma InitialCacheConsistent(key: Int32)
    ensures DecoderConsistent(InitialCache, key)
  {
  }
}

=== FILE: muddy_xor.dfy ===
/** The build-time shift codec `Muddy.xor(String, int)` of the first
    generation: every UTF-16 code unit is XORed with the key and the result
    is memoised in a process-wide map keyed by the plaintext. */
module MuddyXor {
  import opened Jvm

  /** The low 16 bits of an int (its residue modulo 2^16), as two's
      complement keeps them. */
  function Low16(v: int): bv16 {
    (v % 0x1_0000) as bv16
  }

  function XorUnit(c: JChar, mask: bv16): JChar {
    c ^ mask
  }

  /** XOR of every code unit with a 16-bit mask. */
  function XorMask(s: JString, mask: bv16): (r: JString)
    ensures |r| == |s|
    ensures forall i :: 0 <= i < |s| ==> r[i] == XorUnit(s[i], mask)
  {
    if |s| == 0 then []
    else [XorUnit(s[0], mask)] + XorMask(s[1..], mask)
  }

  /** The XOR loop of `Muddy.xor`, without the cache.  `(char) (c ^ key)`
      widens the char to int, XORs it with the whole 32-bit key and narrows
      back, keeping bits 0..15: the char's bits against the key's low 16. */
  function RawXor(s: JString, key: Int32): JString {
    XorMask(s, Low16(key))
  }

  lemma {:induction false} XorMaskInvolutive(s: JString, mask: bv16)
    ensures XorMask(XorMask(s, mask), mask) == s
  {
    var t := XorMask(XorMask(s, mask), mask);
    forall i | 0 <= i < |s|
      ensures t[i] == s[i]
    {
      XorTwice(s[i], mask);
    }
  }

  /** Applying the codec twice with one key gives back the input. */
  lemma RawXorInvolutive(s: JString, key: Int32)
    ensures RawXor(RawXor(s, key), key) == s
  {
    XorMaskInvolutive(s, Low16(key));
  }

  lemma XorTwice(c: JChar, m: bv16)
    ensures XorUnit(XorUnit(c, m), m) == c
  {
  }

  /** Only the low 16 bits of the key reach the output: on a non-empty
      string two keys give the same result exactly when their low 16 bits
      agree. */
  lemma RawXorDependsOnLow16(s: JString, k1: Int32, k2: Int32)
    requires |s| > 0
    ensures RawXor(s, k1) == RawXor(s, k2) <==> Low16(k1) == Low16(k2)
  {
    XorMaskDeterminesMask(s, Low16(k1), Low16(k2));
  }

  lemma XorMaskDeterminesMask(s: JString, m1: bv16, m2: bv16)
    requires |s| > 0
    ensures XorMask(s, m1) == XorMask(s, m2) <==> m1 == m2
  {
    var r1, r2 := XorMask(s, m1), XorMask(s, m2);
    if m1 == m2 {
    } else {
      XorDistinct(s[0], m1, m2);
    }
  }

  lemma XorDistinct(c: JChar, a: bv16, b: bv16)
    requires a != b
    ensures XorUnit(c, a) != XorUnit(c, b)
  {
  }

  /** The memo map `constMap`: plaintext to encoded text. */
  type Cache = map<JString, JString>

  /** Every cached entry is the codec's result under `key`. */
  ghost predicate Consistent(cache: Cache, key: Int32) {
    forall p :: p in cache ==> cache[p] == RawXor(p, key)
  }

  datatype Memo = Memo(value: JString, cache: Cache)

  /** `Muddy.xor(plainText, key)` together with its effect on the memo map. */
  function Xor(cache: Cache, plainText: JString, key: Int32): (r: Memo)
    // a hit returns the stored value and leaves the map alone
    ensures plainText in cache ==> r.value == cache[plainText] && r.cache == cache
    // a miss computes the codec and stores the fresh result under the plaintext
    ensures plainText !in cache ==> r.value == RawXor(plainText, key) && r.cache == cache[plainText := r.value]
    // while every call uses one key, memoisation is invisible
    ensures Consistent(cache, key) ==> r.value == RawXor(plainText, key) && Consistent(r.cache, key)
  {
    if plainText in cache then Memo(cache[plainText], cache)
    else
      var result := RawXor(plainText, key);
      Memo(result, cache[plainText := result])
  }

  /** The map is keyed by plaintext only: once a string was encoded under
      one key, a later call with a key that differs in its low 16 bits still
      returns the old encoding, which is not the new key's. */
  lemma StaleAfterKeyChange(cache: Cache, s: JString, k1: Int32, k2: Int32)
    requires |s| > 0
    requires Low16(k1) != Low16(k2)
    requires Consistent(cache, k1)
    ensures var first := Xor(cache, s, k1);
            var second := Xor(first.cache, s, k2);
            second.value == RawXor(s, k1) && second.value != RawXor(s, k2)
  {
    RawXorDependsOnLow16(s, k1, k2);
  }
}

=== FILE: obfuscated_string.dfy ===
/** `ObfuscatedString`, the runtime of the array-splitting generation: a
    string is UTF-8 encoded, packed little-endian into longs and XOR-ed with
    a pseudo-random stream whose seed is stored in element 0. */
module ObfuscatedString {
  import opened Wrappers
  import opened Jvm
  import Utf8

  /** `prng(seed, i)` is the `i`-th `nextLong()` of `new Random(seed)`. */
  type Prng = (Long, nat) -> Long

  datatype Error = IllegalArgument | ArrayIndexOutOfBounds

  function Zeros(n: nat): (r: Bytes)
    ensures |r| == n && forall k :: 0 <= k < n ==> r[k] == 0
  {
    if n == 0 then [] else [0] + Zeros(n - 1)
  }

  function Min(a: int, b: int): int { if a <= b then a else b }

  // Single 64-bit operations, each behind its own name so that proofs about
  // sequences of bytes never have to look inside them.

  /** `b & 0xFF` widened to a long. */
  function Widen(b: Byte): Long { b as Long }
  /** `(value << 8) | low`. */
  function Push(low: Long, value: Long): Long { low | (value << 8) }
  /** `(byte) value`. */
  function LowByte(value: Long): Byte { (value & 0xFF) as Byte }
  /** `value >> 8`. */
  function Shr8(value: Long): Long { value >> 8 }
  function XorL(a: Long, b: Long): Long { a ^ b }
  function Low(value: Long, mask: Long): Long { value & mask }
  /** `value` has no bit outside `mask`. */
  predicate Fits(value: Long, mask: Long) { value & mask == value }
  function WidenMask(mask: Long): Long { (mask << 8) | 0xFF }

  lemma WidenFits(b: Byte)
    ensures Fits(Widen(b), 0xFF)
  {
  }

  lemma PushFits(low: Long, value: Long, mask: Long)
    requires Fits(low, 0xFF) && Fits(value, mask)
    ensures Fits(Push(low, value), WidenMask(mask))
  {
  }

  lemma PushSplit(b: Byte, value: Long)
    requires Fits(value, 0xFF_FFFF_FFFF_FFFF)
    ensures LowByte(Push(Widen(b), value)) == b && Shr8(Push(Widen(b), value)) == value
  {
  }

  lemma FitsTrans(value: Long, mask: Long, wider: Long)
    requires Fits(value, mask) && Fits(mask, wider)
    ensures Fits(value, wider)
  {
  }

  lemma LowStep(value: Long, mask: Long)
    ensures Push(Widen(LowByte(value)), Low(Shr8(value), mask)) == Low(value, WidenMask(mask))
  {
  }

  lemma LowNone(value: Long)
    ensures Low(value, 0) == 0
  {
  }

  lemma LowAll(value: Long)
    ensures Low(value, 0xFFFF_FFFF_FFFF_FFFF) == value
  {
  }

  lemma ZeroFits()
    ensures Fits(0, 0)
  {
  }

  lemma LowByteZero()
    ensures LowByte(0) == 0 && Shr8(0) == 0
  {
  }

  lemma XorLTwice(a: Long, b: Long)
    ensures XorL(XorL(a, b), b) == a
  {
  }

  /** The low `n` bytes of a long set, the others clear. */
  function Mask(n: nat): Long
    requires n <= 8
  {
    match n
    case 0 => 0
    case 1 => 0xFF
    case 2 => 0xFFFF
    case 3 => 0xFF_FFFF
    case 4 => 0xFFFF_FFFF
    case 5 => 0xFF_FFFF_FFFF
    case 6 => 0xFFFF_FFFF_FFFF
    case 7 => 0xFF_FFFF_FFFF_FFFF
    case _ => 0xFFFF_FFFF_FFFF_FFFF
  }

  lemma MaskStep(n: nat)
    requires 1 <= n <= 8
    ensures Mask(n) == WidenMask(Mask(n - 1))
  {
    match n
    case 1 => case 2 => case 3 => case 4 => case 5 => case 6 => case 7 => case 8 =>
  }

  lemma MaskBelowEight(n: nat)
    requires n <= 7
    ensures Fits(Mask(n), 0xFF_FFFF_FFFF_FFFF)
  {
    match n
    case 0 => case 1 => case 2 => case 3 => case 4 => case 5 => case 6 => case 7 =>
  }

  /** At most eight bytes read little-endian: the first byte is the lowest,
      and the bytes beyond the last one read are zero. */
  function LittleEndian(bs: Bytes): (v: Long)
    requires |bs| <= 8
  {
    if |bs| == 0 then 0 else Push(Widen(bs[0]), LittleEndian(bs[1..]))
  }

  lemma {:induction false} LittleEndianFits(bs: Bytes)
    requires |bs| <= 8
    ensures Fits(LittleEndian(bs), Mask(|bs|))
  {
    if |bs| == 0 {
      ZeroFits();
    } else {
      LittleEndianFits(bs[1..]);
      WidenFits(bs[0]);
      PushFits(Widen(bs[0]), LittleEndian(bs[1..]), Mask(|bs| - 1));
      MaskStep(|bs|);
    }
  }

  /** The private `decode(bytes, off)`: the bytes from `off` up to
      `min(bytes.length, off + 8)`, little-endian, high bytes zero. */
  function Pack(bytes: Bytes, off: nat): Long {
    var end := Min(|bytes|, off + 8);
    if end <= off then 0 else LittleEndian(bytes[off..end])
  }

  /** The high bytes `decode` did not fill are zero. */
  lemma PackHighBytesZero(bytes: Bytes, off: nat)
    requires off < |bytes|
    ensures Fits(Pack(bytes, off), Mask(Min(|bytes|, off + 8) - off))
  {
    LittleEndianFits(bytes[off..Min(|bytes|, off + 8)]);
  }

  /** The low `n` bytes of `value`, lowest first. */
  function Unpack(value: Long, n: nat): (r: Bytes)
    requires n <= 8
    ensures |r| == n
  {
    if n == 0 then [] else [LowByte(value)] + Unpack(Shr8(value), n - 1)
  }

  /** The private `encode(value, bytes, off)`: overwrites the bytes from
      `off` up to `min(bytes.length, off + 8)` with the low bytes of
      `value` and leaves the rest of the array alone. */
  function EncodeAt(value: Long, bytes: Bytes, off: nat): (r: Bytes)
    ensures |r| == |bytes|
    ensures forall k :: 0 <= k < |bytes| && (k < off || off + 8 <= k) ==> r[k] == bytes[k]
    ensures off + 8 <= |bytes| ==> r[off..off + 8] == Unpack(value, 8)
  {
    var end := Min(|bytes|, off + 8);
    if end <= off then bytes
    else
      var r := bytes[..off] + Unpack(value, end - off) + bytes[end..];
      assert forall k :: 0 <= k < |bytes| && (k < off || off + 8 <= k) ==> r[k] == bytes[k];
      r
  }

  /** The Java loop of `decode`, which reads from the highest byte down. */
  method PackLoop(bytes: Bytes, off: nat) returns (value: Long)
    ensures value == Pack(bytes, off)
  {
    var end := Min(|bytes|, off + 8);
    value := 0;
    var i := end;
    while i > off
      invariant off <= end ==> off <= i <= end
      invariant off < end ==> value == LittleEndian(bytes[i..end])
      invariant end <= off ==> value == 0
      decreases i
    {
      i := i - 1;
      assert bytes[i..end][1..] == bytes[i + 1..end];
      value := Push(Widen(bytes[i]), value);
    }
  }

  /** The Java loop of `encode`, which writes from the lowest byte up. */
  method EncodeLoop(value: Long, bytes: Bytes, off: nat) returns (r: Bytes)
    ensures r == EncodeAt(value, bytes, off)
  {
    var end := Min(|bytes|, off + 8);
    r := bytes;
    if off < end {
      var full := Unpack(value, end - off);
      var v := value;
      var i := off;
      while i < end
        invariant off <= i <= end && |r| == |bytes|
        invariant forall k :: 0 <= k < |r| && (k < off || i <= k) ==> r[k] == bytes[k]
        invariant forall k :: off <= k < i ==> r[k] == full[k - off]
        invariant full[i - off..] == Unpack(v, end - i)
      {
        EncodeStep(full[i - off..], v, end - i);
        r := r[i := LowByte(v)];
        v := Shr8(v);
        i := i + 1;
      }
      EncodeDone(bytes, r, full, off, end);
      assert EncodeAt(value, bytes, off) == bytes[..off] + full + bytes[end..];
    }
  }

  /** One iteration of the `encode` loop writes the next unpacked byte. */
  lemma EncodeStep(suffix: Bytes, v: Long, n: nat)
    requires 1 <= n <= 8 && suffix == Unpack(v, n)
    ensures suffix[0] == LowByte(v) && suffix[1..] == Unpack(Shr8(v), n - 1)
  {
    UnpackSplit(v, n);
  }

  /** After the `encode` loop the array is the old one with the window
      replaced. */
  lemma EncodeDone(bytes: Bytes, r: Bytes, full: Bytes, off: nat, end: nat)
    requires off <= end <= |bytes| == |r| && |full| == end - off
    requires forall k :: 0 <= k < |r| && (k < off || end <= k) ==> r[k] == bytes[k]
    requires forall k :: off <= k < end ==> r[k] == full[k - off]
    ensures r == bytes[..off] + full + bytes[end..]
  {
    var expected := bytes[..off] + full + bytes[end..];
    assert forall k :: 0 <= k < |r| ==> r[k] == expected[k];
  }

  lemma UnpackSplit(value: Long, n: nat)
    requires 1 <= n <= 8
    ensures Unpack(value, n) == [LowByte(value)] + Unpack(Shr8(value), n - 1)
  {
  }

  lemma {:induction false} UnpackZero(n: nat)
    requires n <= 8
    ensures Unpack(0, n) == Zeros(n)
  {
    if n > 0 {
      LowByteZero();
      UnpackZero(n - 1);
      assert Unpack(0, n) == [0] + Zeros(n - 1);
    }
  }

  /** Unpacking a packed block gives back its bytes, followed by the zero
      high bytes when fewer than `n` were packed. */
  lemma {:induction false} UnpackLittleEndian(bs: Bytes, n: nat)
    requires |bs| <= n <= 8
    ensures Unpack(LittleEndian(bs), n) == bs + Zeros(n - |bs|)
  {
    if |bs| == 0 {
      UnpackZero(n);
    } else {
      var rest := LittleEndian(bs[1..]);
      LittleEndianFits(bs[1..]);
      MaskBelowEight(|bs| - 1);
      FitsTrans(rest, Mask(|bs| - 1), 0xFF_FFFF_FFFF_FFFF);
      PushSplit(bs[0], rest);
      UnpackStep(LittleEndian(bs), bs[0], rest, n);
      UnpackLittleEndian(bs[1..], n - 1);
      ZerosCons(bs, n);
    }
  }

  lemma UnpackStep(value: Long, low: Byte, high: Long, n: nat)
    requires 1 <= n <= 8 && LowByte(value) == low && Shr8(value) == high
    ensures Unpack(value, n) == [low] + Unpack(high, n - 1)
  {
  }

  lemma ZerosCons(bs: Bytes, n: nat)
    requires 1 <= |bs| <= n
    ensures bs + Zeros(n - |bs|) == [bs[0]] + (bs[1..] + Zeros(n - 1 - |bs[1..]|))
  {
  }

  /** Packing the low `n` unpacked bytes gives back the low `n` bytes. */
  lemma {:induction false} LittleEndianUnpack(value: Long, n: nat)
    requires n <= 8
    ensures LittleEndian(Unpack(value, n)) == Low(value, Mask(n))
  {
    if n == 0 {
      LowNone(value);
    } else {
      var r := Unpack(value, n);
      var rest := Unpack(Shr8(value), n - 1);
      UnpackSplit(value, n);
      assert r[0] == LowByte(value) && r[1..] == rest;
      assert LittleEndian(r) == Push(Widen(LowByte(value)), LittleEndian(rest));
      LittleEndianUnpack(Shr8(value), n - 1);
      LowStep(value, Mask(n - 1));
      MaskStep(n);
    }
  }

  /** `decode` and `encode` are inverses: writing a packed block back over
      the array leaves it as it was. */
  lemma EncodePackIdentity(bytes: Bytes, off: nat)
    ensures EncodeAt(Pack(bytes, off), bytes, off) == bytes
  {
    var end := Min(|bytes|, off + 8);
    if off < end {
      var block := bytes[off..end];
      UnpackWindow(block);
      EncodeAtWindow(Pack(bytes, off), bytes, off);
      Rejoin(bytes, off, end);
    }
  }

  lemma UnpackWindow(block: Bytes)
    requires |block| <= 8
    ensures Unpack(LittleEndian(block), |block|) == block
  {
    UnpackLittleEndian(block, |block|);
    assert block + Zeros(0) == block;
  }

  /** `encode` replaces the window and keeps the rest. */
  lemma EncodeAtWindow(x: Long, bytes: Bytes, off: nat)
    requires off < |bytes|
    ensures EncodeAt(x, bytes, off) ==
      bytes[..off] + Unpack(x, Min(|bytes|, off + 8) - off) + bytes[Min(|bytes|, off + 8)..]
  {
  }

  lemma Rejoin(bytes: Bytes, off: nat, end: nat)
    requires off <= end <= |bytes|
    ensures bytes[..off] + bytes[off..end] + bytes[end..] == bytes
  {
  }

  /** ... and the other way round, for a full block. */
  lemma PackEncodeIdentity(value: Long, bytes: Bytes, off: nat)
    requires off + 8 <= |bytes|
    ensures Pack(EncodeAt(value, bytes, off), off) == value
  {
    LittleEndianUnpack(value, 8);
    LowAll(value);
  }

  /** The obfuscated elements after the seed: block `j` onwards of the
      encoded bytes, each packed and XOR-ed with the `j`-th draw. */
  function Blocks(bytes: Bytes, seed: Long, prng: Prng, j: nat): (r: seq<Long>)
    ensures |r| == (|bytes| + 7) / 8
    decreases |bytes|
  {
    if |bytes| == 0 then []
    else
      var n := Min(|bytes|, 8);
      [XorL(LittleEndian(bytes[..n]), prng(seed, j))] + Blocks(bytes[n..], seed, prng, j + 1)
  }

  lemma PackDrop(bytes: Bytes, off: nat)
    requires 8 <= |bytes| && 8 <= off
    ensures Pack(bytes, off) == Pack(bytes[8..], off - 8)
  {
    var end := Min(|bytes|, off + 8);
    var tail := bytes[8..];
    assert Min(|tail|, off - 8 + 8) == end - 8;
    if off < end {
      forall k | 0 <= k < end - off
        ensures tail[off - 8..end - 8][k] == bytes[off..end][k]
      {
        assert tail[off - 8 + k] == bytes[off + k];
      }
      assert tail[off - 8..end - 8] == bytes[off..end];
    }
  }

  /** Element `k` of the blocks is the `k`-th eight-byte window of the
      encoding XOR-ed with draw `j + k`, as the Java loop computes it. */
  lemma {:induction false} BlocksAt(bytes: Bytes, seed: Long, prng: Prng, j: nat, k: nat)
    requires 8 * k < |bytes|
    ensures k < |Blocks(bytes, seed, prng, j)|
    ensures Blocks(bytes, seed, prng, j)[k] == XorL(Pack(bytes, 8 * k), prng(seed, j + k))
    decreases |bytes|
  {
    BlocksCons(bytes, seed, prng, j);
    if k > 0 {
      BlocksAt(bytes[8..], seed, prng, j + 1, k - 1);
      PackDrop(bytes, 8 * k);
      assert 8 * k - 8 == 8 * (k - 1);
    }
  }

  /** The first block is the first eight-byte window, packed. */
  lemma BlocksCons(bytes: Bytes, seed: Long, prng: Prng, j: nat)
    requires |bytes| > 0
    ensures Blocks(bytes, seed, prng, j) ==
      [XorL(Pack(bytes, 0), prng(seed, j))] + Blocks(bytes[Min(|bytes|, 8)..], seed, prng, j + 1)
  {
    var n := Min(|bytes|, 8);
    assert bytes[..n] == bytes[0..n];
  }

  /** `ObfuscatedString.array(s)` with `seed` the value `key()` returned. */
  function Array(s: JString, seed: Long, prng: Prng): (r: Result<seq<Long>, Error>)
    ensures r.Failure? <==> 0 in s
    ensures r.Failure? ==> r.error == IllegalArgument
    ensures r.Success? ==> |r.value| == 1 + (|Utf8.Encode(s)| + 7) / 8 && r.value[0] == seed
  {
    if 0 in s then Failure(IllegalArgument)
    else Success([seed] + Blocks(Utf8.Encode(s), seed, prng, 0))
  }

  /** The Java loop `for (i = 0, j = 0; i < el; i += 8) obfuscated[++j] = ...`. */
  method ArrayLoop(encoded: Bytes, seed: Long, prng: Prng) returns (obfuscated: seq<Long>)
    ensures obfuscated == [seed] + Blocks(encoded, seed, prng, 0)
  {
    var el := |encoded|;
    var blocks := Blocks(encoded, seed, prng, 0);
    var size := 1 + |blocks|;
    obfuscated := seq(size, _ => 0);
    obfuscated := obfuscated[0 := seed];
    var i, j := 0, 0;
    while i < el
      invariant i == 8 * j && (j == 0 || 8 * (j - 1) < el) && |obfuscated| == size
      invariant obfuscated[0] == seed
      invariant forall k :: 0 <= k < j ==> k < |blocks| && obfuscated[k + 1] == blocks[k]
    {
      ArrayStep(encoded, seed, prng, obfuscated, j);
      j := j + 1;
      obfuscated := obfuscated[j := XorL(Pack(encoded, i), prng(seed, j - 1))];
      i := i + 8;
    }
    BlockCount(el, j);
    ArrayDone(obfuscated, seed, blocks);
  }

  /** A filled array is the seed followed by the blocks. */
  lemma ArrayDone(obfuscated: seq<Long>, seed: Long, blocks: seq<Long>)
    requires |obfuscated| == 1 + |blocks| && obfuscated[0] == seed
    requires forall k :: 0 <= k < |blocks| ==> obfuscated[k + 1] == blocks[k]
    ensures obfuscated == [seed] + blocks
  {
    assert forall k :: 0 <= k < |obfuscated| ==> obfuscated[k] == ([seed] + blocks)[k];
  }

  /** One iteration of the `array` loop extends the filled prefix. */
  lemma ArrayStep(encoded: Bytes, seed: Long, prng: Prng, obfuscated: seq<Long>, j: nat)
    requires 8 * j < |encoded| && |obfuscated| == 1 + |Blocks(encoded, seed, prng, 0)|
    requires forall k :: 0 <= k < j ==> k < |Blocks(encoded, seed, prng, 0)| && obfuscated[k + 1] == Blocks(encoded, seed, prng, 0)[k]
    ensures var next := obfuscated[j + 1 := XorL(Pack(encoded, 8 * j), prng(seed, j))];
      forall k :: 0 <= k < j + 1 ==> k < |Blocks(encoded, seed, prng, 0)| && next[k + 1] == Blocks(encoded, seed, prng, 0)[k]
  {
    BlocksAt(encoded, seed, prng, 0, j);
  }

  /** The loop index stops at the number of blocks. */
  lemma BlockCount(el: nat, j: nat)
    requires el <= 8 * j && (j == 0 || 8 * (j - 1) < el)
    ensures (el + 7) / 8 == j
  {
  }

  /** `key()`: the first non-zero draw of a freshly seeded generator.  The
      loop runs until it finds one, so over a finite prefix of draws it may
      not have returned yet. */
  function Key(draws: seq<Long>): (r: Option<Long>)
    ensures r.Some? ==> r.value != 0 && r.value in draws
    ensures r.None? ==> forall i :: 0 <= i < |draws| ==> draws[i] == 0
  {
    if |draws| == 0 then None
    else if draws[0] != 0 then Some(draws[0])
    else
      var r := Key(draws[1..]);
      assert r.None? ==> forall i :: 1 <= i < |draws| ==> draws[i] == draws[1..][i - 1];
      r
  }

  /** The seed is the first non-zero draw; the zero draws before it are
      discarded. */
  lemma {:induction false} KeyIsFirstNonZero(draws: seq<Long>, i: nat)
    requires i < |draws| && draws[i] != 0
    requires forall m :: 0 <= m < i ==> draws[m] == 0
    ensures Key(draws) == Some(draws[i])
  {
    if i > 0 {
      assert forall m :: 0 <= m < i - 1 ==> draws[1..][m] == draws[m + 1];
      KeyIsFirstNonZero(draws[1..], i - 1);
    }
  }

  /** An `ObfuscatedString` instance: its private copy of the array. */
  datatype Obfuscated = Obfuscated(elems: seq<Long>)

  /** The constructor: a copy of the array, failing fast on an empty one. */
  function New(arr: seq<Long>): (r: Result<Obfuscated, Error>)
    ensures r.Failure? <==> |arr| == 0
    ensures r.Failure? ==> r.error == ArrayIndexOutOfBounds
    ensures r.Success? ==> r.value.elems == arr
  {
    if |arr| == 0 then Failure(ArrayIndexOutOfBounds) else Success(Obfuscated(arr))
  }

  /** The bytes the `Codec` loop writes: element `j + 1 + k` XOR-ed with
      draw `j + k`, unpacked into eight bytes. */
  function Unmask(elems: seq<Long>, seed: Long, prng: Prng, j: nat): (r: Bytes)
    ensures |r| == 8 * |elems|
    decreases |elems|
  {
    if |elems| == 0 then []
    else Unpack(XorL(elems[0], prng(seed, j)), 8) + Unmask(elems[1..], seed, prng, j + 1)
  }

  lemma {:induction false} UnmaskSnoc(elems: seq<Long>, x: Long, seed: Long, prng: Prng, j: nat)
    ensures Unmask(elems + [x], seed, prng, j) ==
            Unmask(elems, seed, prng, j) + Unpack(XorL(x, prng(seed, j + |elems|)), 8)
    decreases |elems|
  {
    if |elems| > 0 {
      assert (elems + [x])[1..] == elems[1..] + [x];
      UnmaskSnoc(elems[1..], x, seed, prng, j + 1);
    } else {
      assert elems + [x] == [x];
    }
  }

  /** Trailing zero bytes cut off. */
  function TrimZeros(b: Bytes): (r: Bytes)
    ensures |r| <= |b| && r == b[..|r|]
    ensures |r| == 0 || r[|r| - 1] != 0
    ensures forall k :: |r| <= k < |b| ==> b[k] == 0
  {
    if |b| == 0 then []
    else if b[|b| - 1] == 0 then TrimZeros(b[..|b| - 1])
    else b
  }

  /** The trimmed length is the only cut with a non-zero last byte and
      nothing but zeros after it. */
  lemma TrimUnique(b: Bytes, el: nat)
    requires el <= |b| && (el == 0 || b[el - 1] != 0)
    requires forall k :: el <= k < |b| ==> b[k] == 0
    ensures TrimZeros(b) == b[..el]
  {
  }

  /** `Codec.call()` up to the UTF-8 decoding: the bytes handed to
      `new String(encoded, 0, el, UTF_8)`. */
  function Call(o: Obfuscated, prng: Prng): (r: Bytes)
    requires |o.elems| >= 1
    ensures |r| <= 8 * (|o.elems| - 1)
    ensures |r| == 0 || r[|r| - 1] != 0
  {
    TrimZeros(Unmask(o.elems[1..], o.elems[0], prng, 0))
  }

  lemma EncodeAtBlock(x: Long, p: Bytes, m: nat)
    ensures EncodeAt(x, p + Zeros(8 + m), |p|) == p + Unpack(x, 8) + Zeros(m)
  {
    var bytes := p + Zeros(8 + m);
    assert bytes[..|p|] == p;
    assert bytes[|p| + 8..] == Zeros(m);
  }

  lemma FillStep(obf: seq<Long>, prng: Prng, i: nat)
    requires 1 <= i < |obf|
    ensures EncodeAt(XorL(obf[i], prng(obf[0], i - 1)), Unmask(obf[1..i], obf[0], prng, 0) + Zeros(8 * (|obf| - i)), 8 * (i - 1))
            == Unmask(obf[1..i + 1], obf[0], prng, 0) + Zeros(8 * (|obf| - i - 1))
  {
    var x := XorL(obf[i], prng(obf[0], i - 1));
    var done := Unmask(obf[1..i], obf[0], prng, 0);
    var m := 8 * (|obf| - i - 1);
    assert 8 * (|obf| - i) == 8 + m;
    assert |done| == 8 * (i - 1);
    EncodeAtBlock(x, done, m);
    FillUnmask(obf, prng, i);
  }

  /** Unmasking one more element appends its eight bytes. */
  lemma FillUnmask(obf: seq<Long>, prng: Prng, i: nat)
    requires 1 <= i < |obf|
    ensures Unmask(obf[1..i + 1], obf[0], prng, 0) ==
      Unmask(obf[1..i], obf[0], prng, 0) + Unpack(XorL(obf[i], prng(obf[0], i - 1)), 8)
  {
    assert obf[1..i + 1] == obf[1..i] + [obf[i]];
    UnmaskSnoc(obf[1..i], obf[i], obf[0], prng, 0);
  }

  /** The first loop of `Codec.call()`: each element after the seed,
      XOR-ed with its draw, written into its eight-byte slot. */
  method FillLoop(obf: seq<Long>, prng: Prng) returns (encoded: Bytes)
    requires |obf| >= 1
    ensures encoded == Unmask(obf[1..], obf[0], prng, 0)
  {
    var ol := |obf|;
    encoded := Zeros(8 * (ol - 1));
    var i := 1;
    while i < ol
      invariant 1 <= i <= ol
      invariant encoded == Unmask(obf[1..i], obf[0], prng, 0) + Zeros(8 * (ol - i))
    {
      FillStep(obf, prng, i);
      encoded := EncodeAt(XorL(obf[i], prng(obf[0], i - 1)), encoded, 8 * (i - 1));
      i := i + 1;
    }
    assert obf[1..i] == obf[1..];
  }

  /** The trimming loop of `Codec.call()`. */
  method TrimLoop(encoded: Bytes) returns (el: nat)
    ensures el == |TrimZeros(encoded)|
  {
    el := |encoded|;
    var j := el;
    while 0 < j && encoded[j - 1] == 0
      invariant 0 <= j <= |encoded| && el == j
      invariant forall k :: j <= k < |encoded| ==> encoded[k] == 0
    {
      j := j - 1;
      el := j;
    }
    TrimUnique(encoded, el);
  }

  /** The Java `Codec.call()`: fills a scratch array block by block, trims
      it, and clears it again before returning. */
  method CodecCall(o: Obfuscated, prng: Prng) returns (text: Bytes, scratch: Bytes)
    requires |o.elems| >= 1
    ensures text == Call(o, prng)
    ensures |scratch| == 8 * (|o.elems| - 1)
    ensures forall k :: 0 <= k < |scratch| ==> scratch[k] == 0
  {
    var encoded := FillLoop(o.elems, prng);
    var el := TrimLoop(encoded);
    text := encoded[..el];
    scratch := Zeros(el) + encoded[el..];
  }

  /** `PadLength(n)` zero bytes bring `n` up to a multiple of eight. */
  function PadLength(n: nat): nat {
    if n == 0 then 0 else if n < 8 then 8 - n else PadLength(n - 8)
  }

  /** Unmasking the blocks of an encoding gives back the encoding followed
      by the zero bytes that filled its last block. */
  lemma {:induction false} UnmaskBlocks(bytes: Bytes, seed: Long, prng: Prng, j: nat)
    ensures Unmask(Blocks(bytes, seed, prng, j), seed, prng, j) == bytes + Zeros(PadLength(|bytes|))
    decreases |bytes|
  {
    if |bytes| > 0 {
      var n := Min(|bytes|, 8);
      UnmaskFirstBlock(bytes, seed, prng, j);
      UnmaskBlocks(bytes[n..], seed, prng, j + 1);
      PadSplit(bytes);
    }
  }

  /** The first block unmasks to the first (at most) eight bytes, padded
      with zeros. */
  lemma UnmaskFirstBlock(bytes: Bytes, seed: Long, prng: Prng, j: nat)
    requires |bytes| > 0
    ensures var n := Min(|bytes|, 8);
      Unmask(Blocks(bytes, seed, prng, j), seed, prng, j) ==
      (bytes[..n] + Zeros(8 - n)) + Unmask(Blocks(bytes[n..], seed, prng, j + 1), seed, prng, j + 1)
  {
    var n := Min(|bytes|, 8);
    var blocks := Blocks(bytes, seed, prng, j);
    var chunk := bytes[..n];
    var p := prng(seed, j);
    assert blocks[0] == XorL(LittleEndian(chunk), p);
    assert blocks[1..] == Blocks(bytes[n..], seed, prng, j + 1);
    XorLTwice(LittleEndian(chunk), p);
    UnpackLittleEndian(chunk, 8);
  }

  lemma PadSplit(bytes: Bytes)
    requires |bytes| > 0
    ensures var n := Min(|bytes|, 8);
      (bytes[..n] + Zeros(8 - n)) + (bytes[n..] + Zeros(PadLength(|bytes| - n))) == bytes + Zeros(PadLength(|bytes|))
  {
    if |bytes| >= 8 {
      PadSplitFull(bytes);
    } else {
      PadSplitShort(bytes);
    }
  }

  lemma PadSplitFull(bytes: Bytes)
    requires |bytes| >= 8
    ensures (bytes[..8] + Zeros(0)) + (bytes[8..] + Zeros(PadLength(|bytes| - 8))) == bytes + Zeros(PadLength(|bytes|))
  {
    var z := Zeros(PadLength(|bytes| - 8));
    assert Zeros(0) == [];
    AppendAssoc(bytes[..8], bytes[8..], z);
    assert bytes[..8] + bytes[8..] == bytes;
    assert bytes[..8] + [] == bytes[..8];
  }

  lemma PadSplitShort(bytes: Bytes)
    requires 0 < |bytes| < 8
    ensures (bytes[..|bytes|] + Zeros(8 - |bytes|)) + (bytes[|bytes|..] + Zeros(PadLength(0))) == bytes + Zeros(PadLength(|bytes|))
  {
    var z := Zeros(8 - |bytes|);
    assert Zeros(0) == [];
    assert bytes[|bytes|..] == [] && bytes[..|bytes|] == bytes;
    assert (bytes + z) + ([] + []) == bytes + z;
  }

  lemma {:induction false} TrimPadded(bs: Bytes, pad: nat)
    requires |bs| == 0 || bs[|bs| - 1] != 0
    ensures TrimZeros(bs + Zeros(pad)) == bs
  {
    TrimUnique(bs + Zeros(pad), |bs|);
    assert (bs + Zeros(pad))[..|bs|] == bs;
  }

  /** The round trip: for any seed and any generator, decoding what
      `array(s)` produced gives back exactly the UTF-8 bytes of `s` when `s`
      has no NUL character.  The trim is exact because such an encoding
      does not end in a zero byte. */
  lemma RoundTrip(s: JString, seed: Long, prng: Prng)
    requires 0 !in s
    ensures Array(s, seed, prng).Success?
    ensures New(Array(s, seed, prng).value).Success?
    ensures Call(New(Array(s, seed, prng).value).value, prng) == Utf8.Encode(s)
  {
    var bytes := Utf8.Encode(s);
    var arr := [seed] + Blocks(bytes, seed, prng, 0);
    assert arr[1..] == Blocks(bytes, seed, prng, 0);
    UnmaskBlocks(bytes, seed, prng, 0);
    Utf8.ZeroByteIffNul(s);
    if |bytes| > 0 {
      assert bytes[|bytes| - 1] in bytes;
    }
    TrimPadded(bytes, PadLength(|bytes|));
  }
}

=== FILE: paths.dfy ===
/** The path helpers of `FileUtils` and `Util`: separator conversion,
    `File.toURI` and `URI.relativize` as far as the relative-path helper
    uses them, and the output-file mapping the transform writes through.
    `File.separatorChar` is a parameter `sep`, so one model covers every
    platform; a `File` is its absolute path string in the platform's form. */
module Paths {

  /** `String.replace(char, char)`. */
  function Replace(s: string, from: char, to: char): (r: string)
    ensures |r| == |s|
    ensures forall i :: 0 <= i < |s| ==> r[i] == (if s[i] == from then to else s[i])
  {
    if |s| == 0 then [] else [if s[0] == from then to else s[0]] + Replace(s[1..], from, to)
  }

  lemma {:induction false} ReplaceAppend(a: string, b: string, from: char, to: char)
    ensures Replace(a + b, from, to) == Replace(a, from, to) + Replace(b, from, to)
  {
    if |a| == 0 {
      assert a + b == b;
    } else {
      assert (a + b)[0] == a[0];
      assert (a + b)[1..] == a[1..] + b;
      ReplaceAppend(a[1..], b, from, to);
    }
  }

  /** Replacing `from` by `to` and back restores a string that had no `to`. */
  lemma {:induction false} ReplaceBack(s: string, from: char, to: char)
    requires to !in s
    ensures Replace(Replace(s, from, to), to, from) == s
  {
    if |s| > 0 {
      ReplaceBack(s[1..], from, to);
      assert Replace(s, from, to)[1..] == Replace(s[1..], from, to);
    }
  }

  /** `toSystemDependentPath`: every `/` becomes the separator. */
  function ToDependent(path: string, sep: char): (r: string)
    ensures |r| == |path|
    ensures sep == '/' ==> r == path
    ensures sep != '/' ==> '/' !in r
  {
    if sep != '/' then Replace(path, '/', sep) else path
  }

  /** `toSystemIndependentPath`: every separator becomes `/`. */
  function ToIndependent(path: string, sep: char): (r: string)
    ensures |r| == |path|
    ensures sep == '/' ==> r == path
    ensures sep != '/' ==> sep !in r
  {
    if sep != '/' then Replace(path, sep, '/') else path
  }

  /** The two conversions are inverses on paths that do not already use
      the other form's separator. */
  lemma IndependentDependent(path: string, sep: char)
    requires sep !in path || sep == '/'
    ensures ToIndependent(ToDependent(path, sep), sep) == path
  {
    if sep != '/' {
      ReplaceBack(path, '/', sep);
    }
  }

  lemma DependentIndependent(path: string, sep: char)
    requires '/' !in path
    ensures ToDependent(ToIndependent(path, sep), sep) == path
  {
    if sep != '/' {
      ReplaceBack(path, sep, '/');
    }
  }

  /** The path of `File.toURI()` for an absolute `File`: separators become
      `/`, a leading `/` is ensured, and a directory gets a trailing `/`. */
  function UriPath(file: string, sep: char, isDirectory: bool): (r: string)
    ensures |r| > 0 && r[0] == '/'
    ensures '/' != sep ==> sep !in r
  {
    var p := ToIndependent(file, sep);
    var rooted := if |p| > 0 && p[0] == '/' then p else "/" + p;
    if isDirectory && rooted[|rooted| - 1] != '/' then rooted + "/" else rooted
  }

  /** The path of `base.relativize(child)` for two `file:` URIs: empty when
      the paths are equal, the rest of the child's path when it lies under
      the base (taken with a trailing `/`), and the child's own path
      otherwise. */
  function Relativize(base: string, child: string): (r: string)
    ensures r == child || r == "" || (|r| < |child| && child[|child| - |r|..] == r)
  {
    if base == child then ""
    else
      var b := if |base| > 0 && base[|base| - 1] == '/' then base else base + "/";
      if b <= child then child[|b|..] else child
  }

  /** `relativePossiblyNonExistingPath(file, dir)`. */
  function RelativePath(file: string, fileIsDirectory: bool, dir: string, dirIsDirectory: bool, sep: char): string {
    ToDependent(Relativize(UriPath(dir, sep, dirIsDirectory), UriPath(file, sep, fileIsDirectory)), sep)
  }

  /** `File(parent, child)`: the child, in the platform's form, joined to
      the parent with one separator; an empty child gives the parent.
      `java.io.File` also drops a separator at the start of the child;
      this function does not.  The transform only resolves relative paths
      of files beneath their input directory, which never start with one. */
  function Resolve(parent: string, child: string, sep: char): (r: string)
    ensures |child| == 0 ==> r == parent
    ensures |child| > 0 ==> |parent| + |child| < |r| + 1 && r[..|parent|] == parent && r[|r| - |child|..] == ToDependent(child, sep)
  {
    var c := ToDependent(child, sep);
    if |c| == 0 then parent
    else if |parent| > 0 && parent[|parent| - 1] == sep then parent + c
    else parent + [sep] + c
  }

  /** `FileUtils.getOutputFile(inputDir, inputFile, outputDir)`. */
  function OutputFile(inputDir: string, dirIsDirectory: bool, inputFile: string, outputDir: string, sep: char): string {
    Resolve(outputDir, ToIndependent(RelativePath(inputFile, false, inputDir, dirIsDirectory, sep), sep), sep)
  }

  /** `Util.getRelativePath(file, rootPath)`: the relative path with `/`
      separators. */
  function UtilRelativePath(file: string, root: string, rootIsDirectory: bool, sep: char): (r: string)
    ensures sep != '/' ==> sep !in r
  {
    ToIndependent(RelativePath(file, false, root, rootIsDirectory, sep), sep)
  }

  /** `Util.getOutputFile(inputDir, inputFile, outputDir)`. */
  function UtilOutputFile(inputDir: string, dirIsDirectory: bool, inputFile: string, outputDir: string, sep: char): string {
    Resolve(outputDir, UtilRelativePath(inputFile, inputDir, dirIsDirectory, sep), sep)
  }

  /** A path in `/` form that lies under a directory: rooted, and neither
      part uses the platform separator unless it is `/`. */
  predicate Beneath(dir: string, rel: string, sep: char) {
    |dir| > 0 && dir[0] == '/' && dir[|dir| - 1] != '/' &&
    |rel| > 0 && rel[0] != '/' && rel[|rel| - 1] != '/' &&
    (sep == '/' || (sep !in dir && sep !in rel))
  }

  /** The relative path of a file `dir/rel` with respect to `dir` is
      `rel`, whether or not the directory exists. */
  lemma RelativeBeneath(dir: string, rel: string, dirIsDirectory: bool, sep: char)
    requires Beneath(dir, rel, sep)
    ensures RelativePath(ToDependent(dir + "/" + rel, sep), false, ToDependent(dir, sep), dirIsDirectory, sep)
      == ToDependent(rel, sep)
  {
    var file := dir + "/" + rel;
    assert sep != '/' ==> sep !in file;
    IndependentDependent(dir, sep);
    IndependentDependent(file, sep);
    var base := UriPath(ToDependent(dir, sep), sep, dirIsDirectory);
    var child := UriPath(ToDependent(file, sep), sep, false);
    assert child == file;
    assert base == dir || base == dir + "/";
    assert base != child;
    assert (dir + "/") <= child;
    assert child[|dir + "/"|..] == rel;
  }

  /** The output file of `dir/rel` is `rel` under the output directory:
      the input's position under its root is kept. */
  lemma OutputBeneath(dir: string, rel: string, dirIsDirectory: bool, outputDir: string, sep: char)
    requires Beneath(dir, rel, sep)
    ensures OutputFile(ToDependent(dir, sep), dirIsDirectory, ToDependent(dir + "/" + rel, sep), outputDir, sep)
      == Resolve(outputDir, rel, sep)
  {
    RelativeBeneath(dir, rel, dirIsDirectory, sep);
    IndependentDependent(rel, sep);
  }

  /** `Util` and `FileUtils` compute the same output file. */
  lemma UtilAgrees(inputDir: string, dirIsDirectory: bool, inputFile: string, outputDir: string, sep: char)
    ensures UtilOutputFile(inputDir, dirIsDirectory, inputFile, outputDir, sep) == OutputFile(inputDir, dirIsDirectory, inputFile, outputDir, sep)
  {
  }

  /** The documented example: with input directory `/a/b`, input file
      `/a/b/c/A.class` and output directory `/d/e`, the output file is
      `/d/e/c/A.class`, on a `/` platform and on a `\` platform. */
  lemma DocumentedExample(sep: char)
    requires sep == '/' || sep == '\\'
    ensures OutputFile(ToDependent("/a/b", sep), true, ToDependent("/a/b/c/A.class", sep), ToDependent("/d/e", sep), sep)
      == ToDependent("/d/e/c/A.class", sep)
  {
    ExampleLiterals();
    OutputBeneath("/a/b", "c/A.class", true, ToDependent("/d/e", sep), sep);
    ResolveJoins("/d/e", "c/A.class", sep);
  }

  lemma ExampleLiterals()
    ensures "/a/b" + "/" + "c/A.class" == "/a/b/c/A.class"
    ensures "/d/e" + "/" + "c/A.class" == "/d/e/c/A.class"
  {
  }

  /** Joining a relative `/` path to a directory that does not end in a
      separator inserts exactly one separator. */
  lemma ResolveJoins(dir: string, rel: string, sep: char)
    requires |dir| > 0 && |rel| > 0
    requires dir[|dir| - 1] != '/' && dir[|dir| - 1] != sep
    ensures Resolve(ToDependent(dir, sep), rel, sep) == ToDependent(dir + "/" + rel, sep)
  {
    var d := ToDependent(dir, sep);
    if sep != '/' {
      assert d[|d| - 1] == dir[|dir| - 1];
    }
    DependentAppend(dir, "/", sep);
    DependentAppend(dir + "/", rel, sep);
  }

  lemma DependentAppend(a: string, b: string, sep: char)
    ensures ToDependent(a + b, sep) == ToDependent(a, sep) + ToDependent(b, sep)
  {
    if sep != '/' {
      ReplaceAppend(a, b, '/', sep);
    }
  }
}

=== FILE: task_config.dfy ===
/** `registerTask` and `TaskConfigurationActions`: a task is registered
    lazily with an action that Gradle runs whenever it realises the task.
    Configuration is held back until the post-register hook has run the
    pre-configure and provider callbacks. The model records the callbacks
    as a trace of events. */
module TaskConfig {
  import opened Wrappers

  /** A task object Gradle hands to the action. */
  type TaskId = nat

  /** Who a callback belongs to: the creation action or one of the
      optional secondary actions. */
  datatype Actor = Creation | Secondary

  datatype Event =
    | Registered(name: string, typ: string)
    | PreConfigure(actor: Actor, taskName: string)
    | HandleProvider(actor: Actor, provider: string)
    | Configure(actor: Actor, task: TaskId)

  /** The creation action's name and task type. */
  datatype CreationAction = CreationAction(name: string, typ: string)

  /** The wrapper's constructor arguments; a `false` or `None` is a null
      action, which every call skips. */
  datatype Actions = Actions(creation: Option<CreationAction>, preConfig: bool, configure: bool, providerHandler: bool)

  /** The wrapper's two fields besides its actions. */
  datatype Wrapper = Wrapper(actions: Actions, hasRunTaskProviderHandler: bool, delayedTask: Option<TaskId>)

  function Fresh(a: Actions): Wrapper {
    Wrapper(a, false, None)
  }

  /** Both `configure` calls on a task: the creation action's, then the
      secondary one's, each only when present. */
  function Configures(a: Actions, task: TaskId): (r: seq<Event>)
    ensures forall e :: e in r ==> e.Configure? && e.task == task
  {
    (if a.creation.Some? then [Configure(Creation, task)] else []) +
    (if a.configure then [Configure(Secondary, task)] else [])
  }

  /** A null action is skipped, a present one configures, and the creation
      action goes first. */
  lemma ConfiguresSkipsNull(a: Actions, task: TaskId)
    ensures Configure(Creation, task) in Configures(a, task) <==> a.creation.Some?
    ensures Configure(Secondary, task) in Configures(a, task) <==> a.configure
    ensures var r := Configures(a, task);
      forall i, j :: 0 <= i < j < |r| ==> r[i].actor == Creation && r[j].actor == Secondary
  {
  }

  /** `execute(task)`: before the hook only the task is remembered; after
      it the task is configured. */
  function Execute(w: Wrapper, task: TaskId): (r: (Wrapper, seq<Event>))
    ensures !w.hasRunTaskProviderHandler ==> r.1 == [] && r.0.delayedTask == Some(task)
    ensures w.hasRunTaskProviderHandler ==> r.0 == w && r.1 == Configures(w.actions, task)
    ensures r.0.actions == w.actions && r.0.hasRunTaskProviderHandler == w.hasRunTaskProviderHandler
  {
    if w.hasRunTaskProviderHandler then (w, Configures(w.actions, task))
    else (w.(delayedTask := Some(task)), [])
  }

  /** Several realisations in a row. */
  function ExecuteAll(w: Wrapper, tasks: seq<TaskId>): (r: (Wrapper, seq<Event>))
    ensures r.0.actions == w.actions && r.0.hasRunTaskProviderHandler == w.hasRunTaskProviderHandler
    ensures w.hasRunTaskProviderHandler ==> r.0 == w && forall e :: e in r.1 ==> e.Configure? && e.task in tasks
    decreases |tasks|
  {
    if |tasks| == 0 then (w, [])
    else
      var (w1, es) := Execute(w, tasks[0]);
      var (w2, rest) := ExecuteAll(w1, tasks[1..]);
      (w2, es + rest)
  }

  /** Before the hook, executing is silent and only the last task is kept. */
  lemma {:induction false} DelayedKeepsLast(w: Wrapper, tasks: seq<TaskId>)
    requires !w.hasRunTaskProviderHandler
    ensures ExecuteAll(w, tasks).1 == []
    ensures ExecuteAll(w, tasks).0.delayedTask == if |tasks| == 0 then w.delayedTask else Some(tasks[|tasks| - 1])
    decreases |tasks|
  {
    if |tasks| > 0 {
      var w1 := Execute(w, tasks[0]).0;
      DelayedKeepsLast(w1, tasks[1..]);
      if |tasks| > 1 {
        assert tasks[1..][|tasks[1..]| - 1] == tasks[|tasks| - 1];
      }
    }
  }

  /** The callbacks the hook makes before configuring: both `preConfigure`
      calls, then both `handleProvider` calls, each only when present. */
  function Setup(a: Actions, name: string): (r: seq<Event>)
    ensures forall e :: e in r ==> e.PreConfigure? || e.HandleProvider?
  {
    (if a.creation.Some? then [PreConfigure(Creation, name)] else []) +
    (if a.preConfig then [PreConfigure(Secondary, name)] else []) +
    (if a.creation.Some? then [HandleProvider(Creation, name)] else []) +
    (if a.providerHandler then [HandleProvider(Secondary, name)] else [])
  }

  /** Each setup callback happens exactly when its action is present, and
      every `preConfigure` precedes every `handleProvider`. */
  lemma SetupSkipsNull(a: Actions, name: string)
    ensures PreConfigure(Creation, name) in Setup(a, name) <==> a.creation.Some?
    ensures PreConfigure(Secondary, name) in Setup(a, name) <==> a.preConfig
    ensures HandleProvider(Creation, name) in Setup(a, name) <==> a.creation.Some?
    ensures HandleProvider(Secondary, name) in Setup(a, name) <==> a.providerHandler
    ensures var r := Setup(a, name);
      forall i, j :: 0 <= i < |r| && 0 <= j < |r| && r[i].HandleProvider? && r[j].PreConfigure? ==> j < i
  {
  }

  /** `postRegisterHook(provider)`: the setup callbacks, then the delayed
      task's configuration if a task was delayed; the flag is set last. */
  function PostRegisterHook(w: Wrapper, name: string): (r: (Wrapper, seq<Event>))
    ensures r.0.hasRunTaskProviderHandler && r.0.actions == w.actions
    ensures |Setup(w.actions, name)| <= |r.1| && r.1[..|Setup(w.actions, name)|] == Setup(w.actions, name)
    ensures r.1[|Setup(w.actions, name)|..] == if w.delayedTask.Some? then Configures(w.actions, w.delayedTask.value) else []
  {
    var setup := Setup(w.actions, name);
    var configure := if w.delayedTask.Some? then Configures(w.actions, w.delayedTask.value) else [];
    assert (setup + configure)[..|setup|] == setup;
    (w.(hasRunTaskProviderHandler := true), setup + configure)
  }

  /** Setup callbacks strictly precede every configuration. */
  predicate SetupFirst(t: seq<Event>) {
    forall i, j :: 0 <= i < |t| && 0 <= j < |t| && t[i].Configure? && (t[j].PreConfigure? || t[j].HandleProvider?) ==> j < i
  }

  lemma PhasesSetupFirst(s: seq<Event>, c: seq<Event>)
    requires forall e :: e in s ==> !e.Configure?
    requires forall e :: e in c ==> e.Configure?
    ensures SetupFirst(s + c)
  {
    var t := s + c;
    forall i | 0 <= i < |s|
      ensures !t[i].Configure?
    {
      assert t[i] == s[i] && s[i] in s;
    }
    forall j | |s| <= j < |t|
      ensures t[j].Configure?
    {
      assert t[j] == c[j - |s|] && c[j - |s|] in c;
    }
  }

  /** `registerTask`: Gradle registers the task under the creation action's
      name and type, possibly realising it (`during`) before `register`
      returns, then the hook runs, then any later realisations (`after`)
      execute. */
  function RegisterTask(ca: CreationAction, preConfig: bool, configure: bool, providerHandler: bool,
                        during: seq<TaskId>, after: seq<TaskId>): (r: seq<Event>)
    ensures |r| > 0 && r[0] == Registered(ca.name, ca.typ)
  {
    var w0 := Fresh(Actions(Some(ca), preConfig, configure, providerHandler));
    var (w1, early) := ExecuteAll(w0, during);
    var (w2, hook) := PostRegisterHook(w1, ca.name);
    var (w3, late) := ExecuteAll(w2, after);
    [Registered(ca.name, ca.typ)] + early + hook + late
  }

  /** The hook's callbacks: setup, then the delayed task's configuration. */
  lemma HookTrace(w: Wrapper, name: string)
    ensures PostRegisterHook(w, name).1
      == Setup(w.actions, name) + (if w.delayedTask.Some? then Configures(w.actions, w.delayedTask.value) else [])
  {
    var h := PostRegisterHook(w, name).1;
    assert h == h[..|Setup(w.actions, name)|] + h[|Setup(w.actions, name)|..];
  }

  function ActionsOf(ca: CreationAction, preConfig: bool, configure: bool, providerHandler: bool): Actions {
    Actions(Some(ca), preConfig, configure, providerHandler)
  }

  /** Registration followed by the hook's setup callbacks. */
  function Head(ca: CreationAction, a: Actions): seq<Event> {
    [Registered(ca.name, ca.typ)] + Setup(a, ca.name)
  }

  /** The hook's configuration of the last task realised during
      registration, if any. */
  function DelayedConfigures(a: Actions, during: seq<TaskId>): seq<Event> {
    if |during| > 0 then Configures(a, during[|during| - 1]) else []
  }

  /** The callbacks of the realisations after the hook. */
  function LateEvents(a: Actions, name: string, during: seq<TaskId>, after: seq<TaskId>): seq<Event> {
    ExecuteAll(PostRegisterHook(ExecuteAll(Fresh(a), during).0, name).0, after).1
  }

  /** The trace of `registerTask` in two phases: registration and the
      setup callbacks, then configuration only. */
  lemma RegisterPhases(ca: CreationAction, preConfig: bool, configure: bool, providerHandler: bool,
                       during: seq<TaskId>, after: seq<TaskId>)
    ensures var a := ActionsOf(ca, preConfig, configure, providerHandler);
      RegisterTask(ca, preConfig, configure, providerHandler, during, after)
        == Head(ca, a) + (DelayedConfigures(a, during) + LateEvents(a, ca.name, during, after))
    ensures forall e :: e in LateEvents(ActionsOf(ca, preConfig, configure, providerHandler), ca.name, during, after) ==> e.Configure?
  {
    var a := ActionsOf(ca, preConfig, configure, providerHandler);
    var w1 := ExecuteAll(Fresh(a), during).0;
    var hook := PostRegisterHook(w1, ca.name).1;
    var late := LateEvents(a, ca.name, during, after);
    var setup := Setup(a, ca.name);
    var configures := DelayedConfigures(a, during);
    var r := RegisterTask(ca, preConfig, configure, providerHandler, during, after);
    assert r == [Registered(ca.name, ca.typ)] + [] + hook + late by {
      DelayedKeepsLast(Fresh(a), during);
    }
    assert hook == setup + configures by {
      DelayedKeepsLast(Fresh(a), during);
      HookTrace(w1, ca.name);
    }
    AppendAssoc([Registered(ca.name, ca.typ)], setup, configures);
    AppendAssoc([Registered(ca.name, ca.typ)] + setup, configures, late);
  }

  /** Whatever Gradle realises and when, no task is configured before
      every pre-configure and provider callback has run. */
  lemma RegisterSetupFirst(ca: CreationAction, preConfig: bool, configure: bool, providerHandler: bool,
                           during: seq<TaskId>, after: seq<TaskId>)
    ensures SetupFirst(RegisterTask(ca, preConfig, configure, providerHandler, during, after))
  {
    var a := ActionsOf(ca, preConfig, configure, providerHandler);
    RegisterPhases(ca, preConfig, configure, providerHandler, during, after);
    PhasesSetupFirst(Head(ca, a), DelayedConfigures(a, during) + LateEvents(a, ca.name, during, after));
  }

  /** The hook runs once: the creation action pre-configures the
      registered name exactly once. */
  lemma RegisterPreConfiguresOnce(ca: CreationAction, preConfig: bool, configure: bool, providerHandler: bool,
                                  during: seq<TaskId>, after: seq<TaskId>)
    ensures multiset(RegisterTask(ca, preConfig, configure, providerHandler, during, after))[PreConfigure(Creation, ca.name)] == 1
  {
    var a := ActionsOf(ca, preConfig, configure, providerHandler);
    var head := Head(ca, a);
    var tail := DelayedConfigures(a, during) + LateEvents(a, ca.name, during, after);
    RegisterPhases(ca, preConfig, configure, providerHandler, during, after);
    assert multiset(head)[PreConfigure(Creation, ca.name)] == 1 by {
      OnceInSetup(a, ca.name);
    }
    assert multiset(tail)[PreConfigure(Creation, ca.name)] == 0 by {
      assert PreConfigure(Creation, ca.name) !in tail;
    }
    assert multiset(head + tail) == multiset(head) + multiset(tail);
  }

  /** A task realised while `register` runs is not lost: the hook
      configures the last such task. */
  lemma RegisterConfiguresDelayed(ca: CreationAction, preConfig: bool, configure: bool, providerHandler: bool,
                                  during: seq<TaskId>, after: seq<TaskId>)
    requires |during| > 0
    ensures Configure(Creation, during[|during| - 1]) in RegisterTask(ca, preConfig, configure, providerHandler, during, after)
  {
    var a := ActionsOf(ca, preConfig, configure, providerHandler);
    RegisterPhases(ca, preConfig, configure, providerHandler, during, after);
    assert Configure(Creation, during[|during| - 1]) in DelayedConfigures(a, during);
  }

  lemma OnceInSetup(a: Actions, name: string)
    requires a.creation.Some?
    ensures multiset([Registered(a.creation.value.name, a.creation.value.typ)] + Setup(a, name))[PreConfigure(Creation, name)] == 1
  {
  }
}

=== FILE: transform.dfy ===
/** `MuddyTransform`: the Android Gradle transform of the first generation.
    The file system is a map from absolute paths, in the platform's form,
    to file contents; directories are implicit (a path is a directory when
    it is not a file and some file lies beneath it). ASM's reader and
    writer, the output provider and the order of `walkBottomUp` are
    supplied by the host. */
module Transform {
  import opened Wrappers
  import opened Jvm
  import opened MuddyXor
  import ClassVisitor
  import Paths

  type Path = string

  type Fs = map<Path, Bytes>

  /** The change status the build reports for a file or a jar. */
  datatype Status = NotChanged | Added | Changed | Removed

  /** A directory input; `output` is the location the output provider
      assigns it in directory format. */
  datatype DirectoryInput = DirectoryInput(file: Path, output: Path, changedFiles: seq<(Path, Status)>)

  /** A jar input; `output` is its location in jar format. */
  datatype JarInput = JarInput(file: Path, output: Path, status: Status)

  datatype TransformInput = TransformInput(directoryInputs: seq<DirectoryInput>, jarInputs: seq<JarInput>)

  datatype Invocation = Invocation(inputs: seq<TransformInput>, isIncremental: bool)

  /** What the transform gets from outside: `ClassReader` (`None` for bytes
      it cannot parse), `ClassWriter.toByteArray`, the files `walkBottomUp`
      lists under a directory, in its order, and `File.separatorChar`. */
  datatype Host = Host(read: Bytes -> Option<ClassFile>, write: ClassFile -> Bytes,
                       walk: (Fs, Path) -> seq<Path>, sep: char)

  /** `extension.enable` off, or on with `extension.muddyKey`. */
  datatype Mode = Transparent | Enabled(key: Int32)

  /** The file system together with the build-time `Muddy.constMap`, which
      lives as long as the build and is shared by every class. */
  datatype Build = Build(fs: Fs, cache: Cache)

  /** The exceptions the file operations and `ClassReader` throw. */
  datatype IoError = NoSuchFile(path: Path) | FileAlreadyExists(path: Path) | ClassFormat(path: Path) | FileNotFound(path: Path)

  /** `fs` and `other` agree at `q`: both lack it, or both hold the same
      bytes there. */
  predicate Same(fs: Fs, other: Fs, q: Path) {
    (q in fs <==> q in other) && (q in fs && q in other ==> fs[q] == other[q])
  }

  /** `File.startsWith(dir)`: equal, or `dir` followed by a separator. */
  predicate Under(path: Path, dir: Path, sep: char) {
    path == dir || (|dir| > 0 && dir < path && (dir[|dir| - 1] == sep || path[|dir|] == sep))
  }

  /** `File.isDirectory` on the implicit directories. */
  predicate IsDirectory(fs: Fs, p: Path, sep: char) {
    p !in fs && exists k :: k in fs && Under(k, p, sep)
  }

  lemma UpdateValues(fs: Fs, k: Path, v: Bytes)
    requires v in fs.Values
    ensures fs[k := v].Values <= fs.Values
  {
    forall w | w in fs[k := v].Values
      ensures w in fs.Values
    {
      var q :| q in fs[k := v] && fs[k := v][q] == w;
      if q != k {
        assert fs[q] == w;
      }
    }
  }

  lemma SubmapValues(fs: Fs, sub: Fs)
    requires forall q :: q in sub ==> q in fs && sub[q] == fs[q]
    ensures sub.Values <= fs.Values
  {
    forall w | w in sub.Values
      ensures w in fs.Values
    {
      var q :| q in sub && sub[q] == w;
      assert fs[q] == w;
    }
  }

  /** `File.deleteRecursively`: the path and everything beneath it go, the
      rest stays. */
  function DeleteRecursively(fs: Fs, p: Path, sep: char): (r: Fs)
    ensures forall q :: Same(r, fs, q) || (Under(q, p, sep) && q !in r)
    ensures forall q :: Under(q, p, sep) ==> q !in r
    ensures r.Values <= fs.Values
  {
    var r := map q | q in fs && !Under(q, p, sep) :: fs[q];
    SubmapValues(fs, r);
    r
  }

  /** `FileUtils.deleteIfExists` on a file. */
  function DeleteIfExists(fs: Fs, p: Path): (r: Fs)
    ensures p !in r
    ensures forall q :: q != p ==> Same(r, fs, q)
    ensures r.Values <= fs.Values
  {
    var r := fs - {p};
    SubmapValues(fs, r);
    r
  }

  /** `File.copyTo(target, overwrite)` for a regular source file: a missing
      source, or an existing target without `overwrite`, throws. */
  function CopyTo(fs: Fs, src: Path, dst: Path, overwrite: bool): (r: Result<Fs, IoError>)
    ensures r.Success? <==> src in fs && (overwrite || dst !in fs)
    ensures r.Failure? ==> r.error == (if src !in fs then NoSuchFile(src) else FileAlreadyExists(dst))
    ensures r.Success? ==> dst in r.value && r.value[dst] == fs[src]
    ensures r.Success? ==> forall q :: q != dst ==> Same(r.value, fs, q)
    ensures r.Success? ==> r.value.Values <= fs.Values
  {
    if src !in fs then Failure(NoSuchFile(src))
    else if dst in fs && !overwrite then Failure(FileAlreadyExists(dst))
    else
      UpdateValues(fs, dst, fs[src]);
      Success(fs[dst := fs[src]])
  }

  /** `File.copyRecursively(target, true)` where the source is not a
      directory: a missing source throws, a file is copied. */
  function CopyRecursively(fs: Fs, src: Path, dst: Path): (r: Result<Fs, IoError>)
    ensures r.Success? <==> src in fs
    ensures r.Failure? ==> r.error == NoSuchFile(src)
    ensures r.Success? ==> dst in r.value && r.value[dst] == fs[src]
    ensures r.Success? ==> forall q :: q != dst ==> Same(r.value, fs, q)
    ensures r.Success? ==> r.value.Values <= fs.Values
  {
    CopyTo(fs, src, dst, true)
  }

  /** `File.parentFile` exists as a directory: a path without a separator
      or directly under the root always has one; otherwise some file other
      than the parent itself lies beneath it (directories are implicit, so
      an empty directory counts as missing). */
  predicate ParentExists(fs: Fs, p: Path, sep: char) {
    var parent := BeforeLast(p, sep);
    sep !in p || |parent| == 0 || exists k :: k in fs && k != parent && Under(k, parent, sep)
  }

  /** A file that is already there has its parent directory. */
  lemma ExistingHasParent(fs: Fs, p: Path, sep: char)
    requires p in fs
    ensures ParentExists(fs, p, sep)
  {
    var parent := BeforeLast(p, sep);
    if sep in p && |parent| > 0 {
      assert p != parent && Under(p, parent, sep);
    }
  }

  /** `generateNewClass(input, output)`: read the class, run it through
      `ModifyClassVisitor` with the key, write the result. `mkdirs` says
      whether the caller ran `ensureParentDirsCreated` first; without it,
      `writeBytes` throws when the output's directory is missing.  A
      missing input makes the `FileInputStream` throw, also as a file not
      found. */
  function GenerateNewClass(b: Build, input: Path, output: Path, key: Int32, mkdirs: bool, host: Host): (r: Result<Build, IoError>)
    ensures r.Success? <==> input in b.fs && host.read(b.fs[input]).Some? && (mkdirs || ParentExists(b.fs, output, host.sep))
    ensures r.Failure? ==>
      r.error == (if input !in b.fs then FileNotFound(input)
                  else if host.read(b.fs[input]).None? then ClassFormat(input)
                  else FileNotFound(output))
    ensures r.Success? ==>
      var m := ClassVisitor.ModifyClass(host.read(b.fs[input]).value, key, b.cache);
      output in r.value.fs && r.value.fs[output] == host.write(m.0) && r.value.cache == m.1
    ensures r.Success? ==> forall q :: q != output ==> Same(r.value.fs, b.fs, q)
    ensures r.Success? && Consistent(b.cache, key) ==> Consistent(r.value.cache, key)
  {
    if input !in b.fs then Failure(FileNotFound(input))
    else match host.read(b.fs[input])
      case None => Failure(ClassFormat(input))
      case Some(c) =>
        var m := ClassVisitor.ModifyClass(c, key, b.cache);
        if !mkdirs && !ParentExists(b.fs, output, host.sep) then Failure(FileNotFound(output))
        else Success(Build(b.fs[output := host.write(m.0)], m.1))
  }

  /** The part of `s` after the last `c`; all of `s` when there is none
      (`File.name` with `c` the separator). */
  function AfterLast(s: string, c: char): (r: string)
    ensures |r| <= |s| && s[|s| - |r|..] == r
    ensures c !in r
    ensures |r| == |s| || s[|s| - |r| - 1] == c
  {
    if |s| == 0 then ""
    else if s[|s| - 1] == c then ""
    else AfterLast(s[..|s| - 1], c) + [s[|s| - 1]]
  }

  /** `substringBeforeLast(c)`: the part of `s` before the last `c`, or all
      of `s` when there is none (`File.nameWithoutExtension`). */
  function BeforeLast(s: string, c: char): (r: string)
    ensures c !in s ==> r == s
    ensures c in s ==> |r| < |s| && r == s[..|r|] && s[|r|] == c && c !in s[|r| + 1..]
  {
    if |s| == 0 then ""
    else if s[|s| - 1] == c then s[..|s| - 1]
    else if c in s[..|s| - 1] then BeforeLast(s[..|s| - 1], c)
    else s
  }

  predicate EndsWith(s: string, suffix: string) {
    |suffix| <= |s| && s[|s| - |suffix|..] == suffix
  }

  /** A full build rewrites a file whose name ends in `.class` unless its
      name without the extension is `Muddy`. */
  predicate Rewritable(path: Path, sep: char) {
    var name := AfterLast(path, sep);
    EndsWith(name, ".class") && BeforeLast(name, '.') != "Muddy"
  }

  /** The stem of a `.class` name is what precedes the extension. */
  lemma StemOfClassName(x: string)
    ensures BeforeLast(x + ".class", '.') == x
  {
    var s := x + ".class";
    assert s[|x|] == '.';
  }

  lemma MuddyClassName()
    ensures "Muddy" + ".class" == "Muddy.class"
  {
  }

  /** The guard is exactly: a `.class` file other than `Muddy.class`. */
  lemma RewritableIff(path: Path, sep: char)
    ensures Rewritable(path, sep) <==> EndsWith(AfterLast(path, sep), ".class") && AfterLast(path, sep) != "Muddy.class"
  {
    var name := AfterLast(path, sep);
    if EndsWith(name, ".class") {
      var x := name[..|name| - 6];
      assert name == x + ".class";
      StemOfClassName(x);
      MuddyClassName();
      if name == "Muddy.class" {
        assert x == name[..|name| - 6];
      }
    }
  }

  /** What an operation keeps, by mode: a transparent run leaves the
      `Muddy.constMap` alone and only ever writes bytes some file already
      held; an enabled run keeps the map consistent with its key. */
  ghost predicate Preserves(mode: Mode, b: Build, after: Build) {
    match mode
    case Transparent => after.cache == b.cache && after.fs.Values <= b.fs.Values
    case Enabled(key) => Consistent(b.cache, key) ==> Consistent(after.cache, key)
  }

  /** `Util.getOutputFile(input, file, output)` for a directory input. */
  function OutputOf(input: Path, file: Path, output: Path, sep: char): Path {
    Paths.UtilOutputFile(input, true, file, output, sep)
  }

  /** One entry of the incremental branch, `out` being the entry's output
      file: added and changed files are copied (transparent) or rewritten
      (enabled), a removed file's output is deleted, an unchanged file is
      left alone. The transparent copy creates missing directories; the
      enabled rewrite does not, so it throws when `out`'s directory is
      missing. */
  function ChangedStep(b: Build, file: Path, out: Path, status: Status, mode: Mode, host: Host): (r: Result<Build, IoError>)
    ensures status == NotChanged ==> r == Success(b)
    ensures status == Removed ==> r.Success? && r.value.cache == b.cache && out !in r.value.fs
    ensures r.Success? ==> forall q :: q != out ==> Same(r.value.fs, b.fs, q)
    ensures status in {Added, Changed} && mode.Transparent? ==>
      (r.Success? <==> file in b.fs) && (r.Success? ==> out in r.value.fs && r.value.fs[out] == b.fs[file])
    ensures status in {Added, Changed} && mode.Enabled? ==>
      (r.Success? <==> file in b.fs && host.read(b.fs[file]).Some? && ParentExists(b.fs, out, host.sep)) &&
      (r.Success? ==>
         out in r.value.fs &&
         r.value.fs[out] == host.write(ClassVisitor.ModifyClass(host.read(b.fs[file]).value, mode.key, b.cache).0))
    ensures r.Success? ==> Preserves(mode, b, r.value)
  {
    match status
    case Added | Changed =>
      (match mode
       case Transparent =>
         var fs :- CopyTo(b.fs, file, out, true);
         Success(b.(fs := fs))
       case Enabled(key) => GenerateNewClass(b, file, out, key, false, host))
    case Removed => Success(b.(fs := DeleteIfExists(b.fs, out)))
    case NotChanged => Success(b)
  }

  /** The outputs an incremental pass may touch: those of the entries under
      `input` whose status is not `NotChanged`. */
  function Touched(input: Path, output: Path, changed: seq<(Path, Status)>, sep: char): (r: seq<Path>)
    ensures forall i :: 0 <= i < |changed| && Under(changed[i].0, input, sep) && changed[i].1 != NotChanged ==>
      OutputOf(input, changed[i].0, output, sep) in r
  {
    if |changed| == 0 then []
    else
      var rest := Touched(input, output, changed[1..], sep);
      assert forall i :: 1 <= i < |changed| ==> changed[i] == changed[1..][i - 1];
      if Under(changed[0].0, input, sep) && changed[0].1 != NotChanged then [OutputOf(input, changed[0].0, output, sep)] + rest
      else rest
  }

  /** The incremental branch for one directory: the changed files under it,
      in the map's order. */
  function Incremental(b: Build, input: Path, output: Path, changed: seq<(Path, Status)>, mode: Mode, host: Host): (r: Result<Build, IoError>)
    ensures r.Success? ==> forall q :: q !in Touched(input, output, changed, host.sep) ==> Same(r.value.fs, b.fs, q)
    ensures r.Success? ==> Preserves(mode, b, r.value)
    decreases |changed|
  {
    if |changed| == 0 then Success(b)
    else if !Under(changed[0].0, input, host.sep) then Incremental(b, input, output, changed[1..], mode, host)
    else
      var b1 :- ChangedStep(b, changed[0].0, OutputOf(input, changed[0].0, output, host.sep), changed[0].1, mode, host);
      Incremental(b1, input, output, changed[1..], mode, host)
  }

  /** An entry the incremental pass acts on: a file under the input whose
      status is not `NotChanged`. */
  predicate Acts(entry: (Path, Status), input: Path, sep: char) {
    Under(entry.0, input, sep) && entry.1 != NotChanged
  }

  /** What the incremental branch leaves at an added or changed file's
      output, given the file's bytes: a copy, or with the key on the
      rewritten class. Unlike the full branch it does not look at the
      file's name. */
  ghost predicate Refreshed(mode: Mode, host: Host, src: Bytes, dst: Bytes) {
    match mode
    case Transparent => dst == src
    case Enabled(key) => Rewritten(key, host, src, dst)
  }

  /** What an acted-on entry leaves at its output `out`: a removed file's
      output is gone; an added or changed file exists in `before` and is
      refreshed at `out` in `after`. */
  ghost predicate Settled(mode: Mode, host: Host, before: Fs, after: Fs, file: Path, status: Status, out: Path) {
    if status == Removed then out !in after
    else file in before && out in after && Refreshed(mode, host, before[file], after[out])
  }

  /** A path that is no acted-on entry's output is not touched. */
  lemma {:induction false} Untouched(input: Path, output: Path, changed: seq<(Path, Status)>, sep: char, q: Path)
    requires forall i :: 0 <= i < |changed| && Acts(changed[i], input, sep) ==> OutputOf(input, changed[i].0, output, sep) != q
    ensures q !in Touched(input, output, changed, sep)
    decreases |changed|
  {
    if |changed| > 0 {
      var rest := changed[1..];
      forall i | 0 <= i < |rest| && Acts(rest[i], input, sep)
        ensures OutputOf(input, rest[i].0, output, sep) != q
      {
        assert rest[i] == changed[i + 1];
      }
      Untouched(input, output, rest, sep, q);
    }
  }

  /** When the acted-on entries have distinct outputs and no output is
      another acted-on entry's file, each added or changed file ends up
      refreshed at its output and each removed file's output is gone. */
  lemma {:induction false} IncrementalContents(b: Build, input: Path, output: Path, changed: seq<(Path, Status)>, mode: Mode, host: Host)
    requires Incremental(b, input, output, changed, mode, host).Success?
    requires mode.Enabled? ==> Consistent(b.cache, mode.key)
    requires forall i, j :: 0 <= i < j < |changed| && Acts(changed[i], input, host.sep) && Acts(changed[j], input, host.sep) ==>
      OutputOf(input, changed[i].0, output, host.sep) != OutputOf(input, changed[j].0, output, host.sep)
    requires forall i, j :: 0 <= i < |changed| && 0 <= j < |changed| && Acts(changed[i], input, host.sep) && Acts(changed[j], input, host.sep) ==>
      OutputOf(input, changed[i].0, output, host.sep) != changed[j].0
    ensures var r := Incremental(b, input, output, changed, mode, host).value;
      forall i :: 0 <= i < |changed| && Acts(changed[i], input, host.sep) ==>
        Settled(mode, host, b.fs, r.fs, changed[i].0, changed[i].1, OutputOf(input, changed[i].0, output, host.sep))
    decreases |changed|
  {
    if |changed| > 0 {
      var rest := changed[1..];
      var r := Incremental(b, input, output, changed, mode, host).value;
      if !Under(changed[0].0, input, host.sep) {
        IncrementalContents(b, input, output, rest, mode, host);
        forall i | 1 <= i < |changed| && Acts(changed[i], input, host.sep)
          ensures Settled(mode, host, b.fs, r.fs, changed[i].0, changed[i].1, OutputOf(input, changed[i].0, output, host.sep))
        {
          assert changed[i] == rest[i - 1];
        }
      } else {
        var out0 := OutputOf(input, changed[0].0, output, host.sep);
        var b1 := ChangedStep(b, changed[0].0, out0, changed[0].1, mode, host).value;
        assert r == Incremental(b1, input, output, rest, mode, host).value;
        IncrementalRest(b, b1, input, output, changed, mode, host);
        IncrementalContents(b1, input, output, rest, mode, host);
        forall i | 1 <= i < |changed| && Acts(changed[i], input, host.sep)
          ensures Settled(mode, host, b.fs, r.fs, changed[i].0, changed[i].1, OutputOf(input, changed[i].0, output, host.sep))
        {
          assert changed[i] == rest[i - 1];
          assert Same(b1.fs, b.fs, changed[i].0);
        }
        if Acts(changed[0], input, host.sep) {
          IncrementalHead(b, b1, r, input, output, changed, mode, host);
        }
      }
    }
  }

  /** The rest of the entries meet the conditions on the outputs again, and
      the step's build is consistent when the first one was. */
  lemma IncrementalRest(b: Build, b1: Build, input: Path, output: Path, changed: seq<(Path, Status)>, mode: Mode, host: Host)
    requires |changed| > 0 && Under(changed[0].0, input, host.sep)
    requires ChangedStep(b, changed[0].0, OutputOf(input, changed[0].0, output, host.sep), changed[0].1, mode, host) == Success(b1)
    requires mode.Enabled? ==> Consistent(b.cache, mode.key)
    requires forall i, j :: 0 <= i < j < |changed| && Acts(changed[i], input, host.sep) && Acts(changed[j], input, host.sep) ==>
      OutputOf(input, changed[i].0, output, host.sep) != OutputOf(input, changed[j].0, output, host.sep)
    requires forall i, j :: 0 <= i < |changed| && 0 <= j < |changed| && Acts(changed[i], input, host.sep) && Acts(changed[j], input, host.sep) ==>
      OutputOf(input, changed[i].0, output, host.sep) != changed[j].0
    ensures mode.Enabled? ==> Consistent(b1.cache, mode.key)
    ensures var rest := changed[1..];
      forall i, j :: 0 <= i < j < |rest| && Acts(rest[i], input, host.sep) && Acts(rest[j], input, host.sep) ==>
        OutputOf(input, rest[i].0, output, host.sep) != OutputOf(input, rest[j].0, output, host.sep)
    ensures var rest := changed[1..];
      forall i, j :: 0 <= i < |rest| && 0 <= j < |rest| && Acts(rest[i], input, host.sep) && Acts(rest[j], input, host.sep) ==>
        OutputOf(input, rest[i].0, output, host.sep) != rest[j].0
    ensures forall i :: 1 <= i < |changed| && Acts(changed[i], input, host.sep) && changed[0].1 != NotChanged ==>
      OutputOf(input, changed[0].0, output, host.sep) != changed[i].0
    ensures changed[0].1 == NotChanged ==> b1 == b
  {
    var rest := changed[1..];
    assert forall i :: 0 <= i < |rest| ==> rest[i] == changed[i + 1];
  }

  /** The first acted-on entry: the step leaves its output as promised and
      the later entries never touch it again. */
  lemma IncrementalHead(b: Build, b1: Build, r: Build, input: Path, output: Path, changed: seq<(Path, Status)>, mode: Mode, host: Host)
    requires |changed| > 0 && Acts(changed[0], input, host.sep)
    requires ChangedStep(b, changed[0].0, OutputOf(input, changed[0].0, output, host.sep), changed[0].1, mode, host) == Success(b1)
    requires Incremental(b1, input, output, changed[1..], mode, host) == Success(r)
    requires mode.Enabled? ==> Consistent(b.cache, mode.key)
    requires forall i, j :: 0 <= i < j < |changed| && Acts(changed[i], input, host.sep) && Acts(changed[j], input, host.sep) ==>
      OutputOf(input, changed[i].0, output, host.sep) != OutputOf(input, changed[j].0, output, host.sep)
    ensures Settled(mode, host, b.fs, r.fs, changed[0].0, changed[0].1, OutputOf(input, changed[0].0, output, host.sep))
  {
    var out0 := OutputOf(input, changed[0].0, output, host.sep);
    var rest := changed[1..];
    forall i | 0 <= i < |rest| && Acts(rest[i], input, host.sep)
      ensures OutputOf(input, rest[i].0, output, host.sep) != out0
    {
      assert rest[i] == changed[i + 1];
    }
    Untouched(input, output, rest, host.sep, out0);
    assert Same(r.fs, b1.fs, out0);
    if mode.Enabled? && changed[0].1 != Removed {
      var c := host.read(b.fs[changed[0].0]).value;
      assert r.fs[out0] == host.write(ClassVisitor.ModifyClass(c, mode.key, b.cache).0);
    }
  }

  /** What a full build leaves at a file's output, given the file's bytes:
      a copy, or for a rewritable class with the key on, the writer's bytes
      for the visitor's rewrite of the parsed class under a memo map that
      agrees with the key. */
  ghost predicate Converted(mode: Mode, host: Host, file: Path, src: Bytes, dst: Bytes) {
    match mode
    case Transparent => dst == src
    case Enabled(key) => if Rewritable(file, host.sep) then Rewritten(key, host, src, dst) else dst == src
  }

  /** `dst` is what `generateNewClass` writes for a class held in `src`,
      under some memo map that agrees with the key. */
  ghost predicate Rewritten(key: Int32, host: Host, src: Bytes, dst: Bytes) {
    host.read(src).Some? &&
    exists cache {:trigger ClassVisitor.ModifyClass(host.read(src).value, key, cache)} ::
      Consistent(cache, key) && dst == host.write(ClassVisitor.ModifyClass(host.read(src).value, key, cache).0)
  }

  /** One file of the full branch, `out` being its output file: transparent
      copies without overwriting; enabled rewrites a rewritable class and
      copies, overwriting, anything else. */
  function FileStep(b: Build, file: Path, out: Path, mode: Mode, host: Host): (r: Result<Build, IoError>)
    ensures r.Success? ==> out in r.value.fs && forall q :: q != out ==> Same(r.value.fs, b.fs, q)
    ensures mode.Transparent? ==> (r.Success? <==> file in b.fs && out !in b.fs)
    ensures mode.Enabled? && !Rewritable(file, host.sep) ==> (r.Success? <==> file in b.fs)
    ensures mode.Enabled? && Rewritable(file, host.sep) ==> (r.Success? <==> file in b.fs && host.read(b.fs[file]).Some?)
    ensures r.Success? ==> Preserves(mode, b, r.value)
  {
    match mode
    case Transparent =>
      var fs :- CopyTo(b.fs, file, out, false);
      Success(b.(fs := fs))
    case Enabled(key) =>
      if Rewritable(file, host.sep) then GenerateNewClass(b, file, out, key, true, host)
      else
        var fs :- CopyTo(b.fs, file, out, true);
        Success(b.(fs := fs))
  }

  /** A successful step leaves the file converted at its output. */
  lemma FileStepConverts(b: Build, file: Path, out: Path, mode: Mode, host: Host)
    requires FileStep(b, file, out, mode, host).Success?
    requires mode.Enabled? ==> Consistent(b.cache, mode.key)
    ensures file in b.fs && Converted(mode, host, file, b.fs[file], FileStep(b, file, out, mode, host).value.fs[out])
  {
  }

  /** Every walked file paired with its output file, in walk order. */
  function Jobs(input: Path, output: Path, walk: seq<Path>, sep: char): (r: seq<(Path, Path)>)
    ensures |r| == |walk|
    ensures forall i :: 0 <= i < |walk| ==> r[i] == (walk[i], OutputOf(input, walk[i], output, sep))
  {
    if |walk| == 0 then [] else [(walk[0], OutputOf(input, walk[0], output, sep))] + Jobs(input, output, walk[1..], sep)
  }

  function Targets(jobs: seq<(Path, Path)>): (r: seq<Path>)
    ensures |r| == |jobs|
    ensures forall i :: 0 <= i < |jobs| ==> r[i] == jobs[i].1
  {
    if |jobs| == 0 then [] else [jobs[0].1] + Targets(jobs[1..])
  }

  /** The files of the full branch, in walk order. Nothing is deleted, every
      walked file gets its output, and nothing else changes. */
  function WalkFiles(b: Build, jobs: seq<(Path, Path)>, mode: Mode, host: Host): (r: Result<Build, IoError>)
    ensures r.Success? ==> Preserves(mode, b, r.value)
    decreases |jobs|
  {
    if |jobs| == 0 then Success(b)
    else
      var b1 :- FileStep(b, jobs[0].0, jobs[0].1, mode, host);
      WalkFiles(b1, jobs[1..], mode, host)
  }

  /** A successful walk deletes nothing and changes only the jobs' output
      files. */
  lemma {:induction false} WalkFrame(b: Build, jobs: seq<(Path, Path)>, mode: Mode, host: Host)
    ensures WalkFiles(b, jobs, mode, host).Success? ==>
      (forall q :: q in b.fs ==> q in WalkFiles(b, jobs, mode, host).value.fs) &&
      (forall q :: q !in Targets(jobs) ==> Same(WalkFiles(b, jobs, mode, host).value.fs, b.fs, q))
    decreases |jobs|
  {
    if |jobs| > 0 && WalkFiles(b, jobs, mode, host).Success? {
      var b1 := FileStep(b, jobs[0].0, jobs[0].1, mode, host).value;
      WalkFrame(b1, jobs[1..], mode, host);
      assert Targets(jobs) == [jobs[0].1] + Targets(jobs[1..]);
    }
  }

  /** After a successful walk every job's output file exists. */
  lemma {:induction false} WalkCovers(b: Build, jobs: seq<(Path, Path)>, mode: Mode, host: Host)
    ensures WalkFiles(b, jobs, mode, host).Success? ==>
      forall q :: q in Targets(jobs) ==> q in WalkFiles(b, jobs, mode, host).value.fs
    decreases |jobs|
  {
    if |jobs| > 0 && WalkFiles(b, jobs, mode, host).Success? {
      var b1 := FileStep(b, jobs[0].0, jobs[0].1, mode, host).value;
      WalkFrame(b1, jobs[1..], mode, host);
      WalkCovers(b1, jobs[1..], mode, host);
      assert Targets(jobs) == [jobs[0].1] + Targets(jobs[1..]);
    }
  }

  /** The files `walkBottomUp` lists once the old output is deleted, paired
      with their outputs. */
  function FullJobs(fs: Fs, input: Path, output: Path, host: Host): seq<(Path, Path)> {
    Jobs(input, output, host.walk(DeleteRecursively(fs, output, host.sep), input), host.sep)
  }

  /** The full branch for one directory: the old output directory is
      deleted, then every file under the input is handled. Afterwards the
      output directory holds exactly the walked files' outputs, and outside
      it nothing else has changed. */
  function Full(b: Build, input: Path, output: Path, mode: Mode, host: Host): (r: Result<Build, IoError>)
    ensures r.Success? ==> forall q :: q in Targets(FullJobs(b.fs, input, output, host)) ==> q in r.value.fs
    ensures r.Success? ==> forall q :: q in r.value.fs && Under(q, output, host.sep) ==> q in Targets(FullJobs(b.fs, input, output, host))
    ensures r.Success? ==> forall q :: q !in Targets(FullJobs(b.fs, input, output, host)) && !Under(q, output, host.sep) ==>
      Same(r.value.fs, b.fs, q)
    ensures r.Success? ==> Preserves(mode, b, r.value)
  {
    var fs := DeleteRecursively(b.fs, output, host.sep);
    WalkFrame(b.(fs := fs), Jobs(input, output, host.walk(fs, input), host.sep), mode, host);
    WalkCovers(b.(fs := fs), Jobs(input, output, host.walk(fs, input), host.sep), mode, host);
    WalkFiles(b.(fs := fs), Jobs(input, output, host.walk(fs, input), host.sep), mode, host)
  }

  /** When the outputs are distinct and none of them is a walked file,
      every walked file ends up converted at its own output: the full
      branch maps input files one to one. */
  lemma {:induction false} WalkContents(b: Build, jobs: seq<(Path, Path)>, mode: Mode, host: Host)
    requires WalkFiles(b, jobs, mode, host).Success?
    requires mode.Enabled? ==> Consistent(b.cache, mode.key)
    requires forall i, j :: 0 <= i < j < |jobs| ==> jobs[i].1 != jobs[j].1
    requires forall i, j :: 0 <= i < |jobs| && 0 <= j < |jobs| ==> jobs[i].1 != jobs[j].0
    ensures forall i :: 0 <= i < |jobs| ==>
      (jobs[i].0 in b.fs && jobs[i].1 in WalkFiles(b, jobs, mode, host).value.fs &&
       Converted(mode, host, jobs[i].0, b.fs[jobs[i].0], WalkFiles(b, jobs, mode, host).value.fs[jobs[i].1]))
    decreases |jobs|
  {
    if |jobs| > 0 {
      var rest := jobs[1..];
      var b1 := FileStep(b, jobs[0].0, jobs[0].1, mode, host).value;
      var r := WalkFiles(b1, rest, mode, host).value;
      assert WalkFiles(b, jobs, mode, host).value == r;
      WalkRest(jobs);
      WalkContents(b1, rest, mode, host);
      WalkHead(b, b1, r, jobs, mode, host);
      WalkTail(b.fs, b1.fs, r.fs, jobs, mode, host);
      assert forall i :: 0 <= i < |jobs| ==>
        jobs[i].0 in b.fs && jobs[i].1 in r.fs && Converted(mode, host, jobs[i].0, b.fs[jobs[i].0], r.fs[jobs[i].1]);
    }
  }

  /** The jobs after the first keep the outputs apart. */
  lemma WalkRest(jobs: seq<(Path, Path)>)
    requires |jobs| > 0
    requires forall i, j :: 0 <= i < j < |jobs| ==> jobs[i].1 != jobs[j].1
    requires forall i, j :: 0 <= i < |jobs| && 0 <= j < |jobs| ==> jobs[i].1 != jobs[j].0
    ensures var rest := jobs[1..];
      (forall i, j :: 0 <= i < j < |rest| ==> rest[i].1 != rest[j].1) &&
      (forall i, j :: 0 <= i < |rest| && 0 <= j < |rest| ==> rest[i].1 != rest[j].0)
  {
    var rest := jobs[1..];
    assert forall i :: 0 <= i < |rest| ==> rest[i] == jobs[i + 1];
  }

  /** The later jobs read their files in `before` as they were in `fs`,
      since the first step wrote only its own output. */
  lemma WalkTail(fs: Fs, before: Fs, after: Fs, jobs: seq<(Path, Path)>, mode: Mode, host: Host)
    requires |jobs| > 0
    requires forall q :: q != jobs[0].1 ==> Same(before, fs, q)
    requires forall i, j :: 0 <= i < |jobs| && 0 <= j < |jobs| ==> jobs[i].1 != jobs[j].0
    requires var rest := jobs[1..];
      forall i :: 0 <= i < |rest| ==>
        rest[i].0 in before && rest[i].1 in after && Converted(mode, host, rest[i].0, before[rest[i].0], after[rest[i].1])
    ensures forall i :: 1 <= i < |jobs| ==>
      jobs[i].0 in fs && jobs[i].1 in after && Converted(mode, host, jobs[i].0, fs[jobs[i].0], after[jobs[i].1])
  {
    var rest := jobs[1..];
    forall i | 1 <= i < |jobs|
      ensures jobs[i].0 in fs && jobs[i].1 in after && Converted(mode, host, jobs[i].0, fs[jobs[i].0], after[jobs[i].1])
    {
      assert jobs[i] == rest[i - 1];
      assert Same(before, fs, jobs[i].0);
    }
  }

  /** The first job's output, once written, is not written again. */
  lemma WalkHead(b: Build, b1: Build, r: Build, jobs: seq<(Path, Path)>, mode: Mode, host: Host)
    requires |jobs| > 0 && FileStep(b, jobs[0].0, jobs[0].1, mode, host) == Success(b1)
    requires WalkFiles(b1, jobs[1..], mode, host) == Success(r)
    requires mode.Enabled? ==> Consistent(b.cache, mode.key)
    requires forall i, j :: 0 <= i < j < |jobs| ==> jobs[i].1 != jobs[j].1
    ensures jobs[0].0 in b.fs && jobs[0].1 in r.fs && Converted(mode, host, jobs[0].0, b.fs[jobs[0].0], r.fs[jobs[0].1])
  {
    var rest := jobs[1..];
    FileStepConverts(b, jobs[0].0, jobs[0].1, mode, host);
    WalkFrame(b1, rest, mode, host);
    assert jobs[0].1 !in Targets(rest) by {
      forall i | 0 <= i < |rest|
        ensures Targets(rest)[i] != jobs[0].1
      {
        assert rest[i] == jobs[i + 1];
      }
    }
    assert Same(r.fs, b1.fs, jobs[0].1);
  }

  /** One entry of `io`: a directory goes through the incremental or the
      full branch; anything else (a jar, or a directory input that no
      longer exists) has its output deleted and is copied back verbatim. */
  function HandleInput(b: Build, input: Path, output: Path, changed: seq<(Path, Status)>, incremental: bool, mode: Mode, host: Host): (r: Result<Build, IoError>)
    ensures !IsDirectory(b.fs, input, host.sep) ==>
      (r.Success? <==> input in b.fs && !Under(input, output, host.sep)) &&
      (r.Success? ==> r.value.cache == b.cache && output in r.value.fs && r.value.fs[output] == b.fs[input]) &&
      (r.Success? ==> forall q :: q != output ==> Same(r.value.fs, DeleteRecursively(b.fs, output, host.sep), q))
    ensures r.Success? ==> Preserves(mode, b, r.value)
  {
    if IsDirectory(b.fs, input, host.sep) then
      if incremental then Incremental(b, input, output, changed, mode, host)
      else Full(b, input, output, mode, host)
    else
      var fs :- CopyRecursively(DeleteRecursively(b.fs, output, host.sep), input, output);
      Success(b.(fs := fs))
  }

  /** `transparent` and `doTransform`: every entry of `io` in the map's
      order, stopping at the first exception. */
  function HandleAll(b: Build, io: seq<(Path, Path)>, changed: seq<(Path, Status)>, incremental: bool, mode: Mode, host: Host): (r: Result<Build, IoError>)
    ensures r.Success? ==> Preserves(mode, b, r.value)
    decreases |io|
  {
    if |io| == 0 then Success(b)
    else
      var b1 :- HandleInput(b, io[0].0, io[0].1, changed, incremental, mode, host);
      HandleAll(b1, io[1..], changed, incremental, mode, host)
  }

  /** The full branch for a directory: under the same conditions on the
      outputs, each file the walk lists is converted at its output file. */
  lemma FullContents(b: Build, input: Path, output: Path, mode: Mode, host: Host)
    requires Full(b, input, output, mode, host).Success?
    requires mode.Enabled? ==> Consistent(b.cache, mode.key)
    requires var jobs := FullJobs(b.fs, input, output, host);
      forall i, j :: 0 <= i < j < |jobs| ==> jobs[i].1 != jobs[j].1
    requires var jobs := FullJobs(b.fs, input, output, host);
      forall i, j :: 0 <= i < |jobs| && 0 <= j < |jobs| ==> jobs[i].1 != jobs[j].0
    ensures var jobs := FullJobs(b.fs, input, output, host);
      forall i :: 0 <= i < |jobs| ==>
        (jobs[i].0 in b.fs && jobs[i].1 in Full(b, input, output, mode, host).value.fs &&
         Converted(mode, host, jobs[i].0, b.fs[jobs[i].0], Full(b, input, output, mode, host).value.fs[jobs[i].1]))
  {
    var jobs := FullJobs(b.fs, input, output, host);
    var b1 := b.(fs := DeleteRecursively(b.fs, output, host.sep));
    WalkContents(b1, jobs, mode, host);
    forall i | 0 <= i < |jobs|
      ensures jobs[i].0 in b.fs && b1.fs[jobs[i].0] == b.fs[jobs[i].0]
    {
      assert Same(b1.fs, b.fs, jobs[i].0);
    }
  }

  /** `HashMap.get`: the value of the first entry with the key. */
  function Get<V>(m: seq<(Path, V)>, k: Path): Option<V> {
    if |m| == 0 then None else if m[0].0 == k then Some(m[0].1) else Get(m[1..], k)
  }

  /** The value of the last entry with the key: the one a sequence of puts
      leaves behind. */
  function Last<V>(es: seq<(Path, V)>, k: Path): Option<V> {
    if |es| == 0 then None
    else if Last(es[1..], k).Some? then Last(es[1..], k)
    else if es[0].0 == k then Some(es[0].1)
    else None
  }

  /** `HashMap.put`: a present key keeps its slot and takes the new value,
      an absent key is added at the end. */
  function Put<V>(m: seq<(Path, V)>, k: Path, v: V): (r: seq<(Path, V)>)
    ensures Get(r, k) == Some(v)
    ensures forall j :: j != k ==> Get(r, j) == Get(m, j)
  {
    if |m| == 0 then [(k, v)]
    else if m[0].0 == k then [(k, v)] + m[1..]
    else [m[0]] + Put(m[1..], k, v)
  }

  /** `putAll`, or a loop of puts: the last entry for each key wins. */
  function PutAll<V>(m: seq<(Path, V)>, es: seq<(Path, V)>): (r: seq<(Path, V)>)
    ensures forall k :: Get(r, k) == (if Last(es, k).Some? then Last(es, k) else Get(m, k))
    decreases |es|
  {
    if |es| == 0 then m else PutAll(Put(m, es[0].0, es[0].1), es[1..])
  }

  lemma {:induction false} LastSome<V>(es: seq<(Path, V)>, k: Path, v: V)
    requires (k, v) in es
    ensures Last(es, k).Some?
    decreases |es|
  {
    if es[0] != (k, v) {
      assert (k, v) in es[1..];
      LastSome(es[1..], k, v);
    }
  }

  function DirLocations(ds: seq<DirectoryInput>): (r: seq<(Path, Path)>)
    ensures forall d :: d in ds ==> (d.file, d.output) in r
  {
    if |ds| == 0 then [] else [(ds[0].file, ds[0].output)] + DirLocations(ds[1..])
  }

  function JarLocations(js: seq<JarInput>): (r: seq<(Path, Path)>)
    ensures forall j :: j in js ==> (j.file, j.output) in r
  {
    if |js| == 0 then [] else [(js[0].file, js[0].output)] + JarLocations(js[1..])
  }

  function DirChanges(ds: seq<DirectoryInput>): seq<(Path, Status)> {
    if |ds| == 0 then [] else ds[0].changedFiles + DirChanges(ds[1..])
  }

  function JarChanges(js: seq<JarInput>): (r: seq<(Path, Status)>)
    ensures forall j :: j in js ==> (j.file, j.status) in r
  {
    if |js| == 0 then [] else [(js[0].file, js[0].status)] + JarChanges(js[1..])
  }

  /** The puts into `io`, in order: within each `TransformInput` its
      directories, then its jars. */
  function Locations(inputs: seq<TransformInput>): seq<(Path, Path)> {
    if |inputs| == 0 then []
    else DirLocations(inputs[0].directoryInputs) + JarLocations(inputs[0].jarInputs) + Locations(inputs[1..])
  }

  /** The puts into `changedFiles`: each directory's changed files, then
      each jar's own status under the jar's path. */
  function Changes(inputs: seq<TransformInput>): seq<(Path, Status)> {
    if |inputs| == 0 then []
    else DirChanges(inputs[0].directoryInputs) + JarChanges(inputs[0].jarInputs) + Changes(inputs[1..])
  }

  /** The two maps the transform fills before dispatching: `io` from input
      to output location and the merged `changedFiles`; for each path the
      last put wins. */
  function Collect(inputs: seq<TransformInput>): (r: (seq<(Path, Path)>, seq<(Path, Status)>))
    ensures forall k :: Get(r.0, k) == Last(Locations(inputs), k)
    ensures forall k :: Get(r.1, k) == Last(Changes(inputs), k)
  {
    (PutAll([], Locations(inputs)), PutAll([], Changes(inputs)))
  }

  lemma {:induction false} Listed(inputs: seq<TransformInput>, i: nat)
    requires i < |inputs|
    ensures forall d :: d in inputs[i].directoryInputs ==> (d.file, d.output) in Locations(inputs)
    ensures forall j :: j in inputs[i].jarInputs ==> (j.file, j.output) in Locations(inputs) && (j.file, j.status) in Changes(inputs)
    decreases i
  {
    if i > 0 {
      Listed(inputs[1..], i - 1);
    }
  }

  /** Every directory and every jar of the invocation gets an output
      location, and every jar's status is recorded under the jar's path. */
  lemma InputsRecorded(inputs: seq<TransformInput>, i: nat)
    requires i < |inputs|
    ensures forall d :: d in inputs[i].directoryInputs ==> Get(Collect(inputs).0, d.file).Some?
    ensures forall j :: j in inputs[i].jarInputs ==> Get(Collect(inputs).0, j.file).Some? && Get(Collect(inputs).1, j.file).Some?
  {
    Listed(inputs, i);
    forall d | d in inputs[i].directoryInputs
      ensures Last(Locations(inputs), d.file).Some?
    {
      LastSome(Locations(inputs), d.file, d.output);
    }
    forall j | j in inputs[i].jarInputs
      ensures Last(Locations(inputs), j.file).Some? && Last(Changes(inputs), j.file).Some?
    {
      LastSome(Locations(inputs), j.file, j.output);
      LastSome(Changes(inputs), j.file, j.status);
    }
  }

  /** `MuddyTransform.isIncremental()`. */
  const INCREMENTAL_CAPABLE: bool := true

  /** `MuddyTransform.transform`: collect the inputs, then run
      `doTransform` when the extension is enabled and `transparent`
      otherwise. A transparent run only ever writes bytes that some file
      already held and leaves the memo map alone; an enabled run keeps the
      memo map consistent with the key. */
  function Run(inv: Invocation, enable: bool, key: Int32, b: Build, host: Host): (r: Result<Build, IoError>)
    ensures !enable && r.Success? ==> r.value.cache == b.cache && r.value.fs.Values <= b.fs.Values
    ensures enable && r.Success? && Consistent(b.cache, key) ==> Consistent(r.value.cache, key)
  {
    var (io, changed) := Collect(inv.inputs);
    HandleAll(b, io, changed, inv.isIncremental && INCREMENTAL_CAPABLE, if enable then Enabled(key) else Transparent, host)
  }

  /** A jar (anything that is not a directory) is handled the same whatever
      its status, the build's incrementality or the enable flag. */
  lemma JarIgnoresSettings(b: Build, input: Path, output: Path, c1: seq<(Path, Status)>, c2: seq<(Path, Status)>,
                           inc1: bool, inc2: bool, m1: Mode, m2: Mode, host: Host)
    requires !IsDirectory(b.fs, input, host.sep)
    ensures HandleInput(b, input, output, c1, inc1, m1, host) == HandleInput(b, input, output, c2, inc2, m2, host)
  {
  }

  /** A removed jar is no longer there to copy: the copy throws. */
  lemma RemovedJarThrows(b: Build, input: Path, output: Path, changed: seq<(Path, Status)>, incremental: bool, mode: Mode, host: Host)
    requires input !in b.fs && !IsDirectory(b.fs, input, host.sep)
    ensures HandleInput(b, input, output, changed, incremental, mode, host) == Failure(NoSuchFile(input))
  {
  }

  /** The incremental branch has no `.class`/`Muddy` guard: an added file
      the full branch would copy is handed to the class reader, and one
      that does not parse makes the build throw. */
  lemma IncrementalIgnoresGuard(b: Build, file: Path, out: Path, key: Int32, host: Host)
    requires file in b.fs && !Rewritable(file, host.sep) && host.read(b.fs[file]).None?
    ensures ChangedStep(b, file, out, Added, Enabled(key), host) == Failure(ClassFormat(file))
    ensures FileStep(b, file, out, Enabled(key), host) == Success(b.(fs := b.fs[out := b.fs[file]]))
  {
  }

  /** The incremental branch writes without creating directories: an added
      class that parses but whose output directory is missing makes the
      build throw (the full branch, by `FileStep`'s contract, creates the
      directory and succeeds). */
  lemma IncrementalNeedsParent(b: Build, file: Path, out: Path, key: Int32, host: Host)
    requires file in b.fs && host.read(b.fs[file]).Some?
    requires !ParentExists(b.fs, out, host.sep)
    ensures ChangedStep(b, file, out, Added, Enabled(key), host) == Failure(FileNotFound(out))
  {
  }

  /** A changed class whose old output is still there always has its
      directory, so it is rewritten whenever it parses. */
  lemma ChangedOverOutputSucceeds(b: Build, file: Path, out: Path, key: Int32, host: Host)
    requires file in b.fs && host.read(b.fs[file]).Some? && out in b.fs
    ensures ChangedStep(b, file, out, Changed, Enabled(key), host).Success?
  {
  }
}

=== FILE: utf8.dfy ===
/** The UTF-8 encoder `String.getBytes(StandardCharsets.UTF_8)` applies to a
    Java string (section 3 of RFC 3629): a surrogate pair becomes one 4-byte
    sequence, an unpaired surrogate becomes the replacement byte '?'. */
module Utf8 {
  import opened Jvm

  const REPLACEMENT: Byte := 0x3F

  predicate IsHighSurrogate(c: JChar) { 0xD800 <= c < 0xDC00 }
  predicate IsLowSurrogate(c: JChar) { 0xDC00 <= c < 0xE000 }

  /** The bytes of a single non-paired UTF-16 unit. */
  function EncodeUnit(c: JChar): (r: Bytes)
    ensures 1 <= |r| <= 3
    ensures 0 in r <==> c == 0
  {
    if c < 0x80 then [c as Byte]
    else if c < 0x800 then [0xC0 | (c >> 6) as Byte, 0x80 | (c & 0x3F) as Byte]
    else if IsHighSurrogate(c) || IsLowSurrogate(c) then [REPLACEMENT]
    else [0xE0 | (c >> 12) as Byte, 0x80 | ((c >> 6) & 0x3F) as Byte, 0x80 | (c & 0x3F) as Byte]
  }

  /** The four bytes of the supplementary code point a surrogate pair
      stands for; none of them is zero. */
  function EncodePair(hi: JChar, lo: JChar): (r: Bytes)
    requires IsHighSurrogate(hi) && IsLowSurrogate(lo)
    ensures |r| == 4 && 0 !in r
  {
    var cp: bv32 := 0x10000 + (((hi - 0xD800) as bv32) << 10) + ((lo - 0xDC00) as bv32);
    [0xF0 | ((cp >> 18) & 0x07) as Byte, 0x80 | ((cp >> 12) & 0x3F) as Byte,
     0x80 | ((cp >> 6) & 0x3F) as Byte, 0x80 | (cp & 0x3F) as Byte]
  }

  function Encode(s: JString): (r: Bytes)
    ensures |r| <= 3 * |s|
    decreases |s|
  {
    if |s| == 0 then []
    else if |s| >= 2 && IsHighSurrogate(s[0]) && IsLowSurrogate(s[1]) then EncodePair(s[0], s[1]) + Encode(s[2..])
    else EncodeUnit(s[0]) + Encode(s[1..])
  }

  /** A zero byte appears in the encoding exactly when U+0000 appears in
      the string, since every lead and continuation byte has a high bit set
      and the replacement byte is '?'. */
  lemma {:induction false} ZeroByteIffNul(s: JString)
    ensures 0 in Encode(s) <==> 0 in s
    decreases |s|
  {
    if |s| > 0 {
      if |s| >= 2 && IsHighSurrogate(s[0]) && IsLowSurrogate(s[1]) {
        ZeroByteIffNul(s[2..]);
        assert s == [s[0], s[1]] + s[2..];
      } else {
        ZeroByteIffNul(s[1..]);
        assert s == [s[0]] + s[1..];
      }
    }
  }

  /** A string of ASCII characters encodes to one byte per character. */
  lemma {:induction false} AsciiOneBytePerChar(s: JString)
    requires forall i :: 0 <= i < |s| ==> s[i] < 0x80
    ensures |Encode(s)| == |s|
    decreases |s|
  {
    if |s| > 0 {
      AsciiOneBytePerChar(s[1..]);
    }
  }
}

=== FILE: wrappers.dfy ===
/** Failure-carrying result types used across the model in place of the
    exceptions and null returns of the original code, and the one sequence
    fact every module leans on. */
module Wrappers {

  datatype Option<+T> = None | Some(value: T)

  datatype Result<+R, +E> = Success(value: R) | Failure(error: E) {
    predicate IsFailure() {
      Failure?
    }

    function PropagateFailure<U>(): Result<U, E>
      requires Failure?
    {
      Failure(error)
    }

    function Extract(): R
      requires Success?
    {
      value
    }
  }

  /** Concatenation regroups freely. */
  lemma AppendAssoc<T>(a: seq<T>, b: seq<T>, c: seq<T>)
    ensures (a + b) + c == a + (b + c)
  {
  }
}
